=== FILE: README.md ===
# ExtendedKCC locomotion core in Dafny

A functional model of the locomotion state machine of the ExtendedKCC kinematic
character controller. The model covers these parts:

- **The host** (`KccController`). It owns a pool of four locomotion states, created
  in a fixed order and looked up by key. It switches between them in one fixed
  order: the exit hook, then the entry hook, then the new state becomes current.
  It forwards each motor callback to the current state.
- **The states.**
  - `StateGrounded`: request latches, jumping with its two grace timers,
    move-type and posture toggles with the capsule overlap check, and the
    locomotion classification.
  - `StateUngrounded`: jump or fall entry, air control with its speed clamp,
    gravity, drag and fall detection.
  - `StateClimbing`: position-driven movement handed to the climb rig.
  - `StateSwimming`: ground solving switched off.
  - `StateBase` holds what the states share.
- **The climb rig** (`ClimbRig`). It casts probes, takes the means of the hit
  normals and points, reports a stable ledge above the rig, and moves its target
  from climb input.
- **The animation bridge** (`AnimationBridge`). It smooths the character's local
  velocity, strafe weight and turn rate. It also latches the jump, fall and land
  notifications.

Floats become exact reals and vectors become `Vectors.Vec3`. Quaternions are
`Vectors.Quat`, rotated with the engine's own polynomial.

Every notification the core sends is appended to an event log (`Controller.events`).
The log is folded into the optional bridge. Every state hook is appended to a
lifecycle log (`Controller.lifecycle`), so the order of exit, entry and activation
can be stated. Everything the engine computes is passed in through `KccController.Env`:

- the camera view;
- the stable-ground velocity steering;
- capsule overlap queries;
- square roots;
- the rig's raycasts and slope angle;
- the default orientation;
- the engine-reported yaw.

`ControllerProperties` collects the controller-wide theorems:

- what each transition does to the motor, the event log and the pool;
- the nested transition a climb entry makes when the rig starts on a ledge;
- that over any admissible run of callbacks from `Awake`:
  - the active state is the one the lifecycle log last activated;
  - the bridge's latches are exactly the fold of the announced events.

## Model

| member | source | states |
|---|---|---|
| KccPool.CreateControllerStates | Runtime/Core/ControllerKCC.cs:126-132 | the pool holds grounded, ungrounded, climbing and swimming states in that order; the grounded state is built from the config, the ungrounded one from the motor velocity, and the climbing one holds the rig |
| KccPool.FindState | Runtime/Core/ControllerKCC.cs:154-167 | the result is the index of the first state with the key; there is none exactly when no state has that key |
| KccPool.GetState | Runtime/Core/ControllerKCC.cs:154-167 | the loop returns the first index whose key matches, or none when no state matches, and agrees with `FindState` |
| KccPool.OneStatePerKey | Runtime/Core/ControllerKCC.cs:126-132 | in a created pool every key is found, at its creation slot, and no other slot holds that key |
| KccPool.CleanupAll | Runtime/Core/ControllerKCC.cs:85-91 | cleanup keeps every state's kind; it destroys the climbing state's rig and leaves the other states as they were |
| KccController.Awake | Runtime/Core/ControllerKCC.cs:57-73 | after waking, the pool is well formed and the ungrounded state is current; no hook has run and no event has been sent; motor, bridge and ignored colliders are the ones given |
| KccController.Transition | Runtime/Core/ControllerKCC.cs:140-152 | the lifecycle log gains the exit of the old state, then the entry of the new one, and ends with the new state's activation; the new state ends current and host fields are untouched; for any target but climbing those are the only three entries |
| KccController.ExitHook | Runtime/Core/ControllerKCC.cs:140-152 | leaving climbing deactivates only the climbing state's rig; leaving any other state changes no state; the motor and events stay unchanged |
| KccController.EntryHook | Runtime/Core/ControllerKCC.cs:140-152 | an entry hook only appends to the lifecycle log; for any target but climbing it leaves the current state and the log unchanged |
| KccController.StableGroundReached | Runtime/States/Climbing/ControllerHumanoidStateClimbing.cs:101-105 | a ledge report puts the body on the point with the rig's zero rotation and ground solving on, deactivates the rig, announces one landing and moves the controller from climbing to grounded, with exactly that transition's three lifecycle entries |
| KccController.ReceiveInput | Runtime/Core/ControllerKCC.cs:98-104 | the input is stored; only the grounded state forwards it into its request latches; other states are untouched |
| KccController.Tick | Runtime/Core/ControllerKCC.cs:111-116 | the move and look vectors are copied from the stored input, and nothing else changes |
| KccController.BeforeCharacterUpdate | Runtime/Core/ControllerKCC.cs:174-180 | the movement collision is cleared; only climbing does any further work: the rig's tick is stored in its slot, and when the tick finds a ledge the body lands on it and the grounded state takes over with the rig deactivated |
| KccController.ClimbingTick | Runtime/States/Climbing/ControllerHumanoidStateClimbing.cs:51-57 | the climbing slot takes the ticked rig when no ledge is found; a ledge puts the body on the ground point with the rig's zero rotation, deactivates the ticked rig, announces one landing and logs the climbing-to-grounded switch |
| KccController.GroundingEdge | Runtime/Core/ControllerKCC.cs:182-193 | landing is found-now and not-before; leaving is the reverse; steady is no change; each holds in both directions |
| KccController.OnCharacterGrounded | Runtime/States/Ungrounded/ControllerHumanoidStateUngrounded.cs:78-81 | landing moves the ungrounded state to grounded; every other state ignores it |
| KccController.OnCharacterUngrounded | Runtime/States/Grounded/ControllerKCCStateGrounded.cs:174-180 | leaving the ground moves the grounded state to ungrounded; every other state ignores it |
| KccController.PostGroundingUpdate | Runtime/Core/ControllerKCC.cs:182-193 | a landing edge dispatches the grounded callback and a leaving edge the ungrounded one; a steady frame changes nothing |
| KccController.UpdateRotation | Runtime/Core/ControllerKCC.cs:195-202 | first person leaves the body unturned; in third person climbing takes the rig's target rotation and the other states take the default orientation; only the rotation changes (see Left out for the slope orientation) |
| KccController.ConsumeImpulse | Runtime/Core/ControllerKCC.cs:207-211 | the pending velocity add is applied to the velocity and reset to zero |
| KccController.ImpulseAppliedOnce | Runtime/Core/ControllerKCC.cs:207-211 | a consumed impulse adds nothing on the next update |
| KccController.UpdateVelocity | Runtime/Core/ControllerKCC.cs:204-214 | the pending add is applied once and cleared; grounded and airborne hand the velocity plus the add to their own update and write back its data, body, velocity and announcements; swimming only receives the add; climbing zeroes the velocity and puts the body on the rig's moved target; the current state and lifecycle are unchanged |
| KccController.AfterCharacterUpdate | Runtime/Core/ControllerKCC.cs:216-223 | the local velocity is the velocity in the body's frame; grounded reclassifies its locomotion from it and its jump data follows the end-of-update jump bookkeeping; the climbing rig follows the body; the motor is untouched; the bridge marks ungrounded exactly in the ungrounded state and strafes only when grounded |
| KccController.OnGroundHit | Runtime/States/Climbing/ControllerHumanoidStateClimbing.cs:94-99 | a ground hit while climbing switches to grounded; every other state ignores it |
| KccController.OnMovementHit | Runtime/Core/ControllerKCC.cs:239-246 | only the grounded state records a movement collision, and it records the side of the hit |
| KccController.IsColliderValidForCollisions | Runtime/Core/ControllerKCC.cs:276-279 | a collider is valid exactly when it is not in the ignored list |
| KccController.IgnoreOneMore | Runtime/Core/ControllerKCC.cs:276-279 | ignoring one more collider invalidates that collider and leaves the others as they were |
| KccController.RigFixedUpdate | Runtime/States/Climbing/ControllerHumanoidClimbRig.cs:71-74 | a rig that is inactive or destroyed leaves the controller unchanged; an active, living rig ticks, and a ledge found by the tick lands the body and hands over to the grounded state |
| KccController.OnDestroy | Runtime/Core/ControllerKCC.cs:85-91 | destruction kills the rig and changes only the states |
| ControllerProperties.TransitionToGrounded | Runtime/States/Grounded/ControllerKCCStateGrounded.cs:55-61 | entering grounded turns ground solving on and sends exactly one land event, which reaches the bridge; the grounded state's own data is untouched |
| ControllerProperties.TransitionToUngrounded | Runtime/States/Ungrounded/ControllerHumanoidStateUngrounded.cs:28-55 | entering ungrounded turns ground solving on; a jump tag sends a jump event and records a jump entry; a fall tag sends a fall event and records a fall entry; any other tag sends nothing |
| ControllerProperties.TransitionToSwimming | Runtime/States/Swimming/ControllerHumanoidStateSwimming.cs:24-29 | entering swimming turns ground solving off and sends nothing |
| ControllerProperties.LandingFromAir | Runtime/Core/ControllerKCC.cs:185-188 | landing from the air makes grounded current with exactly one land event and three lifecycle entries; the bridge's jump and fall latches are cleared |
| ControllerProperties.LeavingGround | Runtime/Core/ControllerKCC.cs:189-192 | leaving the ground makes ungrounded current; the event and the bridge latch are jump when a jump fired this frame and fall otherwise |
| ControllerProperties.EntryHookOnLedge | Runtime/States/Climbing/ControllerHumanoidClimbRig.cs:44-64 | when the rig's first cast finds a ledge, the climbing entry hook itself performs the switch to grounded, with the rig still enabled |
| ControllerProperties.StableGroundEffects | Runtime/States/Climbing/ControllerHumanoidStateClimbing.cs:101-105 | a ledge report places the body at the ledge point with the rig's zero rotation, turns ground solving on, sends one land event and deactivates the rig |
| ControllerProperties.ClimbEntryOnLedge | Runtime/Core/ControllerKCC.cs:140-152 | entering climbing onto a ledge runs a nested switch to grounded; the outer switch still ends with climbing current, the rig inactive but enabled and six lifecycle entries |
| ControllerProperties.ClimbEntryOnWall | Runtime/States/Climbing/ControllerHumanoidStateClimbing.cs:30-37 | entering climbing at a wall activates the rig at the body's pose and leaves the motor and events untouched |
| ControllerProperties.GroundHitEndsClimb | Runtime/States/Climbing/ControllerHumanoidStateClimbing.cs:94-99 | a ground hit while climbing makes grounded current, deactivates the rig, turns ground solving on and sends one land event |
| ControllerProperties.ClimbTickReachesLedge | Runtime/States/Climbing/ControllerHumanoidStateClimbing.cs:51-57 | a climbing tick that finds a ledge places the body on it and ends in the grounded state |
| ControllerProperties.SwimmingIsPassive | Runtime/States/Swimming/ControllerHumanoidStateSwimming.cs:3-38 | in swimming, grounding edges, ground and movement hits, input and the pre-update change nothing beyond the stored input and the cleared collision |
| ControllerProperties.TransitionDelivers | Runtime/Core/ControllerKCC.cs:140-152 | every event a transition appends reaches the bridge, in order, nested ledge switch included |
| ControllerProperties.TransitionMatchesLog | Runtime/Core/ControllerKCC.cs:140-152 | after any transition the current state is the one the lifecycle log last activated |
| ControllerProperties.RunKeeps | Runtime/Core/ControllerKCC.cs:98-246 | over any sequence of admissible callbacks, every appended event has reached the bridge in order, and the current state stays the one last activated |
| ControllerProperties.BridgeFollowsAnnouncements | Runtime/Animation/KCCAnimationBridge.cs:117-133 | after any run from waking, the jump latch is set exactly when a jump was announced since the last landing; the fall latch likewise; the land signal count equals the number of landings when a handler is attached |
| StateBase.ApplyGravity | Runtime/States/ControllerKCCState.cs:193-196 | the velocity changes by gravity times the time step |
| StateBase.ApplyDrag | Runtime/States/ControllerKCCState.cs:198-201 | the dragged velocity times one plus drag times the time step is the original velocity |
| StateBase.DragNeverSpeedsUp | Runtime/States/ControllerKCCState.cs:198-201 | with non-negative drag and time step, drag scales the velocity by a factor in (0, 1]; it never lengthens it and keeps the sign of its vertical part |
| StateBase.ObstructionNormal | Runtime/States/Grounded/ControllerKCCStateGrounded.cs:274-280 | the obstruction normal is perpendicular to the character's up axis |
| StateBase.IsColliderValidForCollisions | Runtime/States/ControllerKCCState.cs:220-223 | the base state accepts no collider |
| MotorBody.TryApplyNewMotorCapsuleDimensions | Runtime/Core/ControllerKCC.cs:291-312 | the new dimensions are kept exactly when nothing overlaps them; otherwise height and offset revert; the radius is always the fixed one |
| MotorBody.RollbackRestoresCapsule | Runtime/Core/ControllerKCC.cs:305-308 | a refused resize gives back the capsule it started from |
| StateGrounded.DefaultConfigBands | Runtime/Core/DataConfigKCC.cs:11-13 | with the shipped speeds, upright locomotion is walk up to 2.5, run up to 6, sprint up to 11 and idle otherwise; the move types cap stable speed at 2.5, 6 and 10 |
| StateGrounded.Create | Runtime/States/Grounded/ControllerKCCStateGrounded.cs:42-48 | crouched and prone heights are the standing height times their multipliers; a new state is upright, default-paced, unjumped, with an infinite request timer, and satisfies the grounded invariant |
| StateGrounded.ForwardInputValues | Runtime/States/Grounded/ControllerKCCStateGrounded.cs:74-95 | a jump press latches a jump request and restarts its timer; otherwise only the first of sprint, walk and crouch latches; no latch is ever lowered |
| StateGrounded.ForwardRaisesAtMostOneLatch | Runtime/States/Grounded/ControllerKCCStateGrounded.cs:74-95 | one input raises at most one of the four request latches and lowers none |
| StateGrounded.MaxStableMoveSpeed | Runtime/States/Grounded/ControllerKCCStateGrounded.cs:200-212 | the cap is one of the three configured speeds and lies between walk and sprint when the tiers are ordered |
| StateGrounded.MoveTypeSpeedsOrdered | Runtime/States/Grounded/ControllerKCCStateGrounded.cs:200-212 | walking is slower than default, which is slower than sprinting |
| StateGrounded.DoJump | Runtime/States/Grounded/ControllerKCCStateGrounded.cs:310-332 | the velocity's component along up becomes the jump speed along the jump direction plus the forward share of the input; in the plane across up the old velocity is kept and only the impulse and the input share are added; the motor is forced off the ground and one jump event is sent |
| StateGrounded.JumpDirection | Runtime/States/Grounded/ControllerKCCStateGrounded.cs:312-317 | the jump goes along the ground normal when sliding and straight up otherwise |
| StateGrounded.TryJump | Runtime/States/Grounded/ControllerKCCStateGrounded.cs:296-308 | the jump fires exactly when a request is pending, unspent and within the post-grounding grace; the request timer always advances; without a jump nothing else changes |
| StateGrounded.ProcessJump | Runtime/States/Grounded/ControllerKCCStateGrounded.cs:334-363 | a request older than the pre-grounding grace is dropped; on jumpable ground the jump is re-armed unless it fired this frame and the able-to-jump timer resets; off it the timer advances |
| StateGrounded.LandingRearmsJump | Runtime/States/Grounded/ControllerKCCStateGrounded.cs:346-357 | after bookkeeping on jumpable ground without a jump this frame, a fresh press can jump |
| StateGrounded.SetRunState | Runtime/States/Grounded/ControllerKCCStateGrounded.cs:385-415 | requesting the current move type returns to default; a new one is taken only while upright; each change is announced with its old and new types |
| StateGrounded.SprintToggleReturns | Runtime/States/Grounded/ControllerKCCStateGrounded.cs:385-415 | from default upright, two sprint requests come back to the original state |
| StateGrounded.TrySprint | Runtime/States/Grounded/ControllerKCCStateGrounded.cs:370-383 | a pending sprint request is served through the run-state toggle and cleared |
| StateGrounded.TryWalk | Runtime/States/Grounded/ControllerKCCStateGrounded.cs:422-439 | a pending walk request is served through the run-state toggle and cleared |
| StateGrounded.ToggleTarget | Runtime/States/Grounded/ControllerKCCStateGrounded.cs:466-483 | the target for every posture and tap kind: a single tap goes to crouched, or back to upright from crouched; a multi-tap goes to prone, or back to upright from prone |
| StateGrounded.SingleTapTwiceReturns | Runtime/States/Grounded/ControllerKCCStateGrounded.cs:466-483 | two single taps from a non-prone posture return to it |
| StateGrounded.TrySetCrouchState | Runtime/States/Grounded/ControllerKCCStateGrounded.cs:485-551 | when not sprinting, a lowering change always goes through and a raising one only if the taller capsule fits; an accepted change sets posture and capsule and is announced; a refused one leaves posture, events and capsule size unchanged |
| StateGrounded.CrouchKeepsCapsuleMatched | Runtime/States/Grounded/ControllerKCCStateGrounded.cs:485-590 | once the capsule matches the posture tier, any posture attempt keeps it matching |
| StateGrounded.TryCrouch | Runtime/States/Grounded/ControllerKCCStateGrounded.cs:446-464 | the posture ends as the crouch reference gives: the tap's target when a request is pending, not sprinting, and lowering or fitting; a change is announced and resizes the capsule to the new tier; both latches end clear |
| StateGrounded.Classify | Runtime/States/Grounded/ControllerKCCStateGrounded.cs:120-167 | sliding is SlideUnstable, crouched is CrouchWalk, prone is ProneCrawl; the speed bands apply exactly when upright and not sliding |
| StateGrounded.UprightSpeedBands | Runtime/States/Grounded/ControllerKCCStateGrounded.cs:134-156 | upright forward speed maps to walk, run, sprint or idle exactly by the configured band edges |
| StateGrounded.ProcessLocomotionState | Runtime/States/Grounded/ControllerKCCStateGrounded.cs:120-167 | the stored locomotion becomes the classification; a change is announced with old and new values; no change leaves everything as it was |
| StateGrounded.LocomotionSettles | Runtime/States/Grounded/ControllerKCCStateGrounded.cs:162-166 | classifying twice with the same speed announces nothing the second time |
| StateGrounded.UpdateGroundUnstable | Runtime/States/Grounded/ControllerKCCStateGrounded.cs:268-289 | on steep ground, input opposing the result is ignored; without sliding jumps the added velocity never points into the slope |
| StateGrounded.UpdateGroundStable | Runtime/States/Grounded/ControllerKCCStateGrounded.cs:222-263 | on stable ground the speed cap follows the move type; the jump fires exactly when allowed; without a jump the velocity is the steered one and the motor is at most resized; with one the velocity is the jump's result on the steered velocity, the motor is forced off the ground and the first new announcement is the jump; exactly one jump is announced when it fires and none otherwise; the move type ends as the sprint-then-walk reference gives; the posture ends as the crouch reference gives at that move type; all latches end clear |
| StateGrounded.RequestsServedInOrder | Runtime/States/Grounded/ControllerKCCStateGrounded.cs:254-262 | serving sprint, then walk, then crouch gives the reference move type, and the reference posture judged at that move type |
| StateGrounded.UpdateVelocity | Runtime/States/Grounded/ControllerKCCStateGrounded.cs:187-198 | stable ground steers, jumps and serves the requests with the same velocity, motor, jump announcement, move type and posture outcomes as the stable-ground update; sliding changes neither move type, posture nor capsule; no ground changes nothing |
| StateGrounded.SlidingNeverClimbs | Runtime/States/Grounded/ControllerKCCStateGrounded.cs:274-280 | while sliding without sliding jumps, the velocity change has no component along the obstruction normal |
| StateGrounded.AfterCharacterUpdate | Runtime/States/Grounded/ControllerKCCStateGrounded.cs:113-118 | the locomotion is reclassified, and a change is announced; every other field of the grounded data is what the jump bookkeeping produces; move type, posture, motor and velocity are untouched |
| StateGrounded.TransitionToState | Runtime/States/Grounded/ControllerKCCStateGrounded.cs:55-61 | entry turns ground solving on and sends one land event |
| StateGrounded.UngroundPayload | Runtime/States/Grounded/ControllerKCCStateGrounded.cs:174-180 | the exit tag is the jump tag exactly when a jump fired this frame and the fall tag otherwise |
| StateGrounded.OnMovementHit | Runtime/States/Grounded/ControllerKCCStateGrounded.cs:604-618 | the hit is in front exactly when its horizontal offset points along the body's forward; otherwise it is behind |
| StateGrounded.MovementHitIgnoresHeight | Runtime/States/Grounded/ControllerKCCStateGrounded.cs:604-618 | the hit's height does not affect the side |
| GroundedRuns.JumpsBoundedByPresses | Runtime/States/Grounded/ControllerKCCStateGrounded.cs:74-95 | over any run of grounded callbacks, with each velocity update seeing its own steering and overlap answers, jumps fired plus the one pending never exceed the start plus the jump presses |
| GroundedRuns.FreshStateJumpsAtMostPresses | Runtime/States/Grounded/ControllerKCCStateGrounded.cs:296-332 | from a fresh grounded state no more jumps fire than jump presses arrive |
| GroundedRuns.RunPreservesInv | Runtime/States/Grounded/ControllerKCCStateGrounded.cs:385-415 | over any run, sprinting implies upright and the multi-tap latch stays clear |
| GroundedRuns.SlidingKeepsStaleJumpFlag | Runtime/States/Grounded/ControllerKCCStateGrounded.cs:187-198 | sliding without sliding jumps does not clear the jumped-this-frame flag, so leaving the ground then is tagged as a jump |
| StateUngrounded.Create | Runtime/States/Ungrounded/ControllerHumanoidStateUngrounded.cs:18-21 | a new airborne state is falling exactly when the motor moves down |
| StateUngrounded.TransitionToState | Runtime/States/Ungrounded/ControllerHumanoidStateUngrounded.cs:28-55 | entry turns ground solving on; the jump tag records a jump entry and sends a jump event; the fall tag records a fall entry and sends a fall event; any other tag does neither |
| StateUngrounded.ClampMagnitude | Runtime/States/Ungrounded/ControllerHumanoidStateUngrounded.cs:99-105 | a vector already within the limit is unchanged |
| StateUngrounded.ClampWithinLimitWhenExact | Runtime/States/Ungrounded/ControllerHumanoidStateUngrounded.cs:99-105 | with an exact root and a non-negative limit, the clamped vector is never longer than the limit |
| StateUngrounded.LimitAirInput | Runtime/States/Ungrounded/ControllerHumanoidStateUngrounded.cs:99-114 | under the air speed cap, the planar velocity plus input stays within the cap; at or over it, input along the velocity is removed so it can only turn |
| StateUngrounded.TurnOnlyAirInput | Runtime/States/Ungrounded/ControllerHumanoidStateUngrounded.cs:106-114 | input that would speed up along the planar velocity becomes perpendicular to it; other input passes unchanged |
| StateUngrounded.ObstructAirInput | Runtime/States/Ungrounded/ControllerHumanoidStateUngrounded.cs:116-127 | over ground, input that would add velocity loses its part along the obstruction normal; without ground it passes unchanged |
| StateUngrounded.AirAcceleration | Runtime/States/Ungrounded/ControllerHumanoidStateUngrounded.cs:88-127 | in open air under the cap, the accelerated planar velocity stays within the cap |
| StateUngrounded.TrackFalling | Runtime/States/Ungrounded/ControllerHumanoidStateUngrounded.cs:136-149 | the falling flag follows the vertical velocity's sign; a fall event is sent only when a fall starts |
| StateUngrounded.UpdateVelocity | Runtime/States/Ungrounded/ControllerHumanoidStateUngrounded.cs:88-150 | every update adds the air-control acceleration (only when there is move input), then gravity times the step, then divides by one plus drag times the step; without input that is gravity and drag alone; fall tracking runs only after a jump entry |
| StateUngrounded.FallBeginOncePerDescent | Runtime/States/Ungrounded/ControllerHumanoidStateUngrounded.cs:136-149 | over a run of vertical velocities, the fall events sent equal the number of descents begun |
| ClimbRig.NewRig | Runtime/States/Climbing/ControllerHumanoidClimbRig.cs:37 | a new rig is alive but neither active nor enabled |
| ClimbRig.GatherClimbHits | Runtime/States/Climbing/ControllerHumanoidClimbRig.cs:92-148 | a ledge is reported exactly when the downward hit is above the bottom-right probe and not too steep; climb normal and point are the means of the four hits, with a miss counting as zero; the ground marker follows the downward hit |
| ClimbRig.FlatWallNormal | Runtime/States/Climbing/ControllerHumanoidClimbRig.cs:144-145 | four hits with the same normal give that normal |
| ClimbRig.AllMissedGivesZero | Runtime/States/Climbing/ControllerHumanoidClimbRig.cs:144-145 | four missed probes give a zero normal and point |
| ClimbRig.UnrotatedLedgeComparesHeights | Runtime/States/Climbing/ControllerHumanoidClimbRig.cs:119-135 | for an unrotated rig, the ledge test compares world heights |
| ClimbRig.OffsetIgnoresPosition | Runtime/States/Climbing/ControllerHumanoidClimbRig.cs:58-60 | the climb point offset depends only on probe layout and rotation, and is minus the mean of the rotated probe offsets |
| ClimbRig.Init | Runtime/States/Climbing/ControllerHumanoidClimbRig.cs:44-64 | the rig takes the controller's pose as pose and target, is enabled, holds a current offset, and reports a ledge exactly when the first cast finds one |
| ClimbRig.ClimbTick | Runtime/States/Climbing/ControllerHumanoidClimbRig.cs:76-90 | a disabled rig does nothing; an enabled one casts, with climb normal and point the means of the hits; it faces the reversed climb normal; it places the target the surface offset back from the climb point plus the offset stored before the tick; the offset is then recomputed; the tick never moves its own pose |
| ClimbRig.TickTargetFollowsClimbPoint | Runtime/States/Climbing/ControllerHumanoidClimbRig.cs:84 | when the stored offset matches the pose (after a tick, or after following the body without turning), the target stands off the climb point by the surface offset along forward, measured from the probe centre |
| ClimbRig.TickKeepsCurrentOffset | Runtime/States/Climbing/ControllerHumanoidClimbRig.cs:86-89 | the offset and centre recomputed after a tick equal the ones from before it, since the pose does not move |
| ClimbRig.ReceiveClimbInput | Runtime/States/Climbing/ControllerHumanoidClimbRig.cs:150-155 | only the target position moves, and it does not move without horizontal input; the step itself is stated by ClimbInputRotatesLocalStep |
| ClimbRig.ClimbInputRotatesLocalStep | Runtime/States/Climbing/ControllerHumanoidClimbRig.cs:152-154 | the target moves by the rig's rotation applied to a step that is, in the rig's own frame, the sideways input times the horizontal climb speed across and the forward input times the vertical climb speed upwards |
| ClimbRig.ClimbInputUnrotated | Runtime/States/Climbing/ControllerHumanoidClimbRig.cs:152-154 | an unturned rig moves its target along world x by the sideways input times the horizontal climb speed and along world y by the forward input times the vertical climb speed |
| ClimbRig.ClimbInputAdditive | Runtime/States/Climbing/ControllerHumanoidClimbRig.cs:150-155 | two inputs move the target as far as their sum |
| ClimbRig.ClimbInputIgnoresHeight | Runtime/States/Climbing/ControllerHumanoidClimbRig.cs:150-155 | the input's vertical component has no effect |
| ClimbRig.SyncRigPosition | Runtime/States/Climbing/ControllerHumanoidClimbRig.cs:157-161 | the rig takes the body's pose and nothing else changes |
| ClimbRig.FixedUpdate | Runtime/States/Climbing/ControllerHumanoidClimbRig.cs:71-74 | only an active, living rig ticks; otherwise nothing happens |
| StateClimbing.TransitionToState | Runtime/States/Climbing/ControllerHumanoidStateClimbing.cs:30-37 | entry activates and enables the rig at the body's pose and may report a ledge from the first cast |
| StateClimbing.TransitionFromState | Runtime/States/Climbing/ControllerHumanoidStateClimbing.cs:39-44 | exit deactivates the rig but leaves it enabled and alive |
| StateClimbing.ExitKeepsRigEnabled | Runtime/States/Climbing/ControllerHumanoidStateClimbing.cs:39-44 | after entry and exit the rig is still enabled, so a tick through the state still casts |
| StateClimbing.ExitStopsFixedUpdate | Runtime/States/Climbing/ControllerHumanoidClimbRig.cs:71-74 | a deactivated or destroyed rig does not tick on its own |
| StateClimbing.BeforeCharacterUpdate | Runtime/States/Climbing/ControllerHumanoidStateClimbing.cs:51-57 | a disabled rig does nothing; an enabled rig reports the ground point as a ledge exactly when its cast finds one, takes the means of its hits as climb point and normal, faces into the wall, and sets its target the surface offset back from the climb point plus its stored offset; the pose and flags stay the same |
| StateClimbing.UpdateRotation | Runtime/States/Climbing/ControllerHumanoidStateClimbing.cs:72-75 | the body takes the rig's target rotation and nothing else changes |
| StateClimbing.RotationIgnoresLook | Runtime/States/Climbing/ControllerHumanoidStateClimbing.cs:72-75 | the look direction has no effect on the rotation |
| StateClimbing.UpdateVelocity | Runtime/States/Climbing/ControllerHumanoidStateClimbing.cs:82-87 | the velocity is zeroed and the body goes to the rig's target after the input moved it |
| StateClimbing.TwoUpdatesAddInputs | Runtime/States/Climbing/ControllerHumanoidStateClimbing.cs:82-87 | two velocity updates equal one with the summed input |
| StateClimbing.AfterCharacterUpdate | Runtime/States/Climbing/ControllerHumanoidStateClimbing.cs:59-65 | the rig follows the body's pose |
| StateClimbing.PlaceOnLedge | Runtime/States/Climbing/ControllerHumanoidClimbRig.cs:130-133 | the body goes to the ledge point with the all-zero rotation |
| StateClimbing.Cleanup | Runtime/States/Climbing/ControllerHumanoidStateClimbing.cs:112-120 | cleanup leaves the rig destroyed and is idempotent |
| StateSwimming.TransitionToState | Runtime/States/Swimming/ControllerHumanoidStateSwimming.cs:24-29 | entry turns ground solving off and changes nothing else |
| AnimationBridge.NewBridge | Runtime/Animation/KCCAnimationBridge.cs:14-34 | a new bridge has no latches set, no lands counted and zero smoothed values |
| AnimationBridge.ShouldStrafe | Runtime/Animation/KCCAnimationBridge.cs:87-110 | strafing happens only when grounded; in first person, moving backward or a front collision with enough strafe weight strafes; in third person only the collision case does |
| AnimationBridge.FirstPersonStrafesMore | Runtime/Animation/KCCAnimationBridge.cs:87-110 | first person strafes whenever third person does, and the two agree when moving forward |
| AnimationBridge.Wrap | Runtime/Animation/KCCAnimationBridge.cs:71-76 | the yaw delta moves by at most one turn and lands within the wrap limit |
| AnimationBridge.YawDeltaBounded | Runtime/Animation/KCCAnimationBridge.cs:71-76 | the wrapped difference of two engine yaws is within the wrap limit |
| AnimationBridge.UpdateAnimationProperties | Runtime/Animation/KCCAnimationBridge.cs:52-85 | each smoothed value lies between its old value and its target; the published speeds are the smoothed local velocity; ungrounded is set exactly in the ungrounded state; the yaw is cached; the latches are untouched |
| AnimationBridge.UpdateKeepsCalm | Runtime/Animation/KCCAnimationBridge.cs:52-85 | an update keeps the cached yaw in [0, 360), the turn rate within the wrap limit and the strafe weight non-negative |
| AnimationBridge.AnimateKeepsCalm | Runtime/Animation/KCCAnimationBridge.cs:52-85 | any sequence of updates keeps those bounds |
| AnimationBridge.OnJump | Runtime/Animation/KCCAnimationBridge.cs:117-120 | the jump latch is set and nothing else changes |
| AnimationBridge.OnFallBegin | Runtime/Animation/KCCAnimationBridge.cs:122-125 | the fall latch is set and nothing else changes |
| AnimationBridge.OnLand | Runtime/Animation/KCCAnimationBridge.cs:127-133 | both latches are cleared, and the land count rises only when a handler is attached |
| AnimationBridge.LatchesIdempotent | Runtime/Animation/KCCAnimationBridge.cs:117-125 | a repeated jump or fall notification changes nothing |
| AnimationBridge.NotifyAllLatches | Runtime/Animation/KCCAnimationBridge.cs:117-133 | after a log of notifications, a latch is set exactly when its event came after the last landing, or there was no landing and it was set before; lands are counted when a handler is attached |

## Left out

- Floating point: all engine floats are exact reals, so rounding, NaN and infinity
  are not modelled. The only infinity, the jump request timer's start, is an
  explicit `Timer.Infinite`.
- Raycasts, `Quaternion.Slerp` and `LookRotation`, the slope-angle mapping and the
  base state's orientation (sharpness, bonus orientation): engine computations,
  passed in through `Env` (`orient`, `probe.face`, `probe.slopeAngle`).
- The engine's Euler yaw read by the animation bridge: passed in as `Env.yaw`.
- Square roots (`ClampMagnitude`): passed in as an oracle; the clamp's bound is
  proved when the oracle returns an exact root.
- Stable-ground velocity reorientation and exponential smoothing: passed in as
  `Env.steer`, because it is the motor's own computation on an engine-supplied
  ground normal.
- The animation smoothing rates from the animation config: parameters of the
  bridge (`AnimRates`).
- Climb rig construction: the controller's assignment of the rig is commented
  out. The model assumes one rig object exists from `Awake` on.
- `_internalVelocityAdd`: no member ever writes a non-zero value into it. Its
  consumption is modelled, and it stays zero in every run.
- Discrete collision detection, hit stability reports and the collision
  receivable dispatch: the base hooks are empty and the receivable is foreign
  code.
- Ticker registration on enable and disable, the camera and input classes, the
  mesh-root scale and debug logging: not locomotion logic.
- The difference between variable and fixed time steps: each callback receives
  its own `dt`.
- ControllerProperties.Step: a run applies only admissible callbacks. The
  velocity update needs a non-negative `dt`, and the run theorems assume
  non-negative drag, because drag is undefined when `1 + drag * dt` is zero.
- KccController.UpdateRotation: the default orientation is an opaque function of the
  rotation. With the ground-slope bonus orientation on stable ground, the source
  also moves the body so that it turns about the capsule's bottom sphere
  (Runtime/States/ControllerKCCState.cs:101-117); that position shift is not
  modelled. The shipped configuration uses no bonus orientation
  (Runtime/Core/DataConfigKCC.cs:44).
- KccController.UpdateVelocity: requires `DragDefined` in the ungrounded state,
  where the source divides by `1 + drag * dt`.
- KccController operations require `WellFormed`, the pool shape `Awake` creates.
  No member ever changes the pool's shape.
- ClimbRig.ClimbTick: the source raises the ledge callback inside the cast, before
  the rig updates its target. The model reports the ledge after the tick. The
  callback's nested transition to grounded deactivates the rig object, which the
  model does afterwards instead. The rest of the tick neither reads nor writes
  that flag, so the order does not change the result.
- ClimbRig.LocalY: the ledge height test models the engine's inverse transform
  of a point as the inverse rotation of its offset, which assumes unit scale and
  a unit rotation quaternion.
- StateUngrounded.ClampWithinLimit: the bound needs an exact square root, so it is
  stated only under `ExactRoot`. ClampWithinLimitWhenExact is the all-inputs
  form.
- `OnJump` is sent twice on a grounded jump: once by the jump and once by the
  airborne entry. The model keeps both events. The jump latch is idempotent, so
  the bridge state is the same either way.

=== FILE: animation_bridge.dfy ===
/** The animation bridge: it smooths the controller's local velocity and turn rate
    into animator parameters, decides whether to play strafing, mirrors the active
    state's airborne flag, and latches the jump, fall and land notifications. */
module AnimationBridge {
  import opened Vectors
  import opened KccTypes

  /** The smoothing rates of the animation config asset. */
  datatype AnimRates = AnimRates(forwardSpeedSmoothLerpRate: real, turningSpeedSmoothLerpRate: real)

  /** Rate of the strafe-speed smoothing, per second. */
  const StrafeLerpRate: real := 15.0

  /** Smoothed sideways speed above which a blocked character strafes. */
  const StrafeThreshold: real := 0.15

  /** A yaw change beyond this many degrees is taken to have crossed 0/360. */
  const WrapLimit: real := 300.0

  datatype Bridge = Bridge(
    rates: AnimRates,
    forwardSpeed: real,
    verticalSpeed: real,
    lateralSpeed: real,
    turningSpeed: real,
    ungrounded: bool,
    jumped: bool,
    fall: bool,
    strafe: bool,
    landHandler: bool,
    landsSignalled: nat,
    animLocalVelocity: Vec3,
    animStrafe: real,
    animTurnRotation: real,
    animTurnDelta: real)

  /** A bridge as the engine creates it: every property zero or false. `landHandler`
      says whether a land callback is subscribed. */
  function NewBridge(rates: AnimRates, landHandler: bool): (b: Bridge)
    ensures !b.jumped && !b.fall && !b.strafe && !b.ungrounded && b.landsSignalled == 0
    ensures b.animLocalVelocity == Zero && b.animTurnRotation == 0.0 && b.animTurnDelta == 0.0
  {
    Bridge(rates, 0.0, 0.0, 0.0, 0.0, false, false, false, false, landHandler, 0, Zero, 0.0, 0.0, 0.0)
  }

  // ---------------------------------------------------------------- strafing

  /** Only a grounded character strafes. In first person it does so when moving
      backwards or when blocked in front while drifting sideways; in third person
      only in the latter case. */
  function ShouldStrafe(current: StateKey, view: ViewState, forward: real,
                        collision: MovementCollision, strafe: real): (r: bool)
    ensures current != Grounded ==> !r
    ensures current == Grounded && view == FirstPerson ==>
      (r <==> forward < 0.0 || (collision == Front && strafe > StrafeThreshold))
    ensures current == Grounded && view == ThirdPerson ==>
      (r <==> collision == Front && strafe > StrafeThreshold)
  {
    if current != Grounded then false
    else
      var blocked := collision == Front && strafe > StrafeThreshold;
      match view
      case FirstPerson => forward < 0.0 || blocked
      case ThirdPerson => blocked
  }

  /** Whatever makes a third-person character strafe makes a first-person one
      strafe too; the converse fails only for backward movement. */
  lemma FirstPersonStrafesMore(current: StateKey, forward: real, collision: MovementCollision, strafe: real)
    ensures ShouldStrafe(current, ThirdPerson, forward, collision, strafe)
      ==> ShouldStrafe(current, FirstPerson, forward, collision, strafe)
    ensures forward >= 0.0 ==>
      ShouldStrafe(current, ThirdPerson, forward, collision, strafe)
        == ShouldStrafe(current, FirstPerson, forward, collision, strafe)
  {
  }

  // ---------------------------------------------------------------- turning

  /** Moves a raw yaw difference across the 0/360 seam when it exceeds the limit
      in either direction. The result differs from the input by a whole turn or
      not at all, and for differences of two yaws in [0, 360) it lies within the
      limit. */
  function Wrap(raw: real): (r: real)
    ensures r == raw || r == raw - 360.0 || r == raw + 360.0
    ensures -360.0 - WrapLimit < raw < 360.0 + WrapLimit ==> -WrapLimit <= r <= WrapLimit
    ensures -WrapLimit <= raw <= WrapLimit ==> r == raw
  {
    if raw > WrapLimit then raw - 360.0
    else if raw < -WrapLimit then raw + 360.0
    else raw
  }

  /** The difference of two yaws the engine reports, both in [0, 360), wraps to
      within 300 degrees. */
  lemma YawDeltaBounded(yaw: real, previous: real)
    requires 0.0 <= yaw < 360.0 && 0.0 <= previous < 360.0
    ensures -WrapLimit <= Wrap(yaw - previous) <= WrapLimit
  {
  }

  /** `x` lies between `a` and `b`, in whichever order. */
  predicate Between(a: real, b: real, x: real) {
    (a <= b && a <= x <= b) || (b <= a && b <= x <= a)
  }

  /** One animation update. `yaw` is the character's yaw as the engine reports it
      in degrees, `localVelocity` the velocity in the character's frame, and
      `collision` the movement collision of this update. */
  function UpdateAnimationProperties(b: Bridge, delta: real, view: ViewState, current: StateKey,
                                     localVelocity: Vec3, collision: MovementCollision, yaw: real): (r: Bridge)
    ensures Between(b.animLocalVelocity.x, localVelocity.x, r.animLocalVelocity.x)
    ensures Between(b.animLocalVelocity.y, localVelocity.y, r.animLocalVelocity.y)
    ensures Between(b.animLocalVelocity.z, localVelocity.z, r.animLocalVelocity.z)
    ensures r.forwardSpeed == r.animLocalVelocity.z
    ensures r.lateralSpeed == r.animLocalVelocity.x
    ensures r.verticalSpeed == r.animLocalVelocity.y
    ensures Between(b.animStrafe, Abs(r.animLocalVelocity.x), r.animStrafe)
    ensures r.strafe == ShouldStrafe(current, view, r.animLocalVelocity.z, collision, r.animStrafe)
    ensures Between(b.animTurnDelta, Wrap(yaw - b.animTurnRotation), r.animTurnDelta)
    ensures r.turningSpeed == r.animTurnDelta
    ensures r.animTurnRotation == yaw
    ensures r.ungrounded <==> current == Ungrounded
    ensures r.jumped == b.jumped && r.fall == b.fall && r.landsSignalled == b.landsSignalled
    ensures r.rates == b.rates && r.landHandler == b.landHandler
  {
    var v := LerpVec(b.animLocalVelocity, localVelocity, delta * b.rates.forwardSpeedSmoothLerpRate);
    var strafeSpeed := Abs(v.x);
    var animStrafe := Lerp(b.animStrafe, strafeSpeed, delta * StrafeLerpRate);
    var raw := Wrap(yaw - b.animTurnRotation);
    var turnDelta := Lerp(b.animTurnDelta, raw, delta * b.rates.turningSpeedSmoothLerpRate);
    b.(animLocalVelocity := v,
       forwardSpeed := v.z, lateralSpeed := v.x, verticalSpeed := v.y,
       animStrafe := animStrafe,
       strafe := ShouldStrafe(current, view, v.z, collision, animStrafe),
       animTurnDelta := turnDelta,
       ungrounded := current == Ungrounded,
       turningSpeed := turnDelta,
       animTurnRotation := yaw)
  }

  /** What the bridge keeps between updates while yaws stay in [0, 360): the cached
      yaw in range, the smoothed turn within the wrap limit, and a non-negative
      smoothed strafe speed. */
  predicate Calm(b: Bridge) {
    0.0 <= b.animTurnRotation < 360.0
    && -WrapLimit <= b.animTurnDelta <= WrapLimit
    && b.animStrafe >= 0.0
  }

  lemma NewBridgeCalm(rates: AnimRates, landHandler: bool)
    ensures Calm(NewBridge(rates, landHandler))
  {
  }

  /** One update with the engine's yaw keeps the bridge calm, so the published
      turning speed never exceeds the wrap limit. */
  lemma UpdateKeepsCalm(b: Bridge, delta: real, view: ViewState, current: StateKey,
                        localVelocity: Vec3, collision: MovementCollision, yaw: real)
    requires Calm(b) && 0.0 <= yaw < 360.0
    ensures Calm(UpdateAnimationProperties(b, delta, view, current, localVelocity, collision, yaw))
    ensures -WrapLimit <= UpdateAnimationProperties(b, delta, view, current, localVelocity, collision, yaw).turningSpeed <= WrapLimit
  {
    YawDeltaBounded(yaw, b.animTurnRotation);
  }

  /** The inputs of one animation update. */
  datatype Sample = Sample(delta: real, view: ViewState, current: StateKey,
                           localVelocity: Vec3, collision: MovementCollision, yaw: real)

  function Animate(b: Bridge, samples: seq<Sample>): Bridge
    decreases |samples|
  {
    if |samples| == 0 then b
    else
      var s := samples[0];
      Animate(UpdateAnimationProperties(b, s.delta, s.view, s.current, s.localVelocity, s.collision, s.yaw),
              samples[1..])
  }

  /** Over any run of updates whose yaws lie in [0, 360), a calm bridge stays calm. */
  lemma {:induction false} AnimateKeepsCalm(b: Bridge, samples: seq<Sample>)
    requires Calm(b)
    requires forall i :: 0 <= i < |samples| ==> 0.0 <= samples[i].yaw < 360.0
    ensures Calm(Animate(b, samples))
    decreases |samples|
  {
    if |samples| > 0 {
      var s := samples[0];
      UpdateKeepsCalm(b, s.delta, s.view, s.current, s.localVelocity, s.collision, s.yaw);
      var next := UpdateAnimationProperties(b, s.delta, s.view, s.current, s.localVelocity, s.collision, s.yaw);
      assert forall i :: 0 <= i < |samples[1..]| ==> samples[1..][i] == samples[i + 1];
      AnimateKeepsCalm(next, samples[1..]);
    }
  }

  // ---------------------------------------------------------------- notifications

  function OnJump(b: Bridge): (r: Bridge)
    ensures r.jumped
    ensures r == b.(jumped := true)
  {
    b.(jumped := true)
  }

  function OnFallBegin(b: Bridge): (r: Bridge)
    ensures r.fall
    ensures r == b.(fall := true)
  {
    b.(fall := true)
  }

  /** Landing clears both latches and signals the land callback if one is
      subscribed. */
  function OnLand(b: Bridge): (r: Bridge)
    ensures !r.jumped && !r.fall
    ensures b.landHandler ==> r.landsSignalled == b.landsSignalled + 1
    ensures !b.landHandler ==> r.landsSignalled == b.landsSignalled
    ensures r == b.(jumped := false, fall := false, landsSignalled := r.landsSignalled)
  {
    b.(jumped := false, fall := false,
       landsSignalled := if b.landHandler then b.landsSignalled + 1 else b.landsSignalled)
  }

  /** Delivers one notification. The grounded change notifications go to
      subscribers and leave the bridge's own properties as they are. */
  function Notify(b: Bridge, e: Event): Bridge {
    match e
    case JumpFired => OnJump(b)
    case FallBeginFired => OnFallBegin(b)
    case LandFired => OnLand(b)
    case _ => b
  }

  /** Jump and fall latches are idempotent: a repeated notification changes nothing. */
  lemma LatchesIdempotent(b: Bridge)
    ensures OnJump(OnJump(b)) == OnJump(b)
    ensures OnFallBegin(OnFallBegin(b)) == OnFallBegin(b)
  {
  }

  /** Delivers an event log in order. */
  function NotifyAll(b: Bridge, evs: seq<Event>): Bridge
    decreases |evs|
  {
    if |evs| == 0 then b
    else Notify(NotifyAll(b, evs[..|evs| - 1]), evs[|evs| - 1])
  }

  /** The events after the last landing, or the whole log if none landed. */
  function SinceLastLand(evs: seq<Event>): (tail: seq<Event>)
    ensures LandFired !in tail
    decreases |evs|
  {
    if |evs| == 0 then []
    else if evs[|evs| - 1] == LandFired then []
    else SinceLastLand(evs[..|evs| - 1]) + [evs[|evs| - 1]]
  }

  /** After a log is delivered, the jump latch is set exactly when a jump was
      announced after the last landing (or before any landing, counting the
      latch's earlier value), likewise the fall latch, and the land callback ran
      once per landing if subscribed. Nothing else in the bridge changes. */
  lemma {:induction false} NotifyAllLatches(b: Bridge, evs: seq<Event>)
    ensures NotifyAll(b, evs).jumped <==>
      JumpFired in SinceLastLand(evs) || (LandFired !in evs && b.jumped)
    ensures NotifyAll(b, evs).fall <==>
      FallBeginFired in SinceLastLand(evs) || (LandFired !in evs && b.fall)
    ensures NotifyAll(b, evs).landsSignalled ==
      b.landsSignalled + (if b.landHandler then CountEvent(evs, LandFired) else 0)
    ensures NotifyAll(b, evs) == b.(jumped := NotifyAll(b, evs).jumped, fall := NotifyAll(b, evs).fall,
                                    landsSignalled := NotifyAll(b, evs).landsSignalled)
    decreases |evs|
  {
    if |evs| > 0 {
      var init := evs[..|evs| - 1];
      var last := evs[|evs| - 1];
      assert evs == init + [last];
      NotifyAllLatches(b, init);
      assert forall e :: e in evs <==> e in init || e == last;
      CountEventSnoc(init, last, LandFired);
      if last != LandFired {
        assert SinceLastLand(evs) == SinceLastLand(init) + [last];
        assert forall e :: e in SinceLastLand(evs) <==> e in SinceLastLand(init) || e == last;
      }
    }
  }

  /** The part of the bridge that notifications drive. */
  datatype Latches = Latches(jumped: bool, fall: bool, landsSignalled: nat, landHandler: bool)

  function LatchesOf(b: Bridge): Latches {
    Latches(b.jumped, b.fall, b.landsSignalled, b.landHandler)
  }

  /** Delivering two logs one after the other is delivering their concatenation. */
  lemma {:induction false} NotifyAllAppend(b: Bridge, first: seq<Event>, second: seq<Event>)
    ensures NotifyAll(b, first + second) == NotifyAll(NotifyAll(b, first), second)
    decreases |second|
  {
    if |second| == 0 {
      assert first + second == first;
    } else {
      var init := second[..|second| - 1];
      assert (first + second)[..|first + second| - 1] == first + init;
      assert (first + second)[|first + second| - 1] == second[|second| - 1];
      NotifyAllAppend(b, first, init);
    }
  }

  /** What a log does to the latches depends on nothing but the latches. */
  lemma NotifyAllDependsOnLatches(b: Bridge, b': Bridge, evs: seq<Event>)
    requires LatchesOf(b) == LatchesOf(b')
    ensures LatchesOf(NotifyAll(b, evs)) == LatchesOf(NotifyAll(b', evs))
  {
    NotifyAllLatches(b, evs);
    NotifyAllLatches(b', evs);
  }
}

=== FILE: climb_rig.dfy ===
/** The free-climbing rig: four forward probes and one downward probe whose hits
    give the wall's mean normal and contact point, a ledge guard that reports
    stable ground above the lowest probe, and an additive target for climb input.
    Ray casts arrive as values; the rig's pose is the pose of its transform. */
module ClimbRig {
  import opened Vectors
  import opened KccTypes

  /** Where a ray hit and the surface normal there. */
  datatype RayHit = RayHit(point: Vec3, normal: Vec3)

  /** The value a cast that hits nothing leaves in its hit record. */
  const DefaultHit: RayHit := RayHit(Zero, Zero)

  function HitOrDefault(h: Option<RayHit>): (r: RayHit)
    ensures h.None? ==> r == DefaultHit
    ensures h.Some? ==> r == h.value
  {
    match h
    case Some(hit) => hit
    case None => DefaultHit
  }

  datatype Pose = Pose(position: Vec3, rotation: Quat)

  /** Positions of the four probe transforms in the rig's own frame; they are
      children of the rig and move with it. */
  datatype ProbeLayout = ProbeLayout(topLeft: Vec3, topRight: Vec3, bottomLeft: Vec3, bottomRight: Vec3)

  /** The results of one round of casts: the four forward probes, and the downward
      ray from the centre point. */
  datatype RayResults = RayResults(
    topLeft: Option<RayHit>,
    topRight: Option<RayHit>,
    bottomLeft: Option<RayHit>,
    bottomRight: Option<RayHit>,
    down: Option<RayHit>)

  /** What one tick of the rig consults besides its own fields: the casts, the
      mapping from a ground normal's height to a slope angle (the utility library's
      Map, not part of this model), the motor's steepest stable slope, and the
      smoothed turn of a rotation towards a facing direction. */
  datatype Probe = Probe(
    rays: RayResults,
    slopeAngle: real -> real,
    maxStableSlopeAngle: real,
    face: (Quat, Vec3) -> Quat)

  datatype Rig = Rig(
    pose: Pose,
    layout: ProbeLayout,
    active: bool,
    enabled: bool,
    alive: bool,
    targetPosition: Vec3,
    targetRotation: Quat,
    centerRayPoint: Vec3,
    climbPointOffset: Vec3,
    climbNormal: Vec3,
    climbPoint: Vec3,
    groundMarker: Vec3)

  /** A rig as it exists before any climb: inactive, disabled, at `pose`. */
  function NewRig(pose: Pose, layout: ProbeLayout): (r: Rig)
    ensures !r.active && !r.enabled && r.alive
    ensures r.pose == pose && r.layout == layout
  {
    Rig(pose, layout, false, false, true, pose.position, pose.rotation, Zero, Zero, Zero, Zero, Zero)
  }

  // ---------------------------------------------------------------- probe geometry

  /** World position of a child transform at `local` in the rig's frame. */
  function ProbeWorld(pose: Pose, local: Vec3): Vec3 {
    Add(pose.position, Rotate(pose.rotation, local))
  }

  /** The mean of the four probe origins. */
  function CenterRayPoint(pose: Pose, layout: ProbeLayout): Vec3 {
    Mean4(ProbeWorld(pose, layout.topLeft), ProbeWorld(pose, layout.topRight),
          ProbeWorld(pose, layout.bottomLeft), ProbeWorld(pose, layout.bottomRight))
  }

  /** How far the rig's origin lies from the probe centre. */
  function OffsetAt(pose: Pose, layout: ProbeLayout): Vec3 {
    Sub(pose.position, CenterRayPoint(pose, layout))
  }

  /** The offset is fixed by the probes' layout and the rig's rotation: moving the
      rig without turning it leaves it unchanged. */
  lemma OffsetIgnoresPosition(p: Vec3, q: Vec3, rot: Quat, layout: ProbeLayout)
    ensures OffsetAt(Pose(p, rot), layout) == OffsetAt(Pose(q, rot), layout)
    ensures OffsetAt(Pose(p, rot), layout)
      == Scale(Add(Add(Add(Rotate(rot, layout.topLeft), Rotate(rot, layout.topRight)),
                       Rotate(rot, layout.bottomLeft)), Rotate(rot, layout.bottomRight)), -0.25)
  {
  }

  /** The centre point and offset stored in the rig were computed at its pose. */
  predicate OffsetCurrent(rig: Rig) {
    rig.centerRayPoint == CenterRayPoint(rig.pose, rig.layout)
    && rig.climbPointOffset == OffsetAt(rig.pose, rig.layout)
  }

  function Recenter(rig: Rig): (r: Rig)
    ensures OffsetCurrent(r)
    ensures r == rig.(centerRayPoint := r.centerRayPoint, climbPointOffset := r.climbPointOffset)
    ensures OffsetCurrent(rig) ==> r == rig
  {
    rig.(centerRayPoint := CenterRayPoint(rig.pose, rig.layout),
         climbPointOffset := OffsetAt(rig.pose, rig.layout))
  }

  // ---------------------------------------------------------------- ledge guard

  /** The height of `p` in the rig's frame (its inverse transform, for a unit
      rotation and unit scale). */
  function LocalY(pose: Pose, p: Vec3): real {
    InverseRotate(pose.rotation, Sub(p, pose.position)).y
  }

  /** The downward ray found ground above the bottom-right probe, no steeper than
      the motor can stand on. */
  predicate StableLedge(pose: Pose, layout: ProbeLayout, down: Option<RayHit>,
                        slopeAngle: real -> real, maxStableSlopeAngle: real) {
    down.Some?
    && LocalY(pose, down.value.point) > LocalY(pose, ProbeWorld(pose, layout.bottomRight))
    && slopeAngle(down.value.normal.y) <= maxStableSlopeAngle
  }

  /** For an unrotated rig, local height is height above the rig's origin. */
  lemma LocalYUnrotated(position: Vec3, p: Vec3)
    ensures LocalY(Pose(position, Identity), p) == p.y - position.y
  {
    InverseRotateIdentity(Sub(p, position));
  }

  lemma ProbeWorldUnrotated(position: Vec3, local: Vec3)
    ensures ProbeWorld(Pose(position, Identity), local) == Add(position, local)
  {
    RotateIdentity(local);
  }

  /** For an unrotated rig the guard compares world heights directly. */
  lemma UnrotatedLedgeComparesHeights(position: Vec3, layout: ProbeLayout, hit: RayHit,
                                      slopeAngle: real -> real, maxStableSlopeAngle: real)
    ensures StableLedge(Pose(position, Identity), layout, Some(hit), slopeAngle, maxStableSlopeAngle)
      <==> hit.point.y > position.y + layout.bottomRight.y && slopeAngle(hit.normal.y) <= maxStableSlopeAngle
  {
    var corner := ProbeWorld(Pose(position, Identity), layout.bottomRight);
    ProbeWorldUnrotated(position, layout.bottomRight);
    LocalYUnrotated(position, hit.point);
    LocalYUnrotated(position, corner);
  }

  // ---------------------------------------------------------------- casting

  /** The result of a rig step: the rig afterwards, and the ground point at which
      it reported reaching stable ground, if it did. */
  datatype Gathered = Gathered(rig: Rig, ledge: Option<Vec3>)

  function SumNormals(r: RayResults): Vec3 {
    Add(Add(Add(HitOrDefault(r.topLeft).normal, HitOrDefault(r.topRight).normal),
            HitOrDefault(r.bottomLeft).normal), HitOrDefault(r.bottomRight).normal)
  }

  function SumPoints(r: RayResults): Vec3 {
    Add(Add(Add(HitOrDefault(r.topLeft).point, HitOrDefault(r.topRight).point),
            HitOrDefault(r.bottomLeft).point), HitOrDefault(r.bottomRight).point)
  }

  /** Casts the probes: the downward hit moves the ground marker and may report a
      stable ledge; the climb normal and point become the means of the four forward
      hits, a missed probe counting as the zero hit. */
  function GatherClimbHits(rig: Rig, p: Probe): (r: Gathered)
    ensures r.ledge.Some? <==> StableLedge(rig.pose, rig.layout, p.rays.down, p.slopeAngle, p.maxStableSlopeAngle)
    ensures r.ledge.Some? ==> r.ledge.value == p.rays.down.value.point
    ensures Scale(r.rig.climbNormal, 4.0) == SumNormals(p.rays)
    ensures Scale(r.rig.climbPoint, 4.0) == SumPoints(p.rays)
    ensures p.rays.down.Some? ==> r.rig.groundMarker == p.rays.down.value.point
    ensures p.rays.down.None? ==> r.rig.groundMarker == rig.groundMarker
    ensures r.rig == rig.(climbNormal := r.rig.climbNormal, climbPoint := r.rig.climbPoint,
                          groundMarker := r.rig.groundMarker)
  {
    var rays := p.rays;
    var marker := if rays.down.Some? then rays.down.value.point else rig.groundMarker;
    var ledge :=
      if StableLedge(rig.pose, rig.layout, rays.down, p.slopeAngle, p.maxStableSlopeAngle)
      then Some(rays.down.value.point) else None;
    var normal := Mean4(HitOrDefault(rays.topLeft).normal, HitOrDefault(rays.topRight).normal,
                        HitOrDefault(rays.bottomLeft).normal, HitOrDefault(rays.bottomRight).normal);
    var point := Mean4(HitOrDefault(rays.topLeft).point, HitOrDefault(rays.topRight).point,
                       HitOrDefault(rays.bottomLeft).point, HitOrDefault(rays.bottomRight).point);
    Gathered(rig.(climbNormal := normal, climbPoint := point, groundMarker := marker), ledge)
  }

  /** Four hits on one flat wall give that wall's normal and the mean contact point. */
  lemma FlatWallNormal(rig: Rig, p: Probe, n: Vec3)
    requires p.rays.topLeft.Some? && p.rays.topRight.Some? && p.rays.bottomLeft.Some? && p.rays.bottomRight.Some?
    requires p.rays.topLeft.value.normal == n && p.rays.topRight.value.normal == n
    requires p.rays.bottomLeft.value.normal == n && p.rays.bottomRight.value.normal == n
    ensures GatherClimbHits(rig, p).rig.climbNormal == n
  {
    var r := GatherClimbHits(rig, p).rig;
    assert Scale(r.climbNormal, 4.0) == Scale(n, 4.0);
  }

  /** With every forward probe missing, normal and point collapse to zero. */
  lemma AllMissedGivesZero(rig: Rig, p: Probe)
    requires p.rays.topLeft.None? && p.rays.topRight.None? && p.rays.bottomLeft.None? && p.rays.bottomRight.None?
    ensures GatherClimbHits(rig, p).rig.climbNormal == Zero
    ensures GatherClimbHits(rig, p).rig.climbPoint == Zero
  {
  }

  // ---------------------------------------------------------------- lifecycle

  /** Starts a climb at the controller's pose: target and rig pose take it, the
      centre and offset are computed there, the rig is enabled and casts once. */
  function Init(rig: Rig, controller: Pose, p: Probe): (r: Gathered)
    ensures r.rig.pose == controller && r.rig.enabled
    ensures r.rig.targetPosition == controller.position && r.rig.targetRotation == controller.rotation
    ensures OffsetCurrent(r.rig)
    ensures r.ledge.Some? <==> StableLedge(controller, rig.layout, p.rays.down, p.slopeAngle, p.maxStableSlopeAngle)
    ensures r.rig.active == rig.active && r.rig.alive == rig.alive && r.rig.layout == rig.layout
  {
    var placed := rig.(targetPosition := controller.position, targetRotation := controller.rotation,
                       pose := controller);
    var centred := Recenter(placed).(enabled := true);
    GatherClimbHits(centred, p)
  }

  /** One climbing tick. A disabled rig does nothing. Otherwise it casts, turns its
      target rotation towards the wall, places its target position the surface
      offset back from the climb point plus the offset stored before this tick,
      and then recomputes centre and offset at its current pose. */
  function ClimbTick(rig: Rig, cfg: Config, p: Probe): (r: Gathered)
    ensures !rig.enabled ==> r == Gathered(rig, None)
    ensures rig.enabled ==>
      (r.ledge.Some? <==> StableLedge(rig.pose, rig.layout, p.rays.down, p.slopeAngle, p.maxStableSlopeAngle))
    ensures r.ledge.Some? ==> r.ledge.value == p.rays.down.value.point
    ensures rig.enabled ==> OffsetCurrent(r.rig)
    ensures rig.enabled ==> r.rig.targetRotation == p.face(rig.pose.rotation, Scale(r.rig.climbNormal, -1.0))
    ensures rig.enabled ==> Scale(r.rig.climbNormal, 4.0) == SumNormals(p.rays)
    ensures rig.enabled ==> Scale(r.rig.climbPoint, 4.0) == SumPoints(p.rays)
    ensures rig.enabled ==>
      r.rig.targetPosition
        == Add(Sub(r.rig.climbPoint, Scale(Forward(rig.pose.rotation), cfg.surfaceOffset)), rig.climbPointOffset)
    ensures r.rig.pose == rig.pose && r.rig.layout == rig.layout
    ensures r.rig.enabled == rig.enabled && r.rig.active == rig.active && r.rig.alive == rig.alive
  {
    if !rig.enabled then Gathered(rig, None)
    else
      var g := GatherClimbHits(rig, p);
      var faced := g.rig.(targetRotation := p.face(rig.pose.rotation, Scale(g.rig.climbNormal, -1.0)));
      var target := Add(Sub(g.rig.climbPoint, Scale(Forward(rig.pose.rotation), cfg.surfaceOffset)),
                        rig.climbPointOffset);
      Gathered(Recenter(faced.(targetPosition := target)), g.ledge)
  }

  /** When the stored offset matches the rig's pose (as it does after a tick, and
      after following the body without turning), a tick puts the target where the
      rig's origin would be if the probe centre sat on the climb point, backed off
      by the surface offset along the rig's forward. */
  lemma TickTargetFollowsClimbPoint(rig: Rig, cfg: Config, p: Probe)
    requires rig.enabled && rig.climbPointOffset == OffsetAt(rig.pose, rig.layout)
    ensures var r := ClimbTick(rig, cfg, p).rig;
      Sub(r.targetPosition, rig.pose.position)
        == Sub(Sub(r.climbPoint, Scale(Forward(rig.pose.rotation), cfg.surfaceOffset)),
               CenterRayPoint(rig.pose, rig.layout))
  {
  }

  /** A tick that does not move the rig leaves the stored offset as it was. */
  lemma TickKeepsCurrentOffset(rig: Rig, cfg: Config, p: Probe)
    requires OffsetCurrent(rig)
    ensures ClimbTick(rig, cfg, p).rig.climbPointOffset == rig.climbPointOffset
    ensures ClimbTick(rig, cfg, p).rig.centerRayPoint == rig.centerRayPoint
  {
  }

  /** Climb input moves the target along the rig's up by the forward axis of the
      input and along its right by the sideways axis: in the rig's own frame the
      step is the sideways input at the horizontal climb speed across and the
      forward input at the vertical climb speed upwards. */
  function ReceiveClimbInput(rig: Rig, cfg: Config, move: Vec3): (r: Rig)
    ensures move.x == 0.0 && move.z == 0.0 ==> r == rig
    ensures r == rig.(targetPosition := r.targetPosition)
  {
    var rot := rig.pose.rotation;
    var vertical := Scale(Up(rot), move.z * cfg.climbSpeedVertical);
    var horizontal := Scale(Right(rot), move.x * cfg.climbSpeedHorizontal);
    ZeroStepStays(rig.targetPosition, Up(rot), Right(rot), move.z * cfg.climbSpeedVertical,
                  move.x * cfg.climbSpeedHorizontal);
    rig.(targetPosition := Add(rig.targetPosition, Add(vertical, horizontal)))
  }

  lemma ZeroStepStays(t: Vec3, u: Vec3, w: Vec3, a: real, b: real)
    ensures a == 0.0 && b == 0.0 ==> Add(t, Add(Scale(u, a), Scale(w, b))) == t
  {
    if a == 0.0 && b == 0.0 {
      assert Scale(u, a) == Zero && Scale(w, b) == Zero;
    }
  }

  /** In the rig's own frame the step is the sideways input at the horizontal
      climb speed across and the forward input at the vertical climb speed
      upwards; the rig's rotation carries it into the world. */
  lemma ClimbInputRotatesLocalStep(rig: Rig, cfg: Config, move: Vec3)
    ensures ReceiveClimbInput(rig, cfg, move).targetPosition == Add(rig.targetPosition,
      Rotate(rig.pose.rotation, Vec3(move.x * cfg.climbSpeedHorizontal, move.z * cfg.climbSpeedVertical, 0.0)))
  {
    RotateRightUpPlane(rig.pose.rotation, move.x * cfg.climbSpeedHorizontal, move.z * cfg.climbSpeedVertical);
  }

  /** An unturned rig climbs straight up the world's vertical for forward input and
      along the world's x axis for sideways input. */
  lemma ClimbInputUnrotated(rig: Rig, cfg: Config, move: Vec3)
    requires rig.pose.rotation == Identity
    ensures ReceiveClimbInput(rig, cfg, move).targetPosition
      == Add(rig.targetPosition, Vec3(move.x * cfg.climbSpeedHorizontal, move.z * cfg.climbSpeedVertical, 0.0))
  {
    ClimbInputRotatesLocalStep(rig, cfg, move);
    RotateIdentity(Vec3(move.x * cfg.climbSpeedHorizontal, move.z * cfg.climbSpeedVertical, 0.0));
  }

  /** The input's height axis is never read. */
  lemma ClimbInputIgnoresHeight(rig: Rig, cfg: Config, move: Vec3, y: real)
    ensures ReceiveClimbInput(rig, cfg, move) == ReceiveClimbInput(rig, cfg, move.(y := y))
  {
  }

  /** Two inputs in a row move the target as far as their sum in one. */
  lemma ClimbInputAdditive(rig: Rig, cfg: Config, a: Vec3, b: Vec3)
    ensures ReceiveClimbInput(ReceiveClimbInput(rig, cfg, a), cfg, b)
      == ReceiveClimbInput(rig, cfg, Add(a, b))
  {
    var rot := rig.pose.rotation;
    StepsAdd(rig.targetPosition, Up(rot), Right(rot), a.z, b.z, a.x, b.x,
             cfg.climbSpeedVertical, cfg.climbSpeedHorizontal);
    var r1 := ReceiveClimbInput(rig, cfg, a);
    assert r1.pose == rig.pose;
  }

  /** Two steps along fixed axes add up to one step with the summed inputs. */
  lemma StepsAdd(t: Vec3, u: Vec3, w: Vec3, az: real, bz: real, ax: real, bx: real, vs: real, hs: real)
    ensures Add(Add(t, Add(Scale(u, az * vs), Scale(w, ax * hs))), Add(Scale(u, bz * vs), Scale(w, bx * hs)))
      == Add(t, Add(Scale(u, (az + bz) * vs), Scale(w, (ax + bx) * hs)))
  {
    ScaleSum(u, az * vs, bz * vs);
    ScaleSum(w, ax * hs, bx * hs);
    assert az * vs + bz * vs == (az + bz) * vs;
    assert ax * hs + bx * hs == (ax + bx) * hs;
  }

  lemma ScaleSum(v: Vec3, j: real, k: real)
    ensures Add(Scale(v, j), Scale(v, k)) == Scale(v, j + k)
  {
    assert v.x * j + v.x * k == v.x * (j + k);
    assert v.y * j + v.y * k == v.y * (j + k);
    assert v.z * j + v.z * k == v.z * (j + k);
  }

  /** Moves the rig to the body's pose after the motor has moved it. */
  function SyncRigPosition(rig: Rig, body: Pose): (r: Rig)
    ensures r.pose == body
    ensures r == rig.(pose := body)
  {
    rig.(pose := body)
  }

  /** Following the body without turning keeps the stored offset current. */
  lemma SyncWithoutTurnKeepsOffset(rig: Rig, body: Pose)
    requires OffsetCurrent(rig) && body.rotation == rig.pose.rotation
    ensures SyncRigPosition(rig, body).climbPointOffset == OffsetAt(body, rig.layout)
  {
    OffsetIgnoresPosition(rig.pose.position, body.position, body.rotation, rig.layout);
  }

  /** The engine's fixed-rate update: it runs only while the rig's object is
      active and alive, and then ticks. */
  function FixedUpdate(rig: Rig, cfg: Config, p: Probe): (r: Gathered)
    ensures !(rig.active && rig.alive) ==> r == Gathered(rig, None)
    ensures rig.active && rig.alive ==> r == ClimbTick(rig, cfg, p)
  {
    if rig.active && rig.alive then ClimbTick(rig, cfg, p) else Gathered(rig, None)
  }
}

=== FILE: climbing.dfy ===
/** The climbing locomotion state: position-driven movement along a wall. The rig
    decides where the body goes and how it faces; the state copies the rig's
    targets onto the motor and hands the body back to the rig after each update. */
module StateClimbing {
  import opened Vectors
  import opened KccTypes
  import opened MotorBody
  import opened ClimbRig

  /** The pose of the motor's transform. */
  function BodyPose(m: Motor): Pose {
    Pose(m.position, m.rotation)
  }

  /** The rotation the rig hands over with a stable-ground point: all four
      components zero, which is not a unit quaternion. */
  const LedgeRotation: Quat := Quat(0.0, 0.0, 0.0, 0.0)

  /** Entering: the rig object is activated and initialised at the body's pose,
      which may already report a stable ledge. */
  function TransitionToState(rig: Rig, motor: Motor, p: Probe): (r: Gathered)
    ensures r.rig.active && r.rig.enabled && r.rig.alive == rig.alive && r.rig.layout == rig.layout
    ensures r.rig.pose == BodyPose(motor)
    ensures r.rig.targetPosition == motor.position && r.rig.targetRotation == motor.rotation
    ensures OffsetCurrent(r.rig)
    ensures r.ledge.Some? <==>
      StableLedge(BodyPose(motor), rig.layout, p.rays.down, p.slopeAngle, p.maxStableSlopeAngle)
    ensures r.ledge.Some? ==> r.ledge.value == p.rays.down.value.point
  {
    Init(rig.(active := true), BodyPose(motor), p)
  }

  /** Leaving: the rig object is deactivated. Its own enabled flag stays set. */
  function TransitionFromState(rig: Rig): (r: Rig)
    ensures !r.active
    ensures r.enabled == rig.enabled && r.alive == rig.alive
    ensures r == rig.(active := false)
  {
    rig.(active := false)
  }

  /** Before the motor moves: one rig tick, which may report a stable ledge. An
      enabled rig takes the means of its hits as climb point and normal, faces
      into the wall, and sets its target the surface offset back from the climb
      point plus its stored offset. */
  function BeforeCharacterUpdate(rig: Rig, cfg: Config, p: Probe): (r: Gathered)
    ensures !rig.enabled ==> r == Gathered(rig, None)
    ensures rig.enabled ==>
      (r.ledge.Some? <==> StableLedge(rig.pose, rig.layout, p.rays.down, p.slopeAngle, p.maxStableSlopeAngle))
    ensures r.ledge.Some? ==> r.ledge.value == p.rays.down.value.point
    ensures rig.enabled ==> Scale(r.rig.climbPoint, 4.0) == SumPoints(p.rays)
    ensures rig.enabled ==> Scale(r.rig.climbNormal, 4.0) == SumNormals(p.rays)
    ensures rig.enabled ==> r.rig.targetRotation == p.face(rig.pose.rotation, Scale(r.rig.climbNormal, -1.0))
    ensures rig.enabled ==>
      r.rig.targetPosition
        == Add(Sub(r.rig.climbPoint, Scale(Forward(rig.pose.rotation), cfg.surfaceOffset)), rig.climbPointOffset)
    ensures rig.enabled ==> OffsetCurrent(r.rig)
    ensures r.rig.active == rig.active && r.rig.enabled == rig.enabled && r.rig.pose == rig.pose
    ensures r.rig.alive == rig.alive && r.rig.layout == rig.layout
  {
    ClimbTick(rig, cfg, p)
  }

  /** The body turns to the rig's target rotation; the look direction plays no part. */
  function UpdateRotation(motor: Motor, rig: Rig, look: Vec3): (r: Motor)
    ensures r.rotation == rig.targetRotation
    ensures r == motor.(rotation := r.rotation)
  {
    motor.(rotation := rig.targetRotation)
  }

  lemma RotationIgnoresLook(motor: Motor, rig: Rig, a: Vec3, b: Vec3)
    ensures UpdateRotation(motor, rig, a) == UpdateRotation(motor, rig, b)
  {
  }

  /** What a climbing velocity update produces. */
  datatype ClimbStep = ClimbStep(rig: Rig, motor: Motor, velocity: Vec3)

  /** The velocity is zeroed, the input moves the rig's target, and the body is
      placed on the target. */
  function UpdateVelocity(rig: Rig, motor: Motor, velocity: Vec3, cfg: Config, move: Vec3): (r: ClimbStep)
    ensures r.velocity == Zero
    ensures r.rig == ReceiveClimbInput(rig, cfg, move)
    ensures r.motor == motor.(position := r.rig.targetPosition)
    ensures move.x == 0.0 && move.z == 0.0 ==> r.motor.position == rig.targetPosition
  {
    var moved := ReceiveClimbInput(rig, cfg, move);
    ClimbStep(moved, motor.(position := moved.targetPosition), Zero)
  }

  /** Two velocity updates place the body where one update with the summed input
      would, and both leave the velocity at zero. */
  lemma TwoUpdatesAddInputs(rig: Rig, motor: Motor, v: Vec3, cfg: Config, a: Vec3, b: Vec3)
    ensures var s1 := UpdateVelocity(rig, motor, v, cfg, a);
      var s2 := UpdateVelocity(s1.rig, s1.motor, s1.velocity, cfg, b);
      s2 == UpdateVelocity(rig, motor, v, cfg, Add(a, b))
  {
    ClimbInputAdditive(rig, cfg, a, b);
  }

  /** After the motor moved the body, the rig follows it. */
  function AfterCharacterUpdate(rig: Rig, motor: Motor): (r: Rig)
    ensures r.pose == BodyPose(motor)
    ensures r == rig.(pose := BodyPose(motor))
  {
    SyncRigPosition(rig, BodyPose(motor))
  }

  /** The rig's stable-ground report places the body at the ground point with the
      rig's zero rotation; the transition to the grounded state follows. */
  function PlaceOnLedge(motor: Motor, point: Vec3): (r: Motor)
    ensures r.position == point && r.rotation == LedgeRotation
    ensures r == motor.(position := point, rotation := LedgeRotation)
  {
    motor.(position := point, rotation := LedgeRotation)
  }

  /** Destroys the rig if it still exists. */
  function Cleanup(rig: Rig): (r: Rig)
    ensures !r.alive
    ensures r == rig.(alive := false)
    ensures !rig.alive ==> r == rig
  {
    if rig.alive then rig.(alive := false) else rig
  }

  /** A destroyed or deactivated rig no longer ticks on its own. */
  lemma ExitStopsFixedUpdate(rig: Rig, cfg: Config, p: Probe)
    ensures FixedUpdate(TransitionFromState(rig), cfg, p) == Gathered(TransitionFromState(rig), None)
    ensures FixedUpdate(Cleanup(rig), cfg, p) == Gathered(Cleanup(rig), None)
  {
  }

  /** Leaving does not disable the rig, so a later tick requested through the
      state still casts. */
  lemma ExitKeepsRigEnabled(rig: Rig, motor: Motor, cfg: Config, p: Probe, q: Probe)
    ensures var entered := TransitionToState(rig, motor, p).rig;
      TransitionFromState(entered).enabled
      && (ClimbTick(TransitionFromState(entered), cfg, q).ledge.Some? <==>
          StableLedge(BodyPose(motor), rig.layout, q.rays.down, q.slopeAngle, q.maxStableSlopeAngle))
  {
  }
}

=== FILE: controller.dfy ===
/** The controller host. It owns the pool of locomotion states and the pointer to
    the active one, receives the motor's callbacks and forwards them to the active
    state, detects grounding edges, applies a pending velocity impulse, and feeds
    the animation bridge. Physics queries and the engine's transcendental math
    arrive through an `Env` of per-callback oracles. */
module KccController {
  import opened Vectors
  import opened KccTypes
  import opened MotorBody
  import StateBase
  import StateGrounded
  import StateUngrounded
  import opened ClimbRig
  import StateClimbing
  import StateSwimming
  import opened AnimationBridge
  import opened KccPool

  /** One step of the state lifecycle, in the order the hooks run. */
  datatype Hook =
    | Exited(state: StateKey, towards: StateKey)
    | Entered(state: StateKey, from: StateKey, data: StateBase.Payload)
    | Activated(state: StateKey)

  /** What the engine supplies to one callback: the camera's view mode, the
      stable-ground velocity steering, the motor's overlap query, the square root,
      the climb rig's casts, the base states' rotation update, and the
      character's yaw in degrees. */
  datatype Env = Env(
    view: ViewState,
    steer: (Vec3, Vec3, real) -> Vec3,
    overlaps: Capsule -> bool,
    sqrt: real -> real,
    probe: Probe,
    orient: (Quat, Vec3, real) -> Quat,
    yaw: real)

  datatype Controller = Controller(
    cfg: Config,
    states: seq<LocoState>,
    current: nat,
    motor: Motor,
    input: Input,
    moveInput: Vec3,
    lookInput: Vec3,
    internalVelocityAdd: Vec3,
    maxStableMoveSpeed: real,
    localVelocity: Vec3,
    movementCollision: MovementCollision,
    ignoredColliders: seq<nat>,
    bridge: Option<Bridge>,
    events: seq<Event>,
    lifecycle: seq<Hook>)

  /** The pool as created, and an active pointer into it. */
  predicate WellFormed(c: Controller) {
    PoolShape(c.states) && c.current < |c.states|
  }

  function CurrentKey(c: Controller): StateKey
    requires WellFormed(c)
  {
    KeyOf(c.states[c.current])
  }

  /** The controller's own fields that state transitions never touch. */
  predicate SameHost(c: Controller, r: Controller) {
    r.cfg == c.cfg && r.input == c.input && r.moveInput == c.moveInput && r.lookInput == c.lookInput
    && r.internalVelocityAdd == c.internalVelocityAdd && r.maxStableMoveSpeed == c.maxStableMoveSpeed
    && r.localVelocity == c.localVelocity && r.movementCollision == c.movementCollision
    && r.ignoredColliders == c.ignoredColliders && r.bridge.Some? == c.bridge.Some?
  }

  // ---------------------------------------------------------------- creation

  /** Creates the four states and points at the airborne one. No entry hook runs,
      so nothing is announced and ground solving keeps the motor's setting. */
  function Awake(cfg: Config, motor: Motor, rig: Rig, bridge: Option<Bridge>, ignored: seq<nat>): (c: Controller)
    ensures WellFormed(c)
    ensures CurrentKey(c) == Ungrounded
    ensures c.states == CreateControllerStates(cfg, motor.velocity, rig)
    ensures c.lifecycle == [] && c.events == []
    ensures c.motor == motor && c.bridge == bridge && c.ignoredColliders == ignored
    ensures c.internalVelocityAdd == Zero && c.movementCollision == NoCollision
  {
    var states := CreateControllerStates(cfg, motor.velocity, rig);
    OneStatePerKey(states);
    Controller(cfg, states, FindState(states, Ungrounded).value, motor, NoInput, Zero, Zero, Zero, 0.0, Zero,
               NoCollision, ignored, bridge, [], [])
  }

  // ---------------------------------------------------------------- notifications

  /** Sends notifications to the animation provider, if there is one. */
  function Emit(c: Controller, evs: seq<Event>): (r: Controller)
    ensures r.events == c.events + evs
    ensures r.bridge.Some? <==> c.bridge.Some?
    ensures c.bridge.Some? ==> r.bridge.value == NotifyAll(c.bridge.value, evs)
    ensures r == c.(events := r.events, bridge := r.bridge)
  {
    var b := match c.bridge
      case Some(b) => Some(NotifyAll(b, evs))
      case None => None;
    c.(events := c.events + evs, bridge := b)
  }

  function GroundedFrame(c: Controller, g: StateGrounded.GroundedData, v: Vec3): StateGrounded.Frame {
    StateGrounded.Frame(g, c.motor, v, c.maxStableMoveSpeed, [])
  }

  /** Writes a grounded callback's results back into slot `i` and the host. */
  function FromGrounded(c: Controller, i: nat, f: StateGrounded.Frame): Controller
    requires i < |c.states|
  {
    Emit(c.(states := c.states[i := GroundedState(f.g)], motor := f.motor.(velocity := f.velocity),
            maxStableMoveSpeed := f.maxStableMoveSpeed), f.events)
  }

  function AirFrameOf(c: Controller, u: StateUngrounded.UngroundedData, v: Vec3): StateUngrounded.AirFrame {
    StateUngrounded.AirFrame(u, c.motor, v, [])
  }

  /** Writes an airborne callback's results back into slot `i` and the host. */
  function FromAir(c: Controller, i: nat, f: StateUngrounded.AirFrame): Controller
    requires i < |c.states|
  {
    Emit(c.(states := c.states[i := UngroundedState(f.u)], motor := f.motor.(velocity := f.velocity)), f.events)
  }

  // ---------------------------------------------------------------- transitions

  /** Entering the climbing state may itself transition to the grounded state, so
      transitions are ranked by whether their target is the climbing state. */
  function Rank(k: StateKey): nat {
    if k == Climbing then 1 else 0
  }

  /** Runs the leaving state's exit hook, then the entering state's entry hook, and
      only then points at the entering state. */
  function Transition(c: Controller, from: StateKey, to: StateKey, data: StateBase.Payload, env: Env): (r: Controller)
    requires WellFormed(c)
    ensures WellFormed(r)
    ensures r.current == SlotOf(to)
    ensures SameHost(c, r)
    ensures |r.lifecycle| >= |c.lifecycle| + 3
    ensures r.lifecycle[..|c.lifecycle| + 2] == c.lifecycle + [Exited(from, to), Entered(to, from, data)]
    ensures r.lifecycle[|r.lifecycle| - 1] == Activated(to)
    ensures to != Climbing ==>
      r.lifecycle == c.lifecycle + [Exited(from, to), Entered(to, from, data), Activated(to)]
    decreases Rank(to), 2
  {
    OneStatePerKey(c.states);
    var target := FindState(c.states, to).value;
    var exited := ExitHook(c, from, to);
    var announced := exited.(lifecycle := exited.lifecycle + [Entered(to, from, data)]);
    var entered := EntryHook(announced, to, from, data, env);
    var r := entered.(current := target, lifecycle := entered.lifecycle + [Activated(to)]);
    assert announced.lifecycle == c.lifecycle + [Exited(from, to), Entered(to, from, data)];
    assert r.lifecycle[..|announced.lifecycle|] == entered.lifecycle[..|announced.lifecycle|];
    r
  }

  /** The leaving state's exit hook: only the climbing state's does something. */
  function ExitHook(c: Controller, from: StateKey, to: StateKey): (r: Controller)
    requires WellFormed(c)
    ensures WellFormed(r) && SameHost(c, r)
    ensures r.current == c.current && r.motor == c.motor && r.events == c.events && r.bridge == c.bridge
    ensures r.lifecycle == c.lifecycle + [Exited(from, to)]
    ensures from != Climbing ==> r.states == c.states
    ensures from == Climbing ==>
      r.states == c.states[SlotOf(Climbing) := ClimbingState(StateClimbing.TransitionFromState(c.states[SlotOf(Climbing)].rig))]
  {
    OneStatePerKey(c.states);
    var i := FindState(c.states, from).value;
    var logged := c.(lifecycle := c.lifecycle + [Exited(from, to)]);
    match c.states[i]
    case ClimbingState(rig) => logged.(states := c.states[i := ClimbingState(StateClimbing.TransitionFromState(rig))])
    case _ => logged
  }

  /** The entering state's entry hook. */
  function EntryHook(c: Controller, to: StateKey, from: StateKey, data: StateBase.Payload, env: Env): (r: Controller)
    requires WellFormed(c)
    ensures WellFormed(r) && SameHost(c, r)
    ensures |r.lifecycle| >= |c.lifecycle| && r.lifecycle[..|c.lifecycle|] == c.lifecycle
    ensures to != Climbing ==> r.current == c.current && r.lifecycle == c.lifecycle
    decreases Rank(to), 1
  {
    OneStatePerKey(c.states);
    var j := FindState(c.states, to).value;
    match c.states[j]
    case GroundedState(g) =>
      FromGrounded(c, j, StateGrounded.TransitionToState(GroundedFrame(c, g, c.motor.velocity)))
    case UngroundedState(u) =>
      FromAir(c, j, StateUngrounded.TransitionToState(AirFrameOf(c, u, c.motor.velocity), data))
    case ClimbingState(rig) =>
      var entered := StateClimbing.TransitionToState(rig, c.motor, env.probe);
      var c1 := c.(states := c.states[j := ClimbingState(entered.rig)]);
      if entered.ledge.Some? then StableGroundReached(c1, entered.ledge.value, env) else c1
    case SwimmingState =>
      c.(motor := StateSwimming.TransitionToState(c.motor))
  }

  /** The rig's stable-ground report: the body is placed at the ground point with
      the rig's zero rotation, then the climbing state hands over to the grounded
      state. */
  function StableGroundReached(c: Controller, point: Vec3, env: Env): (r: Controller)
    requires WellFormed(c)
    ensures WellFormed(r) && SameHost(c, r)
    ensures r.current == SlotOf(Grounded)
    ensures r.lifecycle ==
      c.lifecycle + [Exited(Climbing, Grounded), Entered(Grounded, Climbing, None), Activated(Grounded)]
    ensures r.motor == c.motor.(position := point, rotation := StateClimbing.LedgeRotation, groundSolving := true)
    ensures r.states == c.states[SlotOf(Climbing) := ClimbingState(c.states[SlotOf(Climbing)].rig.(active := false))]
    ensures r.events == c.events + [LandFired]
    decreases 1, 0
  {
    OneStatePerKey(c.states);
    Transition(c.(motor := StateClimbing.PlaceOnLedge(c.motor, point)), Climbing, Grounded, None, env)
  }

  // ---------------------------------------------------------------- input

  /** Stores the input and lets the active state latch requests from it; only the
      grounded state does. */
  function ReceiveInput(c: Controller, input: Input): (r: Controller)
    requires WellFormed(c)
    ensures WellFormed(r) && r.current == c.current && r.input == input
    ensures CurrentKey(c) == Grounded ==>
      r.states[c.current].g == StateGrounded.ForwardInputValues(c.states[c.current].g, input)
    ensures CurrentKey(c) != Grounded ==> r.states == c.states
    ensures r == c.(input := input, states := r.states)
  {
    var stored := c.(input := input);
    match c.states[c.current]
    case GroundedState(g) =>
      stored.(states := c.states[c.current := GroundedState(StateGrounded.ForwardInputValues(g, input))])
    case _ => stored
  }

  /** The per-frame tick copies the stored input's move and look vectors. */
  function Tick(c: Controller): (r: Controller)
    ensures r.moveInput == c.input.move && r.lookInput == c.input.look
    ensures r == c.(moveInput := r.moveInput, lookInput := r.lookInput)
  {
    c.(moveInput := c.input.move, lookInput := c.input.look)
  }

  // ---------------------------------------------------------------- motor callbacks

  /** What a rig tick that finds a ledge at `point` leaves behind: the grounded
      state is current, the body sits on the point with the rig's zero rotation
      and ground solving on, the ticked rig is deactivated, one landing is
      announced, and the log holds the climbing-to-grounded switch. */
  predicate LedgeReached(c: Controller, ticked: Rig, point: Vec3, r: Controller)
    requires WellFormed(c) && WellFormed(r)
  {
    CurrentKey(r) == Grounded
    && r.motor == c.motor.(position := point, rotation := StateClimbing.LedgeRotation, groundSolving := true)
    && r.states == c.states[SlotOf(Climbing) := ClimbingState(ticked.(active := false))]
    && r.events == c.events + [LandFired]
    && r.lifecycle == c.lifecycle + [Exited(Climbing, Grounded), Entered(Grounded, Climbing, None), Activated(Grounded)]
  }

  /** Start of a motor update: the movement collision is reset, then the active
      state runs; the climbing state ticks its rig, which may report stable
      ground. */
  function BeforeCharacterUpdate(c: Controller, env: Env): (r: Controller)
    requires WellFormed(c)
    ensures WellFormed(r) && r.cfg == c.cfg && r.movementCollision == NoCollision
    ensures CurrentKey(c) != Climbing ==> r == c.(movementCollision := NoCollision)
    ensures CurrentKey(c) == Climbing ==>
      var t := StateClimbing.BeforeCharacterUpdate(c.states[c.current].rig, c.cfg, env.probe);
      t.ledge.None? ==> r == c.(movementCollision := NoCollision, states := c.states[c.current := ClimbingState(t.rig)])
    ensures CurrentKey(c) == Climbing ==>
      var t := StateClimbing.BeforeCharacterUpdate(c.states[c.current].rig, c.cfg, env.probe);
      t.ledge.Some? ==> LedgeReached(c, t.rig, t.ledge.value, r)
  {
    if CurrentKey(c) == Climbing then ClimbingTick(c, env) else c.(movementCollision := NoCollision)
  }

  /** The climbing branch of the start of a motor update: the rig ticks and a
      ledge it finds hands over to the grounded state. */
  function ClimbingTick(c: Controller, env: Env): (r: Controller)
    requires WellFormed(c) && CurrentKey(c) == Climbing
    ensures WellFormed(r) && r.cfg == c.cfg && r.movementCollision == NoCollision
    ensures var t := StateClimbing.BeforeCharacterUpdate(c.states[c.current].rig, c.cfg, env.probe);
      t.ledge.None? ==> r == c.(movementCollision := NoCollision, states := c.states[c.current := ClimbingState(t.rig)])
    ensures var t := StateClimbing.BeforeCharacterUpdate(c.states[c.current].rig, c.cfg, env.probe);
      t.ledge.Some? ==> LedgeReached(c, t.rig, t.ledge.value, r)
  {
    var ticked := StateClimbing.BeforeCharacterUpdate(c.states[c.current].rig, c.cfg, env.probe);
    var c1 := c.(movementCollision := NoCollision, states := c.states[c.current := ClimbingState(ticked.rig)]);
    if ticked.ledge.Some? then
      TickedLedgeReached(c, ticked.rig, ticked.ledge.value, env);
      StableGroundReached(c1, ticked.ledge.value, env)
    else c1
  }

  /** Storing a ticked rig in the climbing slot and then reporting a ledge is a
      full landing on that ledge, measured from before the tick. */
  lemma TickedLedgeReached(c: Controller, ticked: Rig, point: Vec3, env: Env)
    requires WellFormed(c) && CurrentKey(c) == Climbing
    ensures var c1 := c.(movementCollision := NoCollision, states := c.states[c.current := ClimbingState(ticked)]);
      WellFormed(c1) && LedgeReached(c, ticked, point, StableGroundReached(c1, point, env))
  {
    OneStatePerKey(c.states);
    var c1 := c.(movementCollision := NoCollision, states := c.states[c.current := ClimbingState(ticked)]);
    assert c.current == SlotOf(Climbing);
    assert c1.states[SlotOf(Climbing)].rig == ticked;
  }

  /** A change of "found any ground" between the last and this update. */
  datatype Edge = Landed | LeftGround | Steady

  function GroundingEdge(m: Motor): (e: Edge)
    ensures e == Landed <==> m.grounding.foundAnyGround && !m.lastGrounding.foundAnyGround
    ensures e == LeftGround <==> !m.grounding.foundAnyGround && m.lastGrounding.foundAnyGround
    ensures e == Steady <==> m.grounding.foundAnyGround == m.lastGrounding.foundAnyGround
  {
    if m.grounding.foundAnyGround && !m.lastGrounding.foundAnyGround then Landed
    else if !m.grounding.foundAnyGround && m.lastGrounding.foundAnyGround then LeftGround
    else Steady
  }

  /** Landing: only the airborne state reacts, by handing over to the grounded
      state without a payload. */
  function OnCharacterGrounded(c: Controller, env: Env): (r: Controller)
    requires WellFormed(c)
    ensures WellFormed(r) && SameHost(c, r)
    ensures CurrentKey(c) == Ungrounded ==> CurrentKey(r) == Grounded
    ensures CurrentKey(c) != Ungrounded ==> r == c
  {
    match c.states[c.current]
    case UngroundedState(_) => Transition(c, Ungrounded, Grounded, None, env)
    case _ => c
  }

  /** Leaving the ground: only the grounded state reacts, by handing over to the
      airborne state with a jump or fall tag. */
  function OnCharacterUngrounded(c: Controller, env: Env): (r: Controller)
    requires WellFormed(c)
    ensures WellFormed(r) && SameHost(c, r)
    ensures CurrentKey(c) == Grounded ==> CurrentKey(r) == Ungrounded
    ensures CurrentKey(c) != Grounded ==> r == c
  {
    match c.states[c.current]
    case GroundedState(g) =>
      Transition(c, Grounded, Ungrounded, Some(StateGrounded.UngroundPayload(g)), env)
    case _ => c
  }

  /** After the motor's ground probe: landing and leaving are relayed on their
      edges only. */
  function PostGroundingUpdate(c: Controller, env: Env): (r: Controller)
    requires WellFormed(c)
    ensures WellFormed(r) && SameHost(c, r)
    ensures GroundingEdge(c.motor) == Steady ==> r == c
    ensures GroundingEdge(c.motor) == Landed ==> r == OnCharacterGrounded(c, env)
    ensures GroundingEdge(c.motor) == LeftGround ==> r == OnCharacterUngrounded(c, env)
  {
    match GroundingEdge(c.motor)
    case Landed => OnCharacterGrounded(c, env)
    case LeftGround => OnCharacterUngrounded(c, env)
    case Steady => c
  }

  /** Rotation is only driven in third person; the climbing state turns to its
      rig's target, every other state uses the base rotation update. */
  function UpdateRotation(c: Controller, env: Env, dt: real): (r: Controller)
    requires WellFormed(c)
    ensures WellFormed(r)
    ensures env.view == FirstPerson ==> r == c
    ensures env.view == ThirdPerson && CurrentKey(c) == Climbing ==>
      r.motor.rotation == c.states[c.current].rig.targetRotation
    ensures env.view == ThirdPerson && CurrentKey(c) != Climbing ==>
      r.motor.rotation == env.orient(c.motor.rotation, c.lookInput, dt)
    ensures r == c.(motor := c.motor.(rotation := r.motor.rotation))
  {
    if env.view != ThirdPerson then c
    else
      match c.states[c.current]
      case ClimbingState(rig) => c.(motor := StateClimbing.UpdateRotation(c.motor, rig, c.lookInput))
      case _ => c.(motor := c.motor.(rotation := env.orient(c.motor.rotation, c.lookInput, dt)))
  }

  /** A velocity with the pending impulse applied, and what remains pending. */
  datatype Impulse = Impulse(velocity: Vec3, pending: Vec3)

  /** Adds a non-zero pending impulse and clears it. A zero impulse is skipped,
      which amounts to the same sum. */
  function ConsumeImpulse(v: Vec3, add: Vec3): (r: Impulse)
    ensures r.pending == Zero
    ensures r.velocity == Add(v, add)
  {
    if SqrMagnitude(add) > 0.0 then Impulse(Add(v, add), Zero)
    else
      SqrMagnitudeNonNegative(add);
      ZeroLengthIsZero(add);
      Impulse(v, Zero)
  }

  /** The impulse is applied by the first update only. */
  lemma ImpulseAppliedOnce(v: Vec3, add: Vec3, w: Vec3)
    ensures ConsumeImpulse(w, ConsumeImpulse(v, add).pending) == Impulse(w, Zero)
  {
    var first := ConsumeImpulse(v, add);
    assert first.pending == Zero;
  }

  /** The velocity update: the pending impulse first, then the active state. The
      airborne state's drag needs a non-zero divisor. */
  function UpdateVelocity(c: Controller, env: Env, dt: real): (r: Controller)
    requires WellFormed(c)
    requires CurrentKey(c) == Ungrounded ==> StateBase.DragDefined(c.cfg.drag, dt)
    ensures WellFormed(r) && r.current == c.current && r.cfg == c.cfg && r.lifecycle == c.lifecycle
    ensures r.internalVelocityAdd == Zero
    ensures CurrentKey(c) == Grounded ==>
      var f := StateGrounded.UpdateVelocity(
        GroundedFrame(c, c.states[c.current].g, Add(c.motor.velocity, c.internalVelocityAdd)),
        c.cfg, c.moveInput, dt, env.steer, env.overlaps);
      r.states == c.states[c.current := GroundedState(f.g)]
      && r.motor == f.motor.(velocity := f.velocity) && r.maxStableMoveSpeed == f.maxStableMoveSpeed
      && r.events == c.events + f.events
    ensures CurrentKey(c) == Ungrounded ==>
      var f := StateUngrounded.UpdateVelocity(
        AirFrameOf(c, c.states[c.current].u, Add(c.motor.velocity, c.internalVelocityAdd)),
        c.cfg, c.maxStableMoveSpeed, c.moveInput, dt, env.sqrt);
      r.states == c.states[c.current := UngroundedState(f.u)]
      && r.motor == f.motor.(velocity := f.velocity) && r.maxStableMoveSpeed == c.maxStableMoveSpeed
      && r.events == c.events + f.events
    ensures CurrentKey(c) == Swimming ==>
      r.motor == c.motor.(velocity := Add(c.motor.velocity, c.internalVelocityAdd)) && r.states == c.states
    ensures CurrentKey(c) == Climbing ==>
      r.motor.velocity == Zero && r.motor.position == r.states[c.current].rig.targetPosition
      && r.states[c.current].rig == ReceiveClimbInput(c.states[c.current].rig, c.cfg, c.moveInput)
  {
    var imp := ConsumeImpulse(c.motor.velocity, c.internalVelocityAdd);
    var c1 := c.(internalVelocityAdd := imp.pending);
    var v := imp.velocity;
    match c.states[c.current]
    case GroundedState(g) =>
      FromGrounded(c1, c.current,
        StateGrounded.UpdateVelocity(GroundedFrame(c1, g, v), c.cfg, c.moveInput, dt, env.steer, env.overlaps))
    case UngroundedState(u) =>
      FromAir(c1, c.current,
        StateUngrounded.UpdateVelocity(AirFrameOf(c1, u, v), c.cfg, c.maxStableMoveSpeed, c.moveInput, dt, env.sqrt))
    case ClimbingState(rig) =>
      var s := StateClimbing.UpdateVelocity(rig, c.motor, v, c.cfg, c.moveInput);
      c1.(states := c.states[c.current := ClimbingState(s.rig)], motor := s.motor.(velocity := s.velocity))
    case SwimmingState =>
      c1.(motor := c.motor.(velocity := v))
  }

  /** End of a motor update: the velocity in the character's frame is recorded, the
      active state runs (the grounded state classifies its locomotion from the
      forward component and does its jump bookkeeping, the climbing state moves
      its rig to the body), and then the animation bridge updates. */
  function AfterCharacterUpdate(c: Controller, env: Env, dt: real): (r: Controller)
    requires WellFormed(c)
    ensures WellFormed(r) && r.current == c.current && r.cfg == c.cfg && r.lifecycle == c.lifecycle
    ensures r.localVelocity == InverseRotate(c.motor.rotation, c.motor.velocity)
    ensures CurrentKey(c) == Grounded ==>
      r.states[c.current].g.locomotion ==
        StateGrounded.Classify(c.cfg, c.motor.grounding, c.states[c.current].g.posture, r.localVelocity.z)
    ensures CurrentKey(c) == Grounded ==>
      var g := c.states[c.current].g;
      r.states[c.current].g.(locomotion := g.locomotion)
        == StateGrounded.ProcessJump(GroundedFrame(c, g, c.motor.velocity), c.cfg, dt).g
    ensures r.motor == c.motor
    ensures CurrentKey(c) == Climbing ==>
      r.states[c.current].rig == StateClimbing.AfterCharacterUpdate(c.states[c.current].rig, c.motor)
    ensures CurrentKey(c) == Ungrounded || CurrentKey(c) == Swimming ==> r.states == c.states
    ensures r.bridge.Some? <==> c.bridge.Some?
    ensures r.bridge.Some? ==> (r.bridge.value.ungrounded <==> CurrentKey(c) == Ungrounded)
    ensures r.bridge.Some? && CurrentKey(c) != Grounded ==> !r.bridge.value.strafe
    ensures r.bridge.Some? ==> r.bridge.value.animTurnRotation == env.yaw
  {
    var local := InverseRotate(c.motor.rotation, c.motor.velocity);
    var c1 := c.(localVelocity := local);
    var c2 :=
      match c.states[c.current]
      case GroundedState(g) =>
        FromGrounded(c1, c.current,
          StateGrounded.AfterCharacterUpdate(GroundedFrame(c1, g, c.motor.velocity), c.cfg, local.z, dt))
      case ClimbingState(rig) =>
        c1.(states := c.states[c.current := ClimbingState(StateClimbing.AfterCharacterUpdate(rig, c.motor))])
      case _ => c1;
    var key := KeyOf(c2.states[c2.current]);
    match c2.bridge
    case Some(b) =>
      c2.(bridge := Some(UpdateAnimationProperties(b, dt, env.view, key, local, c2.movementCollision, env.yaw)))
    case None => c2
  }

  /** Any ground hit while climbing hands over to the grounded state. */
  function OnGroundHit(c: Controller, env: Env): (r: Controller)
    requires WellFormed(c)
    ensures WellFormed(r) && SameHost(c, r)
    ensures CurrentKey(c) == Climbing ==> CurrentKey(r) == Grounded
    ensures CurrentKey(c) != Climbing ==> r == c
  {
    match c.states[c.current]
    case ClimbingState(_) => Transition(c, Climbing, Grounded, None, env)
    case _ => c
  }

  /** A movement hit: the grounded state records whether it was in front. */
  function OnMovementHit(c: Controller, hitPoint: Vec3): (r: Controller)
    requires WellFormed(c)
    ensures WellFormed(r)
    ensures CurrentKey(c) == Grounded ==>
      r.movementCollision == StateGrounded.OnMovementHit(c.motor.position, Forward(c.motor.rotation), hitPoint)
    ensures CurrentKey(c) != Grounded ==> r == c
    ensures r == c.(movementCollision := r.movementCollision)
  {
    match c.states[c.current]
    case GroundedState(_) =>
      c.(movementCollision := StateGrounded.OnMovementHit(c.motor.position, Forward(c.motor.rotation), hitPoint))
    case _ => c
  }

  /** The motor may collide with every collider except the ignored ones. */
  function IsColliderValidForCollisions(c: Controller, coll: nat): (valid: bool)
    ensures valid <==> coll !in c.ignoredColliders
  {
    !(coll in c.ignoredColliders)
  }

  /** Ignoring one more collider invalidates exactly that collider. */
  lemma IgnoreOneMore(c: Controller, x: nat, y: nat)
    ensures IsColliderValidForCollisions(c.(ignoredColliders := c.ignoredColliders + [x]), y)
      <==> y != x && IsColliderValidForCollisions(c, y)
  {
    assert y in c.ignoredColliders + [x] <==> y in c.ignoredColliders || y == x;
  }

  /** The rig's own fixed-rate update, which runs whichever state is active. */
  function RigFixedUpdate(c: Controller, env: Env): (r: Controller)
    requires WellFormed(c)
    ensures WellFormed(r) && r.cfg == c.cfg
    ensures !(c.states[SlotOf(Climbing)].rig.active && c.states[SlotOf(Climbing)].rig.alive) ==> r == c
    ensures c.states[SlotOf(Climbing)].rig.active && c.states[SlotOf(Climbing)].rig.alive ==>
      var t := ClimbTick(c.states[SlotOf(Climbing)].rig, c.cfg, env.probe);
      t.ledge.None? ==> r == c.(states := c.states[SlotOf(Climbing) := ClimbingState(t.rig)])
    ensures c.states[SlotOf(Climbing)].rig.active && c.states[SlotOf(Climbing)].rig.alive ==>
      var t := ClimbTick(c.states[SlotOf(Climbing)].rig, c.cfg, env.probe);
      t.ledge.Some? ==> LedgeReached(c, t.rig, t.ledge.value, r)
  {
    var i := SlotOf(Climbing);
    var g := FixedUpdate(c.states[i].rig, c.cfg, env.probe);
    var c1 := c.(states := c.states[i := ClimbingState(g.rig)]);
    if g.ledge.Some? then StableGroundReached(c1, g.ledge.value, env) else c1
  }

  /** Destruction: every state cleans up, which destroys the rig. */
  function OnDestroy(c: Controller): (r: Controller)
    requires WellFormed(c)
    ensures WellFormed(r)
    ensures !r.states[SlotOf(Climbing)].rig.alive
    ensures r == c.(states := r.states)
  {
    c.(states := CleanupAll(c.states))
  }
}

=== FILE: controller_pool.dfy ===
/** The controller's pool of locomotion states: one object per key, created in a
    fixed order, and the first-match lookup by key. */
module KccPool {
  import opened Vectors
  import opened KccTypes
  import StateGrounded
  import StateUngrounded
  import opened ClimbRig
  import StateClimbing

  /** One locomotion state object with its private data. */
  datatype LocoState =
    | GroundedState(g: StateGrounded.GroundedData)
    | UngroundedState(u: StateUngrounded.UngroundedData)
    | ClimbingState(rig: Rig)
    | SwimmingState

  function KeyOf(s: LocoState): StateKey {
    match s
    case GroundedState(_) => Grounded
    case UngroundedState(_) => Ungrounded
    case ClimbingState(_) => Climbing
    case SwimmingState => Swimming
  }

  /** Where each key's state sits in the creation order. */
  function SlotOf(k: StateKey): (i: nat)
    ensures i < 4
  {
    match k
    case Grounded => 0
    case Ungrounded => 1
    case Climbing => 2
    case Swimming => 3
  }

  /** The pool as the controller creates it: grounded, airborne, climbing,
      swimming, in that order. */
  predicate PoolShape(states: seq<LocoState>) {
    |states| == 4
    && states[0].GroundedState? && states[1].UngroundedState?
    && states[2].ClimbingState? && states[3].SwimmingState?
  }

  /** Creates the four states. The grounded state derives its posture heights from
      the config, the airborne state reads the motor's vertical velocity, and the
      climbing state holds its rig. */
  function CreateControllerStates(cfg: Config, motorVelocity: Vec3, rig: Rig): (states: seq<LocoState>)
    ensures PoolShape(states)
    ensures states[0].g == StateGrounded.Create(cfg)
    ensures states[1].u == StateUngrounded.Create(motorVelocity)
    ensures states[2].rig == rig
  {
    [GroundedState(StateGrounded.Create(cfg)), UngroundedState(StateUngrounded.Create(motorVelocity)),
     ClimbingState(rig), SwimmingState]
  }

  /** The index of the first state with key `k`, if any. */
  function FindState(states: seq<LocoState>, k: StateKey): (r: Option<nat>)
    ensures r.Some? ==> r.value < |states| && KeyOf(states[r.value]) == k
    ensures r.Some? ==> forall j :: 0 <= j < r.value ==> KeyOf(states[j]) != k
    ensures r.None? <==> forall j :: 0 <= j < |states| ==> KeyOf(states[j]) != k
    decreases |states|
  {
    if |states| == 0 then None
    else if KeyOf(states[0]) == k then Some(0)
    else
      match FindState(states[1..], k)
      case None => None
      case Some(i) => Some(i + 1)
  }

  /** The controller's lookup: a scan that stops at the first state with the key
      and yields nothing when there is none. */
  method GetState(states: seq<LocoState>, k: StateKey) returns (r: Option<nat>)
    ensures r.Some? ==> r.value < |states| && KeyOf(states[r.value]) == k
    ensures r.Some? ==> forall j :: 0 <= j < r.value ==> KeyOf(states[j]) != k
    ensures r.None? <==> forall j :: 0 <= j < |states| ==> KeyOf(states[j]) != k
    ensures r == FindState(states, k)
  {
    r := None;
    var i := 0;
    while i < |states|
      invariant 0 <= i <= |states|
      invariant forall j :: 0 <= j < i ==> KeyOf(states[j]) != k
    {
      if KeyOf(states[i]) == k {
        r := Some(i);
        return;
      }
      i := i + 1;
    }
  }

  /** The created pool holds exactly one state per key, so the lookup finds every
      key, at its creation slot. */
  lemma OneStatePerKey(states: seq<LocoState>)
    requires PoolShape(states)
    ensures forall k: StateKey :: FindState(states, k) == Some(SlotOf(k))
    ensures forall i, k: StateKey :: 0 <= i < |states| && KeyOf(states[i]) == k ==> i == SlotOf(k)
  {
    forall k: StateKey
      ensures FindState(states, k) == Some(SlotOf(k))
    {
      var r := FindState(states, k);
      assert KeyOf(states[SlotOf(k)]) == k;
    }
  }

  /** Replacing a state by another of the same kind keeps the pool's shape. */
  lemma ReplaceKeepsShape(states: seq<LocoState>, i: nat, s: LocoState)
    requires PoolShape(states) && i < |states| && KeyOf(s) == KeyOf(states[i])
    ensures PoolShape(states[i := s])
  {
  }

  /** Destroys what each state owns: the climbing state's rig. */
  function CleanupAll(states: seq<LocoState>): (r: seq<LocoState>)
    ensures |r| == |states|
    ensures forall i :: 0 <= i < |states| ==> KeyOf(r[i]) == KeyOf(states[i])
    ensures forall i :: 0 <= i < |states| && states[i].ClimbingState? ==>
      r[i].ClimbingState? && r[i].rig == states[i].rig.(alive := false)
    ensures forall i :: 0 <= i < |states| && !states[i].ClimbingState? ==> r[i] == states[i]
    decreases |states|
  {
    if |states| == 0 then []
    else
      var s := match states[0]
        case ClimbingState(rig) => ClimbingState(StateClimbing.Cleanup(rig))
        case other => other;
      [s] + CleanupAll(states[1..])
  }
}

=== FILE: controller_props.dfy ===
/** Properties of the controller across callbacks: what each transition does to
    the body and the announcements, the climbing entry that lands on a ledge at
    once, the passive swimming state, and what any run of callbacks keeps. */
module ControllerProperties {
  import opened Vectors
  import opened KccTypes
  import opened MotorBody
  import StateBase
  import StateGrounded
  import StateUngrounded
  import opened ClimbRig
  import StateClimbing
  import opened AnimationBridge
  import opened KccPool
  import opened KccController

  // ---------------------------------------------------------------- single transitions

  /** Handing over to the grounded state switches ground solving on, announces
      one landing and leaves the grounded state's data alone; only a climbing
      exit touches another state, by deactivating the rig. */
  lemma TransitionToGrounded(c: Controller, from: StateKey, data: StateBase.Payload, env: Env)
    requires WellFormed(c)
    ensures var r := Transition(c, from, Grounded, data, env);
      CurrentKey(r) == Grounded
      && r.motor == c.motor.(groundSolving := true)
      && r.events == c.events + [LandFired]
      && (c.bridge.Some? ==> r.bridge == Some(NotifyAll(c.bridge.value, [LandFired])))
      && r.states[SlotOf(Grounded)] == c.states[SlotOf(Grounded)]
      && (from != Climbing ==> r.states == c.states)
      && (from == Climbing ==>
            r.states == c.states[SlotOf(Climbing) := ClimbingState(c.states[SlotOf(Climbing)].rig.(active := false))])
  {
    OneStatePerKey(c.states);
  }

  /** Handing over to the airborne state switches ground solving on and announces
      the jump or fall its tag names. */
  lemma TransitionToUngrounded(c: Controller, from: StateKey, data: StateBase.Payload, env: Env)
    requires WellFormed(c) && from != Climbing
    ensures var r := Transition(c, from, Ungrounded, data, env);
      var u := c.states[SlotOf(Ungrounded)].u;
      CurrentKey(r) == Ungrounded
      && r.motor == c.motor.(groundSolving := true)
      && (c.bridge.Some? ==> r.bridge == Some(NotifyAll(c.bridge.value, r.events[|c.events|..])))
      && (data == Some(StateBase.ToUngroundedFromJump) ==>
            r.events == c.events + [JumpFired] && r.states[SlotOf(Ungrounded)].u == u.(enteredFromJump := true))
      && (data == Some(StateBase.ToUngroundedFromFall) ==>
            r.events == c.events + [FallBeginFired] && r.states[SlotOf(Ungrounded)].u == u.(enteredFromJump := false))
      && (data != Some(StateBase.ToUngroundedFromJump) && data != Some(StateBase.ToUngroundedFromFall) ==>
            r.events == c.events && r.states == c.states)
  {
    OneStatePerKey(c.states);
  }

  /** Handing over to the swimming state switches ground solving off and
      announces nothing. */
  lemma TransitionToSwimming(c: Controller, from: StateKey, data: StateBase.Payload, env: Env)
    requires WellFormed(c) && from != Climbing
    ensures var r := Transition(c, from, Swimming, data, env);
      CurrentKey(r) == Swimming
      && r.motor == c.motor.(groundSolving := false)
      && r.events == c.events && r.bridge == c.bridge && r.states == c.states
  {
    OneStatePerKey(c.states);
  }

  // ---------------------------------------------------------------- grounding edges

  /** Landing while airborne: the grounded state becomes active, ground solving is
      on, the landing is announced, and the bridge clears both latches. */
  lemma LandingFromAir(c: Controller, env: Env)
    requires WellFormed(c) && CurrentKey(c) == Ungrounded && GroundingEdge(c.motor) == Landed
    ensures var r := PostGroundingUpdate(c, env);
      CurrentKey(r) == Grounded
      && r.motor.groundSolving
      && r.events == c.events + [LandFired]
      && r.lifecycle == c.lifecycle + [Exited(Ungrounded, Grounded), Entered(Grounded, Ungrounded, None),
                                       Activated(Grounded)]
      && (r.bridge.Some? ==> !r.bridge.value.jumped && !r.bridge.value.fall)
  {
    OneStatePerKey(c.states);
    TransitionToGrounded(c, Ungrounded, None, env);
  }

  /** Leaving the ground while grounded: the airborne state becomes active with a
      jump tag exactly when the last update jumped, and the matching announcement
      sets the matching bridge latch. */
  lemma LeavingGround(c: Controller, env: Env)
    requires WellFormed(c) && CurrentKey(c) == Grounded && GroundingEdge(c.motor) == LeftGround
    ensures var r := PostGroundingUpdate(c, env);
      var jumped := c.states[c.current].g.jumpedThisFrame;
      CurrentKey(r) == Ungrounded
      && r.motor.groundSolving
      && (jumped ==> r.events == c.events + [JumpFired] && r.states[SlotOf(Ungrounded)].u.enteredFromJump)
      && (!jumped ==> r.events == c.events + [FallBeginFired] && !r.states[SlotOf(Ungrounded)].u.enteredFromJump)
      && (r.bridge.Some? ==> (jumped ==> r.bridge.value.jumped) && (!jumped ==> r.bridge.value.fall))
  {
    OneStatePerKey(c.states);
    var g := c.states[c.current].g;
    var data := Some(StateGrounded.UngroundPayload(g));
    assert PostGroundingUpdate(c, env) == Transition(c, Grounded, Ungrounded, data, env);
    TransitionToUngrounded(c, Grounded, data, env);
    StateBase.PayloadTagsDistinct();
    if g.jumpedThisFrame {
      assert data == Some(StateBase.ToUngroundedFromJump);
    } else {
      assert data == Some(StateBase.ToUngroundedFromFall);
    }
  }

  // ---------------------------------------------------------------- climbing

  /** The climbing entry hook on a ledge is the rig's stable-ground report. */
  lemma EntryHookOnLedge(c: Controller, from: StateKey, data: StateBase.Payload, env: Env)
    requires WellFormed(c)
    requires var rig := c.states[SlotOf(Climbing)].rig;
      StableLedge(StateClimbing.BodyPose(c.motor), rig.layout, env.probe.rays.down,
                  env.probe.slopeAngle, env.probe.maxStableSlopeAngle)
    ensures var rig := c.states[SlotOf(Climbing)].rig;
      var entered := StateClimbing.TransitionToState(rig, c.motor, env.probe);
      EntryHook(c, Climbing, from, data, env)
        == StableGroundReached(c.(states := c.states[SlotOf(Climbing) := ClimbingState(entered.rig)]),
                               env.probe.rays.down.value.point, env)
      && entered.rig.enabled
  {
    OneStatePerKey(c.states);
  }

  /** The report places the body on the point and hands over to the grounded state. */
  lemma StableGroundEffects(c: Controller, point: Vec3, env: Env)
    requires WellFormed(c)
    ensures var r := StableGroundReached(c, point, env);
      r.motor == c.motor.(position := point, rotation := StateClimbing.LedgeRotation, groundSolving := true)
      && r.events == c.events + [LandFired]
      && r.states == c.states[SlotOf(Climbing) := ClimbingState(c.states[SlotOf(Climbing)].rig.(active := false))]
  {
    TransitionToGrounded(c.(motor := StateClimbing.PlaceOnLedge(c.motor, point)), Climbing, None, env);
  }

  /** Entering the climbing state where the rig already finds a stable ledge: the
      nested hand-over to the grounded state runs inside the entry, and the outer
      transition then points at the climbing state anyway. The body ends on the
      ledge point with the rig's zero rotation, ground solving on and a landing
      announced, while the rig is inactive yet still enabled. */
  lemma ClimbEntryOnLedge(c: Controller, from: StateKey, data: StateBase.Payload, env: Env)
    requires WellFormed(c) && from != Climbing
    requires var rig := c.states[SlotOf(Climbing)].rig;
      StableLedge(StateClimbing.BodyPose(c.motor), rig.layout, env.probe.rays.down,
                  env.probe.slopeAngle, env.probe.maxStableSlopeAngle)
    ensures var r := Transition(c, from, Climbing, data, env);
      CurrentKey(r) == Climbing
      && !r.states[SlotOf(Climbing)].rig.active && r.states[SlotOf(Climbing)].rig.enabled
      && r.motor == c.motor.(position := env.probe.rays.down.value.point, rotation := StateClimbing.LedgeRotation,
                             groundSolving := true)
      && r.events == c.events + [LandFired]
      && r.lifecycle == c.lifecycle + [Exited(from, Climbing), Entered(Climbing, from, data),
                                       Exited(Climbing, Grounded), Entered(Grounded, Climbing, None),
                                       Activated(Grounded), Activated(Climbing)]
  {
    OneStatePerKey(c.states);
    var exited := ExitHook(c, from, Climbing);
    var announced := exited.(lifecycle := exited.lifecycle + [Entered(Climbing, from, data)]);
    assert announced.motor == c.motor && announced.states == c.states && announced.events == c.events;
    EntryHookOnLedge(announced, from, data, env);
    var rig := c.states[SlotOf(Climbing)].rig;
    var entered := StateClimbing.TransitionToState(rig, c.motor, env.probe);
    var c1 := announced.(states := c.states[SlotOf(Climbing) := ClimbingState(entered.rig)]);
    var point := env.probe.rays.down.value.point;
    var inner := StableGroundReached(c1, point, env);
    StableGroundEffects(c1, point, env);
    assert inner.states[SlotOf(Climbing)].rig == entered.rig.(active := false);
    var r := Transition(c, from, Climbing, data, env);
    assert r == inner.(current := SlotOf(Climbing), lifecycle := inner.lifecycle + [Activated(Climbing)]);
  }

  /** Entering the climbing state without a ledge below: the rig is active and
      placed on the body, and nothing else happens. */
  lemma ClimbEntryOnWall(c: Controller, from: StateKey, data: StateBase.Payload, env: Env)
    requires WellFormed(c) && from != Climbing
    requires var rig := c.states[SlotOf(Climbing)].rig;
      !StableLedge(StateClimbing.BodyPose(c.motor), rig.layout, env.probe.rays.down,
                   env.probe.slopeAngle, env.probe.maxStableSlopeAngle)
    ensures var r := Transition(c, from, Climbing, data, env);
      CurrentKey(r) == Climbing
      && r.states[SlotOf(Climbing)].rig.active
      && r.states[SlotOf(Climbing)].rig.pose == StateClimbing.BodyPose(c.motor)
      && r.motor == c.motor && r.events == c.events
      && r.lifecycle == c.lifecycle + [Exited(from, Climbing), Entered(Climbing, from, data), Activated(Climbing)]
  {
    OneStatePerKey(c.states);
  }

  /** Any ground hit ends climbing: the grounded state becomes active and the rig
      is deactivated but stays enabled. */
  lemma GroundHitEndsClimb(c: Controller, env: Env)
    requires WellFormed(c) && CurrentKey(c) == Climbing
    ensures var r := OnGroundHit(c, env);
      CurrentKey(r) == Grounded
      && !r.states[SlotOf(Climbing)].rig.active
      && r.states[SlotOf(Climbing)].rig.enabled == c.states[SlotOf(Climbing)].rig.enabled
      && r.motor == c.motor.(groundSolving := true)
      && r.events == c.events + [LandFired]
  {
    OneStatePerKey(c.states);
    TransitionToGrounded(c, Climbing, None, env);
  }

  /** A climbing tick that finds a stable ledge places the body on it and hands
      over to the grounded state within the same callback. */
  lemma ClimbTickReachesLedge(c: Controller, env: Env)
    requires WellFormed(c) && CurrentKey(c) == Climbing
    requires var rig := c.states[c.current].rig;
      rig.enabled
      && StableLedge(rig.pose, rig.layout, env.probe.rays.down, env.probe.slopeAngle, env.probe.maxStableSlopeAngle)
    ensures var r := BeforeCharacterUpdate(c, env);
      CurrentKey(r) == Grounded
      && r.motor == c.motor.(position := env.probe.rays.down.value.point, rotation := StateClimbing.LedgeRotation,
                             groundSolving := true)
      && !r.states[SlotOf(Climbing)].rig.active
      && r.events == c.events + [LandFired]
  {
    OneStatePerKey(c.states);
    var rig := c.states[c.current].rig;
    var ticked := StateClimbing.BeforeCharacterUpdate(rig, c.cfg, env.probe);
    var c1 := c.(movementCollision := NoCollision, states := c.states[c.current := ClimbingState(ticked.rig)]);
    var point := ticked.ledge.value;
    assert BeforeCharacterUpdate(c, env) == StableGroundReached(c1, point, env);
    TransitionToGrounded(c1.(motor := StateClimbing.PlaceOnLedge(c1.motor, point)), Climbing, None, env);
  }

  // ---------------------------------------------------------------- swimming

  /** The swimming state never starts a transition: grounding edges, ground hits
      and movement hits leave the controller as it is, and input is only stored. */
  lemma SwimmingIsPassive(c: Controller, env: Env, input: Input, hitPoint: Vec3)
    requires WellFormed(c) && CurrentKey(c) == Swimming
    ensures PostGroundingUpdate(c, env) == c
    ensures OnGroundHit(c, env) == c
    ensures OnMovementHit(c, hitPoint) == c
    ensures ReceiveInput(c, input) == c.(input := input)
    ensures BeforeCharacterUpdate(c, env) == c.(movementCollision := NoCollision)
  {
  }

  // ---------------------------------------------------------------- delivery to the bridge

  /** `r` extends `c`'s announcement log, and its bridge latches are what
      delivering the new announcements to `c`'s bridge gives. */
  predicate Delivered(c: Controller, r: Controller) {
    |c.events| <= |r.events| && r.events[..|c.events|] == c.events
    && (r.bridge.Some? <==> c.bridge.Some?)
    && (c.bridge.Some? ==>
          LatchesOf(r.bridge.value) == LatchesOf(NotifyAll(c.bridge.value, r.events[|c.events|..])))
  }

  /** No announcement, latches untouched. */
  lemma QuietDelivers(c: Controller, r: Controller)
    requires r.events == c.events && (r.bridge.Some? <==> c.bridge.Some?)
    requires c.bridge.Some? ==> LatchesOf(r.bridge.value) == LatchesOf(c.bridge.value)
    ensures Delivered(c, r)
  {
    assert r.events[|c.events|..] == [];
  }

  lemma EmitDelivers(c: Controller, c': Controller, evs: seq<Event>)
    requires c'.events == c.events && c'.bridge == c.bridge
    ensures Delivered(c, Emit(c', evs))
  {
    assert Emit(c', evs).events[|c.events|..] == evs;
  }

  lemma {:induction false} DeliveredTrans(a: Controller, b: Controller, c: Controller)
    requires Delivered(a, b) && Delivered(b, c)
    ensures Delivered(a, c)
  {
    var first := b.events[|a.events|..];
    var second := c.events[|b.events|..];
    assert c.events[..|b.events|] == b.events;
    assert c.events == a.events + first + second;
    assert c.events[..|a.events|] == a.events;
    assert c.events[|a.events|..] == first + second;
    if a.bridge.Some? {
      NotifyAllAppend(a.bridge.value, first, second);
      NotifyAllDependsOnLatches(b.bridge.value, NotifyAll(a.bridge.value, first), second);
    }
  }

  lemma {:induction false} TransitionDelivers(c: Controller, from: StateKey, to: StateKey,
                                              data: StateBase.Payload, env: Env)
    requires WellFormed(c)
    ensures Delivered(c, Transition(c, from, to, data, env))
    decreases Rank(to), 2
  {
    OneStatePerKey(c.states);
    var exited := ExitHook(c, from, to);
    var announced := exited.(lifecycle := exited.lifecycle + [Entered(to, from, data)]);
    var entered := EntryHook(announced, to, from, data, env);
    var r := Transition(c, from, to, data, env);
    assert r == entered.(current := SlotOf(to), lifecycle := entered.lifecycle + [Activated(to)]);
    QuietDelivers(c, announced);
    EntryDelivers(announced, to, from, data, env);
    DeliveredTrans(c, announced, entered);
    QuietDelivers(entered, r);
    DeliveredTrans(c, entered, r);
  }

  lemma {:induction false} EntryDelivers(c: Controller, to: StateKey, from: StateKey,
                                         data: StateBase.Payload, env: Env)
    requires WellFormed(c)
    ensures Delivered(c, EntryHook(c, to, from, data, env))
    decreases Rank(to), 1
  {
    OneStatePerKey(c.states);
    var j := SlotOf(to);
    match c.states[j]
    case GroundedState(g) =>
      var f := StateGrounded.TransitionToState(GroundedFrame(c, g, c.motor.velocity));
      EmitDelivers(c, c.(states := c.states[j := GroundedState(f.g)], motor := f.motor.(velocity := f.velocity),
                         maxStableMoveSpeed := f.maxStableMoveSpeed), f.events);
    case UngroundedState(u) =>
      var f := StateUngrounded.TransitionToState(AirFrameOf(c, u, c.motor.velocity), data);
      EmitDelivers(c, c.(states := c.states[j := UngroundedState(f.u)], motor := f.motor.(velocity := f.velocity)),
                   f.events);
    case ClimbingState(rig) =>
      var entered := StateClimbing.TransitionToState(rig, c.motor, env.probe);
      var c1 := c.(states := c.states[j := ClimbingState(entered.rig)]);
      QuietDelivers(c, c1);
      if entered.ledge.Some? {
        StableDelivers(c1, entered.ledge.value, env);
        DeliveredTrans(c, c1, StableGroundReached(c1, entered.ledge.value, env));
      }
    case SwimmingState =>
      QuietDelivers(c, EntryHook(c, to, from, data, env));
  }

  lemma {:induction false} StableDelivers(c: Controller, point: Vec3, env: Env)
    requires WellFormed(c)
    ensures Delivered(c, StableGroundReached(c, point, env))
    decreases 1, 0
  {
    var placed := c.(motor := StateClimbing.PlaceOnLedge(c.motor, point));
    QuietDelivers(c, placed);
    TransitionDelivers(placed, Climbing, Grounded, None, env);
    DeliveredTrans(c, placed, StableGroundReached(c, point, env));
  }

  // ---------------------------------------------------------------- runs of callbacks

  /** The callbacks the controller receives, including the motor's own movement
      between them, which replaces the body wholesale. */
  datatype Callback =
    | InputReceived(input: Input)
    | Ticked
    | BeforeUpdate(env: Env)
    | GroundingProbed(env: Env)
    | RotationUpdate(env: Env, dt: real)
    | VelocityUpdate(env: Env, dt: real)
    | MovementHit(hitPoint: Vec3)
    | GroundHit(env: Env)
    | AfterUpdate(env: Env, dt: real)
    | RigFixedTick(env: Env)
    | MotorMoved(motor: Motor)
    | Destroyed

  /** The engine's time steps are never negative. */
  predicate Admissible(cb: Callback) {
    cb.VelocityUpdate? ==> cb.dt >= 0.0
  }

  function Step(c: Controller, cb: Callback): (r: Controller)
    requires WellFormed(c) && c.cfg.drag >= 0.0 && Admissible(cb)
    ensures WellFormed(r) && r.cfg == c.cfg
  {
    match cb
    case InputReceived(input) => ReceiveInput(c, input)
    case Ticked => Tick(c)
    case BeforeUpdate(env) => BeforeCharacterUpdate(c, env)
    case GroundingProbed(env) => PostGroundingUpdate(c, env)
    case RotationUpdate(env, dt) => UpdateRotation(c, env, dt)
    case VelocityUpdate(env, dt) =>
      StateBase.DragNeverSpeedsUp(Zero, c.cfg.drag, dt);
      UpdateVelocity(c, env, dt)
    case MovementHit(hitPoint) => OnMovementHit(c, hitPoint)
    case GroundHit(env) => OnGroundHit(c, env)
    case AfterUpdate(env, dt) => AfterCharacterUpdate(c, env, dt)
    case RigFixedTick(env) => RigFixedUpdate(c, env)
    case MotorMoved(motor) => c.(motor := motor)
    case Destroyed => OnDestroy(c)
  }

  function Run(c: Controller, cbs: seq<Callback>): (r: Controller)
    requires WellFormed(c) && c.cfg.drag >= 0.0
    requires forall i :: 0 <= i < |cbs| ==> Admissible(cbs[i])
    ensures WellFormed(r) && r.cfg == c.cfg
    decreases |cbs|
  {
    if |cbs| == 0 then c
    else Run(Step(c, cbs[0]), cbs[1..])
  }

  /** The active state is the last one activated, or the airborne state the
      controller starts in when nothing has been activated yet. */
  predicate ActiveMatchesLog(c: Controller)
    requires WellFormed(c)
  {
    if |c.lifecycle| == 0 then CurrentKey(c) == Ungrounded
    else c.lifecycle[|c.lifecycle| - 1] == Activated(CurrentKey(c))
  }

  lemma TransitionMatchesLog(c: Controller, from: StateKey, to: StateKey, data: StateBase.Payload, env: Env)
    requires WellFormed(c)
    ensures ActiveMatchesLog(Transition(c, from, to, data, env))
  {
  }

  lemma StableMatchesLog(c: Controller, point: Vec3, env: Env)
    requires WellFormed(c)
    ensures ActiveMatchesLog(StableGroundReached(c, point, env))
  {
    TransitionMatchesLog(c.(motor := StateClimbing.PlaceOnLedge(c.motor, point)), Climbing, Grounded, None, env);
  }

  /** A climbing tick, started by the motor or by the rig itself. */
  lemma BeforeKeeps(c: Controller, env: Env)
    requires WellFormed(c)
    ensures Delivered(c, BeforeCharacterUpdate(c, env))
    ensures ActiveMatchesLog(c) ==> ActiveMatchesLog(BeforeCharacterUpdate(c, env))
  {
    var r := BeforeCharacterUpdate(c, env);
    match c.states[c.current]
    case ClimbingState(rig) =>
      var ticked := StateClimbing.BeforeCharacterUpdate(rig, c.cfg, env.probe);
      var c1 := c.(movementCollision := NoCollision, states := c.states[c.current := ClimbingState(ticked.rig)]);
      QuietDelivers(c, c1);
      if ticked.ledge.Some? {
        StableDelivers(c1, ticked.ledge.value, env);
        DeliveredTrans(c, c1, r);
        StableMatchesLog(c1, ticked.ledge.value, env);
      }
    case _ => QuietDelivers(c, r);
  }

  lemma RigTickKeeps(c: Controller, env: Env)
    requires WellFormed(c)
    ensures Delivered(c, RigFixedUpdate(c, env))
    ensures ActiveMatchesLog(c) ==> ActiveMatchesLog(RigFixedUpdate(c, env))
  {
    var r := RigFixedUpdate(c, env);
    var i := SlotOf(Climbing);
    var g := FixedUpdate(c.states[i].rig, c.cfg, env.probe);
    var c1 := c.(states := c.states[i := ClimbingState(g.rig)]);
    QuietDelivers(c, c1);
    if g.ledge.Some? {
      StableDelivers(c1, g.ledge.value, env);
      DeliveredTrans(c, c1, r);
      StableMatchesLog(c1, g.ledge.value, env);
    }
  }

  lemma GroundingKeeps(c: Controller, env: Env)
    requires WellFormed(c)
    ensures Delivered(c, PostGroundingUpdate(c, env))
    ensures ActiveMatchesLog(c) ==> ActiveMatchesLog(PostGroundingUpdate(c, env))
  {
    var r := PostGroundingUpdate(c, env);
    if GroundingEdge(c.motor) == Landed && CurrentKey(c) == Ungrounded {
      TransitionDelivers(c, Ungrounded, Grounded, None, env);
      TransitionMatchesLog(c, Ungrounded, Grounded, None, env);
    } else if GroundingEdge(c.motor) == LeftGround && CurrentKey(c) == Grounded {
      var data := Some(StateGrounded.UngroundPayload(c.states[c.current].g));
      TransitionDelivers(c, Grounded, Ungrounded, data, env);
      TransitionMatchesLog(c, Grounded, Ungrounded, data, env);
    } else {
      QuietDelivers(c, r);
    }
  }

  lemma GroundHitKeeps(c: Controller, env: Env)
    requires WellFormed(c)
    ensures Delivered(c, OnGroundHit(c, env))
    ensures ActiveMatchesLog(c) ==> ActiveMatchesLog(OnGroundHit(c, env))
  {
    if CurrentKey(c) == Climbing {
      TransitionDelivers(c, Climbing, Grounded, None, env);
      TransitionMatchesLog(c, Climbing, Grounded, None, env);
    } else {
      QuietDelivers(c, OnGroundHit(c, env));
    }
  }

  /** One callback delivers its announcements to the bridge and keeps the active
      state in step with the lifecycle log. */
  lemma StepKeeps(c: Controller, cb: Callback)
    requires WellFormed(c) && c.cfg.drag >= 0.0 && Admissible(cb)
    ensures Delivered(c, Step(c, cb))
    ensures ActiveMatchesLog(c) ==> ActiveMatchesLog(Step(c, cb))
  {
    match cb
    case InputReceived(input) => QuietDelivers(c, ReceiveInput(c, input));
    case Ticked => QuietDelivers(c, Tick(c));
    case BeforeUpdate(env) => BeforeKeeps(c, env);
    case GroundingProbed(env) => GroundingKeeps(c, env);
    case RotationUpdate(env, dt) => QuietDelivers(c, UpdateRotation(c, env, dt));
    case VelocityUpdate(env, dt) => VelocityDelivers(c, env, dt);
    case MovementHit(hitPoint) => QuietDelivers(c, OnMovementHit(c, hitPoint));
    case GroundHit(env) => GroundHitKeeps(c, env);
    case AfterUpdate(env, dt) => AfterDelivers(c, env, dt);
    case RigFixedTick(env) => RigTickKeeps(c, env);
    case MotorMoved(motor) => QuietDelivers(c, c.(motor := motor));
    case Destroyed => QuietDelivers(c, OnDestroy(c));
  }

  lemma VelocityDelivers(c: Controller, env: Env, dt: real)
    requires WellFormed(c) && c.cfg.drag >= 0.0 && dt >= 0.0
    ensures StateBase.DragDefined(c.cfg.drag, dt)
    ensures Delivered(c, UpdateVelocity(c, env, dt))
  {
    StateBase.DragNeverSpeedsUp(Zero, c.cfg.drag, dt);
    var imp := ConsumeImpulse(c.motor.velocity, c.internalVelocityAdd);
    var c1 := c.(internalVelocityAdd := imp.pending);
    var v := imp.velocity;
    match c.states[c.current]
    case GroundedState(g) =>
      var f := StateGrounded.UpdateVelocity(GroundedFrame(c1, g, v), c.cfg, c.moveInput, dt, env.steer, env.overlaps);
      EmitDelivers(c, c1.(states := c1.states[c.current := GroundedState(f.g)], motor := f.motor.(velocity := f.velocity),
                          maxStableMoveSpeed := f.maxStableMoveSpeed), f.events);
    case UngroundedState(u) =>
      var f := StateUngrounded.UpdateVelocity(AirFrameOf(c1, u, v), c.cfg, c.maxStableMoveSpeed, c.moveInput, dt, env.sqrt);
      EmitDelivers(c, c1.(states := c1.states[c.current := UngroundedState(f.u)], motor := f.motor.(velocity := f.velocity)),
                   f.events);
    case _ => QuietDelivers(c, UpdateVelocity(c, env, dt));
  }

  lemma AfterDelivers(c: Controller, env: Env, dt: real)
    requires WellFormed(c)
    ensures Delivered(c, AfterCharacterUpdate(c, env, dt))
  {
    var local := InverseRotate(c.motor.rotation, c.motor.velocity);
    var c1 := c.(localVelocity := local);
    var c2 :=
      match c.states[c.current]
      case GroundedState(g) =>
        FromGrounded(c1, c.current,
          StateGrounded.AfterCharacterUpdate(GroundedFrame(c1, g, c.motor.velocity), c.cfg, local.z, dt))
      case ClimbingState(rig) =>
        c1.(states := c.states[c.current := ClimbingState(StateClimbing.AfterCharacterUpdate(rig, c.motor))])
      case _ => c1;
    match c.states[c.current]
    case GroundedState(g) =>
      var f := StateGrounded.AfterCharacterUpdate(GroundedFrame(c1, g, c.motor.velocity), c.cfg, local.z, dt);
      EmitDelivers(c, c1.(states := c1.states[c.current := GroundedState(f.g)], motor := f.motor.(velocity := f.velocity),
                          maxStableMoveSpeed := f.maxStableMoveSpeed), f.events);
    case _ => QuietDelivers(c, c2);
    var r := AfterCharacterUpdate(c, env, dt);
    QuietDelivers(c2, r);
    DeliveredTrans(c, c2, r);
  }

  /** Over any run of callbacks, announcements reach the bridge in order and the
      active state stays the last one activated. */
  lemma {:induction false} RunKeeps(c: Controller, cbs: seq<Callback>)
    requires WellFormed(c) && c.cfg.drag >= 0.0
    requires forall i :: 0 <= i < |cbs| ==> Admissible(cbs[i])
    ensures Delivered(c, Run(c, cbs))
    ensures ActiveMatchesLog(c) ==> ActiveMatchesLog(Run(c, cbs))
    decreases |cbs|
  {
    if |cbs| == 0 {
      QuietDelivers(c, c);
    } else {
      var next := Step(c, cbs[0]);
      StepKeeps(c, cbs[0]);
      assert forall i :: 0 <= i < |cbs[1..]| ==> cbs[1..][i] == cbs[i + 1];
      RunKeeps(next, cbs[1..]);
      DeliveredTrans(c, next, Run(c, cbs));
    }
  }

  /** From creation on, whatever the callbacks: the active state is the last one
      activated; the bridge's jump latch is set exactly when a jump was announced
      after the last landing (or, before any landing, when it started set),
      likewise the fall latch; and the land callback ran once per announced
      landing when subscribed. */
  lemma BridgeFollowsAnnouncements(cfg: Config, motor: Motor, rig: Rig, b0: Bridge, ignored: seq<nat>,
                                   cbs: seq<Callback>)
    requires cfg.drag >= 0.0
    requires forall i :: 0 <= i < |cbs| ==> Admissible(cbs[i])
    ensures var r := Run(Awake(cfg, motor, rig, Some(b0), ignored), cbs);
      ActiveMatchesLog(r)
      && r.bridge.Some?
      && (r.bridge.value.jumped <==> JumpFired in SinceLastLand(r.events) || (LandFired !in r.events && b0.jumped))
      && (r.bridge.value.fall <==> FallBeginFired in SinceLastLand(r.events) || (LandFired !in r.events && b0.fall))
      && r.bridge.value.landsSignalled ==
           b0.landsSignalled + (if b0.landHandler then CountEvent(r.events, LandFired) else 0)
  {
    var c := Awake(cfg, motor, rig, Some(b0), ignored);
    var r := Run(c, cbs);
    RunKeeps(c, cbs);
    assert r.events[|c.events|..] == r.events;
    NotifyAllLatches(b0, r.events);
  }
}

=== FILE: grounded.dfy ===
/** The grounded locomotion state: movement on stable ground and sliding on steep
    ground, the jump with its two grace periods, the sprint/walk toggles, the crouch
    tiers with their obstruction check, and the animation-facing locomotion label. */
module StateGrounded {
  import opened Vectors
  import opened KccTypes
  import opened MotorBody
  import opened StateBase

  /** A single-precision timer that starts at +Infinity; adding to Infinity stays Infinity. */
  datatype Timer = Infinite | Finite(seconds: real)

  function Advance(t: Timer, dt: real): (r: Timer)
    ensures r.Infinite? <==> t.Infinite?
    ensures t.Finite? ==> r.seconds - t.seconds == dt
  {
    match t
    case Infinite => Infinite
    case Finite(s) => Finite(s + dt)
  }

  /** `t > limit`, with Infinity above every limit. */
  predicate Exceeds(t: Timer, limit: real) {
    match t
    case Infinite => true
    case Finite(s) => s > limit
  }

  datatype GroundedData = GroundedData(
    locomotion: LocomotionType,
    moveType: MoveType,
    posture: Posture,
    jumpRequested: bool,
    jumpConsumed: bool,
    jumpedThisFrame: bool,
    timeSinceJumpRequested: Timer,
    timeSinceLastAbleToJump: real,
    sprintRequested: bool,
    walkRequested: bool,
    crouchRequested: bool,
    crouchMultiTapRequested: bool,
    crouchedHeight: real,
    proneHeight: real)

  /** Sprinting is only ever entered while upright and posture changes are refused
      while sprinting; nothing ever raises the multi-tap crouch latch. */
  predicate Inv(g: GroundedData) {
    (g.moveType == Sprinting ==> g.posture == Upright) && !g.crouchMultiTapRequested
  }

  /** The state as constructed: the two lowered capsule heights are fixed from the
      configuration, locomotion starts as Run and the jump timer at Infinity. */
  function Create(cfg: Config): (g: GroundedData)
    ensures Inv(g)
    ensures g.crouchedHeight == cfg.standingCapsuleHeight * cfg.crouchedCapsuleHeightMultiplier
    ensures g.proneHeight == cfg.standingCapsuleHeight * cfg.proneCapsuleHeightMultiplier
    ensures g.moveType == Default && g.posture == Upright && g.locomotion == Run
    ensures !g.jumpRequested && !g.jumpConsumed && g.timeSinceJumpRequested == Infinite
  {
    GroundedData(
      Run, Default, Upright,
      false, false, false, Infinite, 0.0,
      false, false, false, false,
      cfg.standingCapsuleHeight * cfg.crouchedCapsuleHeightMultiplier,
      cfg.standingCapsuleHeight * cfg.proneCapsuleHeightMultiplier)
  }

  /** Everything a grounded callback may touch: its own data, the motor, the
      velocity being computed, the controller's stable speed cap, and the events
      sent to the animation provider so far. */
  datatype Frame = Frame(
    g: GroundedData,
    motor: Motor,
    velocity: Vec3,
    maxStableMoveSpeed: real,
    events: seq<Event>)

  // ---------------------------------------------------------------- input

  /** Records the started action of highest priority (jump, then sprint, walk,
      crouch) as a pending request; a jump also restarts the request timer. */
  function ForwardInputValues(g: GroundedData, input: Input): (r: GroundedData)
    ensures r.jumpRequested == (g.jumpRequested || input.jumpStarted)
    ensures r.sprintRequested == (g.sprintRequested || (!input.jumpStarted && input.sprintStarted))
    ensures r.walkRequested ==
      (g.walkRequested || (!input.jumpStarted && !input.sprintStarted && input.walkStarted))
    ensures r.crouchRequested ==
      (g.crouchRequested || (!input.jumpStarted && !input.sprintStarted && !input.walkStarted && input.crouchStarted))
    ensures input.jumpStarted ==> r.timeSinceJumpRequested == Finite(0.0)
    ensures !input.jumpStarted ==> r.timeSinceJumpRequested == g.timeSinceJumpRequested
    ensures r == g.(jumpRequested := r.jumpRequested, sprintRequested := r.sprintRequested,
                    walkRequested := r.walkRequested, crouchRequested := r.crouchRequested,
                    timeSinceJumpRequested := r.timeSinceJumpRequested)
  {
    if input.jumpStarted then g.(timeSinceJumpRequested := Finite(0.0), jumpRequested := true)
    else if input.sprintStarted then g.(sprintRequested := true)
    else if input.walkStarted then g.(walkRequested := true)
    else if input.crouchStarted then g.(crouchRequested := true)
    else g
  }

  function B2N(b: bool): nat {
    if b then 1 else 0
  }

  /** How many of the four request latches were clear in `g` and are set in `r`. */
  function RaisedLatches(g: GroundedData, r: GroundedData): nat {
    B2N(!g.jumpRequested && r.jumpRequested) + B2N(!g.sprintRequested && r.sprintRequested)
    + B2N(!g.walkRequested && r.walkRequested) + B2N(!g.crouchRequested && r.crouchRequested)
  }

  /** One input raises at most one latch, and never lowers one. */
  lemma ForwardRaisesAtMostOneLatch(g: GroundedData, input: Input)
    ensures RaisedLatches(g, ForwardInputValues(g, input)) <= 1
    ensures var r := ForwardInputValues(g, input);
      (g.jumpRequested ==> r.jumpRequested) && (g.sprintRequested ==> r.sprintRequested)
      && (g.walkRequested ==> r.walkRequested) && (g.crouchRequested ==> r.crouchRequested)
  {
  }

  // ---------------------------------------------------------------- speed cap

  /** The stable-ground speed cap of a move type. */
  function MaxStableMoveSpeed(cfg: Config, t: MoveType): (speed: real)
    ensures speed == cfg.walkSpeed || speed == cfg.runSpeed || speed == cfg.sprintSpeed
    ensures SpeedTiersOrdered(cfg) ==> cfg.walkSpeed <= speed <= cfg.sprintSpeed
  {
    match t
    case Walking => cfg.walkSpeed
    case Default => cfg.runSpeed
    case Sprinting => cfg.sprintSpeed
  }

  /** With ordered tiers, walking caps below the default run and the default run
      below sprinting. */
  lemma MoveTypeSpeedsOrdered(cfg: Config)
    requires SpeedTiersOrdered(cfg)
    ensures MaxStableMoveSpeed(cfg, Walking) < MaxStableMoveSpeed(cfg, Default)
    ensures MaxStableMoveSpeed(cfg, Default) < MaxStableMoveSpeed(cfg, Sprinting)
  {
  }

  // ---------------------------------------------------------------- jump

  predicate CanJump(g: GroundedData, cfg: Config) {
    g.jumpRequested && !g.jumpConsumed && g.timeSinceLastAbleToJump <= cfg.jumpPostGroundingGraceTime
  }

  /** Up, or the ground normal when sliding. */
  function JumpDirection(s: GroundingStatus, up: Vec3): (dir: Vec3)
    ensures Sliding(s) ==> dir == s.groundNormal
    ensures !Sliding(s) ==> dir == up
  {
    if s.foundAnyGround && !s.isStableOnGround then s.groundNormal else up
  }

  /** Replaces the velocity's component along the character's up axis by the jump
      impulse, adds the forward share of the move input, forces the motor off the
      ground and marks the request as spent. */
  function DoJump(f: Frame, cfg: Config, move: Vec3): (r: Frame)
    ensures var up := CharacterUp(f.motor);
      Dot(up, up) != 0.0 ==>
        Dot(r.velocity, up) ==
          cfg.jumpUpSpeed * Dot(JumpDirection(f.motor.grounding, up), up)
          + cfg.jumpScalableForwardSpeed * Dot(move, up)
    ensures var up := CharacterUp(f.motor);
      ProjectOnPlane(r.velocity, up)
        == ProjectOnPlane(Add(Add(f.velocity, Scale(JumpDirection(f.motor.grounding, up), cfg.jumpUpSpeed)),
                              Scale(move, cfg.jumpScalableForwardSpeed)), up)
    ensures !r.g.jumpRequested && r.g.jumpConsumed && r.g.jumpedThisFrame
    ensures r.motor == f.motor.(mustUnground := true)
    ensures r.events == f.events + [JumpFired]
    ensures r.g == f.g.(jumpRequested := false, jumpConsumed := true, jumpedThisFrame := true)
    ensures r.maxStableMoveSpeed == f.maxStableMoveSpeed
  {
    var up := CharacterUp(f.motor);
    var dir := JumpDirection(f.motor.grounding, up);
    var v := f.velocity;
    var p := Project(v, up);
    var v1 := Add(v, Sub(Scale(dir, cfg.jumpUpSpeed), p));
    var v2 := Add(v1, Scale(move, cfg.jumpScalableForwardSpeed));
    JumpUpComponent(v, p, dir, move, up, cfg.jumpUpSpeed, cfg.jumpScalableForwardSpeed);
    JumpPlanarComponent(v, p, dir, move, up, cfg.jumpUpSpeed, cfg.jumpScalableForwardSpeed);
    Frame(
      f.g.(jumpRequested := false, jumpConsumed := true, jumpedThisFrame := true),
      f.motor.(mustUnground := true),
      v2,
      f.maxStableMoveSpeed,
      f.events + [JumpFired])
  }

  lemma JumpUpComponent(v: Vec3, p: Vec3, dir: Vec3, move: Vec3, up: Vec3, j: real, k: real)
    requires p == Project(v, up)
    ensures Dot(up, up) != 0.0 ==>
      Dot(Add(Add(v, Sub(Scale(dir, j), p)), Scale(move, k)), up) == j * Dot(dir, up) + k * Dot(move, up)
  {
    if Dot(up, up) != 0.0 {
      assert Dot(Sub(v, p), up) == 0.0;
      DotSubLeft(v, p, up);
      DotAddLeft(Add(v, Sub(Scale(dir, j), p)), Scale(move, k), up);
      DotAddLeft(v, Sub(Scale(dir, j), p), up);
      DotSubLeft(Scale(dir, j), p, up);
      DotScaleLeft(dir, j, up);
      DotScaleLeft(move, k, up);
    }
  }

  /** Taking out the velocity's component along up leaves its planar part alone:
      in that plane the jump only adds the impulse and the move share. */
  lemma JumpPlanarComponent(v: Vec3, p: Vec3, dir: Vec3, move: Vec3, up: Vec3, j: real, k: real)
    requires p == Project(v, up)
    ensures ProjectOnPlane(Add(Add(v, Sub(Scale(dir, j), p)), Scale(move, k)), up)
      == ProjectOnPlane(Add(Add(v, Scale(dir, j)), Scale(move, k)), up)
  {
    var t := if Dot(up, up) == 0.0 then 0.0 else Dot(v, up) / Dot(up, up);
    assert p == Scale(up, t);
    var w := Add(Add(v, Scale(dir, j)), Scale(move, k));
    assert Add(Add(v, Sub(Scale(dir, j), p)), Scale(move, k)) == Sub(w, Scale(up, t));
    ProjectOnPlaneShift(w, up, t);
  }

  /** Clears the this-frame flag, advances the request timer, and jumps when a
      request is pending, unspent, and ground was within the post-grounding grace. */
  function TryJump(f: Frame, cfg: Config, move: Vec3, dt: real): (r: Frame)
    ensures r.g.jumpedThisFrame <==> CanJump(f.g, cfg)
    ensures r.g.timeSinceJumpRequested == Advance(f.g.timeSinceJumpRequested, dt)
    ensures CanJump(f.g, cfg) ==>
      !r.g.jumpRequested && r.g.jumpConsumed && r.motor.mustUnground && r.events == f.events + [JumpFired]
    ensures !CanJump(f.g, cfg) ==>
      r == f.(g := f.g.(jumpedThisFrame := false, timeSinceJumpRequested := r.g.timeSinceJumpRequested))
    ensures r.g == f.g.(jumpRequested := r.g.jumpRequested, jumpConsumed := r.g.jumpConsumed,
                        jumpedThisFrame := r.g.jumpedThisFrame,
                        timeSinceJumpRequested := r.g.timeSinceJumpRequested)
    ensures r.motor.capsule == f.motor.capsule && r.maxStableMoveSpeed == f.maxStableMoveSpeed
  {
    var f1 := f.(g := f.g.(jumpedThisFrame := false,
                           timeSinceJumpRequested := Advance(f.g.timeSinceJumpRequested, dt)));
    if f1.g.jumpRequested && !f1.g.jumpConsumed
       && f1.g.timeSinceLastAbleToJump <= cfg.jumpPostGroundingGraceTime
    then DoJump(f1, cfg, move)
    else f1
  }

  /** Ground counts for jumping when found at all if sliding jumps are allowed, and
      only when stable otherwise. */
  predicate AbleToJump(cfg: Config, s: GroundingStatus) {
    if cfg.allowJumpingWhenSliding then s.foundAnyGround else s.isStableOnGround
  }

  /** End-of-update bookkeeping: a request older than the pre-grounding grace is
      dropped (without advancing its timer), otherwise the timer advances; on
      jumpable ground the jump is re-armed unless it fired this frame. */
  function ProcessJump(f: Frame, cfg: Config, dt: real): (r: Frame)
    ensures f.g.jumpRequested && Exceeds(f.g.timeSinceJumpRequested, cfg.jumpPreGroundingGraceTime) ==>
      !r.g.jumpRequested && r.g.timeSinceJumpRequested == f.g.timeSinceJumpRequested
    ensures !(f.g.jumpRequested && Exceeds(f.g.timeSinceJumpRequested, cfg.jumpPreGroundingGraceTime)) ==>
      r.g.jumpRequested == f.g.jumpRequested
      && r.g.timeSinceJumpRequested == Advance(f.g.timeSinceJumpRequested, dt)
    ensures AbleToJump(cfg, f.motor.grounding) ==>
      r.g.timeSinceLastAbleToJump == 0.0
      && (r.g.jumpConsumed <==> f.g.jumpConsumed && f.g.jumpedThisFrame)
    ensures !AbleToJump(cfg, f.motor.grounding) ==>
      r.g.timeSinceLastAbleToJump == f.g.timeSinceLastAbleToJump + dt
      && r.g.jumpConsumed == f.g.jumpConsumed
    ensures r == f.(g := r.g)
    ensures r.g == f.g.(jumpRequested := r.g.jumpRequested, jumpConsumed := r.g.jumpConsumed,
                        timeSinceJumpRequested := r.g.timeSinceJumpRequested,
                        timeSinceLastAbleToJump := r.g.timeSinceLastAbleToJump)
  {
    var expired := f.g.jumpRequested && Exceeds(f.g.timeSinceJumpRequested, cfg.jumpPreGroundingGraceTime);
    var able := AbleToJump(cfg, f.motor.grounding);
    var g := f.g;
    var g1 :=
      if expired then g.(jumpRequested := false)
      else g.(timeSinceJumpRequested := Advance(g.timeSinceJumpRequested, dt));
    var g2 :=
      if able then
        g1.(jumpConsumed := if !g1.jumpedThisFrame then false else g1.jumpConsumed,
            timeSinceLastAbleToJump := 0.0)
      else
        g1.(timeSinceLastAbleToJump := g1.timeSinceLastAbleToJump + dt);
    f.(g := g2)
  }

  /** Standing on jumpable ground without having jumped this frame leaves a later
      request free to fire, whatever happened before. */
  lemma LandingRearmsJump(f: Frame, cfg: Config, dt: real, input: Input)
    requires AbleToJump(cfg, f.motor.grounding) && !f.g.jumpedThisFrame
    requires cfg.jumpPostGroundingGraceTime >= 0.0
    requires input.jumpStarted
    ensures CanJump(ForwardInputValues(ProcessJump(f, cfg, dt).g, input), cfg)
  {
  }

  // ---------------------------------------------------------------- sprint and walk

  /** Asking for the current move type toggles back to the default; asking for
      another one switches to it only while upright; each change is announced. */
  function SetRunState(f: Frame, state: MoveType): (r: Frame)
    ensures f.g.moveType == state ==>
      r.g.moveType == Default && r.events == f.events + [MoveTypeChanged(state, Default)]
    ensures f.g.moveType != state && f.g.posture == Upright ==>
      r.g.moveType == state && r.events == f.events + [MoveTypeChanged(f.g.moveType, state)]
    ensures f.g.moveType != state && f.g.posture != Upright ==> r == f
    ensures r == f.(g := f.g.(moveType := r.g.moveType), events := r.events)
  {
    if f.g.moveType == state then
      f.(g := f.g.(moveType := Default), events := f.events + [MoveTypeChanged(f.g.moveType, Default)])
    else if f.g.posture == Upright then
      f.(g := f.g.(moveType := state), events := f.events + [MoveTypeChanged(f.g.moveType, state)])
    else
      f
  }

  /** The move type a toggle request leads to: asking for the current type goes
      back to the default, asking for another is granted only while upright. */
  function RunToggle(current: MoveType, requested: MoveType, p: Posture): MoveType {
    if current == requested then Default else if p == Upright then requested else current
  }

  /** The move type after the pending sprint and then the pending walk request
      have been served. */
  function RequestedMoveType(g: GroundedData): MoveType {
    var afterSprint := if g.sprintRequested then RunToggle(g.moveType, Sprinting, g.posture) else g.moveType;
    if g.walkRequested then RunToggle(afterSprint, Walking, g.posture) else afterSprint
  }

  /** Sprinting twice from the upright default returns to the default. */
  lemma SprintToggleReturns(f: Frame)
    requires f.g.moveType == Default && f.g.posture == Upright
    ensures SetRunState(f, Sprinting).g.moveType == Sprinting
    ensures SetRunState(SetRunState(f, Sprinting), Sprinting).g.moveType == Default
    ensures SetRunState(SetRunState(f, Sprinting), Sprinting).g == f.g
  {
  }

  function TrySprint(f: Frame): (r: Frame)
    ensures !r.g.sprintRequested
    ensures !f.g.sprintRequested ==> r == f
    ensures f.g.sprintRequested ==> r == SetRunState(f, Sprinting).(g := SetRunState(f, Sprinting).g.(sprintRequested := false))
  {
    if f.g.sprintRequested then
      var f1 := SetRunState(f, Sprinting);
      f1.(g := f1.g.(sprintRequested := false))
    else f
  }

  function TryWalk(f: Frame): (r: Frame)
    ensures !r.g.walkRequested
    ensures !f.g.walkRequested ==> r == f
    ensures f.g.walkRequested ==> r == SetRunState(f, Walking).(g := SetRunState(f, Walking).g.(walkRequested := false))
  {
    if f.g.walkRequested then
      var f1 := SetRunState(f, Walking);
      f1.(g := f1.g.(walkRequested := false))
    else f
  }

  // ---------------------------------------------------------------- crouch

  /** The posture a crouch press aims for: a single tap moves one tier towards
      crouched (upright and prone both go to crouched, crouched goes back up); a
      multi-tap jumps between the extremes. */
  function ToggleTarget(p: Posture, multiTap: bool): (t: Posture)
    ensures t != p
    ensures !multiTap ==> (t == Crouched <==> p != Crouched)
    ensures multiTap ==> (t == Prone <==> p != Prone)
    ensures !multiTap && p == Crouched ==> t == Upright
    ensures multiTap && p == Prone ==> t == Upright
  {
    match p
    case Upright => if multiTap then Prone else Crouched
    case Crouched => if multiTap then Prone else Upright
    case Prone => if multiTap then Upright else Crouched
  }

  /** Two single taps from upright or crouched come back to where they started. */
  lemma SingleTapTwiceReturns(p: Posture)
    requires p != Prone
    ensures ToggleTarget(ToggleTarget(p, false), false) == p
  {
  }

  /** The capsule height of a posture tier. */
  function TierHeight(cfg: Config, g: GroundedData, p: Posture): real {
    match p
    case Upright => cfg.standingCapsuleHeight
    case Crouched => g.crouchedHeight
    case Prone => g.proneHeight
  }

  /** The capsule of a tier: the fixed radius, the tier height and a centre at half of it. */
  function TierCapsule(cfg: Config, g: GroundedData, p: Posture): Capsule {
    var h := TierHeight(cfg, g, p);
    Capsule(CapsuleRadius, h, h * 0.5)
  }

  /** A posture change goes through when not sprinting and either it lowers the
      character or the target tier's capsule fits where the character stands. */
  predicate CrouchAllowed(f: Frame, cfg: Config, target: Posture, overlaps: Capsule -> bool) {
    f.g.moveType != Sprinting
    && (PostureRank(target) > PostureRank(f.g.posture) || !overlaps(TierCapsule(cfg, f.g, target)))
  }

  /** Switches to `target` if allowed: lowering resizes the capsule unconditionally,
      raising resizes it only after the overlap check, which restores the previous
      dimensions on failure. */
  function TrySetCrouchState(f: Frame, cfg: Config, target: Posture, overlaps: Capsule -> bool): (r: Frame)
    ensures CrouchAllowed(f, cfg, target, overlaps) ==>
      r == f.(g := f.g.(posture := target),
              motor := f.motor.(capsule := TierCapsule(cfg, f.g, target)),
              events := f.events + [PostureChanged(f.g.posture, target)])
    ensures !CrouchAllowed(f, cfg, target, overlaps) ==>
      r.g == f.g && r.events == f.events && r.velocity == f.velocity
      && r.motor == f.motor.(capsule := r.motor.capsule)
      && r.motor.capsule.height == f.motor.capsule.height
      && r.motor.capsule.yOffset == f.motor.capsule.yOffset
    ensures f.g.moveType == Sprinting ==> r == f
  {
    if f.g.moveType == Sprinting then f
    else if PostureRank(target) > PostureRank(f.g.posture) then
      ResolveNewCrouchState(f.(motor := f.motor.(capsule := TierCapsule(cfg, f.g, target))), target)
    else
      var h := TierHeight(cfg, f.g, target);
      var res := TryApplyNewMotorCapsuleDimensions(f.motor.capsule, h, h * 0.5, overlaps);
      var f1 := f.(motor := f.motor.(capsule := res.capsule));
      if res.applied then ResolveNewCrouchState(f1, target) else f1
  }

  function ResolveNewCrouchState(f: Frame, target: Posture): Frame {
    f.(g := f.g.(posture := target), events := f.events + [PostureChanged(f.g.posture, target)])
  }

  /** The motor's capsule is the one of the current posture tier. */
  predicate CapsuleMatchesPosture(f: Frame, cfg: Config) {
    f.motor.capsule == TierCapsule(cfg, f.g, f.g.posture)
  }

  /** Once the capsule matches the posture, a posture attempt keeps it matching,
      whether it succeeds or is rolled back. */
  lemma CrouchKeepsCapsuleMatched(f: Frame, cfg: Config, target: Posture, overlaps: Capsule -> bool)
    requires CapsuleMatchesPosture(f, cfg)
    ensures CapsuleMatchesPosture(TrySetCrouchState(f, cfg, target, overlaps), cfg)
  {
    if !CrouchAllowed(f, cfg, target, overlaps) && f.g.moveType != Sprinting {
      var h := TierHeight(cfg, f.g, target);
      RollbackRestoresCapsule(f.motor.capsule, h, h * 0.5, overlaps);
    }
  }

  function DoCrouch(f: Frame, cfg: Config, multiTap: bool, overlaps: Capsule -> bool): (r: Frame)
    ensures !r.g.crouchRequested && !r.g.crouchMultiTapRequested
  {
    var f1 := TrySetCrouchState(f, cfg, ToggleTarget(f.g.posture, multiTap), overlaps);
    f1.(g := f1.g.(crouchRequested := false, crouchMultiTapRequested := false))
  }

  /** The posture after a pending crouch request has been served while moving at
      `moveType`: the tap's toggle target when the change is allowed, the current
      posture otherwise. */
  function RequestedPosture(g: GroundedData, cfg: Config, moveType: MoveType, overlaps: Capsule -> bool): Posture {
    var t := ToggleTarget(g.posture, g.crouchMultiTapRequested);
    if (g.crouchRequested || g.crouchMultiTapRequested) && moveType != Sprinting
       && (PostureRank(t) > PostureRank(g.posture) || !overlaps(TierCapsule(cfg, g, t)))
    then t else g.posture
  }

  /** Serves a pending multi-tap, else a pending single tap; both latches end clear
      and the posture ends either unchanged or at the tap's toggle target. */
  function TryCrouch(f: Frame, cfg: Config, overlaps: Capsule -> bool): (r: Frame)
    ensures !r.g.crouchRequested && !r.g.crouchMultiTapRequested
    ensures r.g.posture == RequestedPosture(f.g, cfg, f.g.moveType, overlaps)
    ensures r.g.posture != f.g.posture ==>
      r.events == f.events + [PostureChanged(f.g.posture, r.g.posture)]
      && r.motor.capsule == TierCapsule(cfg, f.g, r.g.posture)
    ensures r.g.posture == f.g.posture ==> r.events == f.events
    ensures !f.g.crouchRequested && !f.g.crouchMultiTapRequested ==> r == f
    ensures r.g.posture == f.g.posture
      || r.g.posture == ToggleTarget(f.g.posture, f.g.crouchMultiTapRequested)
    ensures r.g == f.g.(posture := r.g.posture, crouchRequested := false, crouchMultiTapRequested := false)
    ensures r.velocity == f.velocity && r.maxStableMoveSpeed == f.maxStableMoveSpeed
    ensures r.motor == f.motor.(capsule := r.motor.capsule)
  {
    if f.g.crouchMultiTapRequested then DoCrouch(f, cfg, true, overlaps)
    else if f.g.crouchRequested then DoCrouch(f, cfg, false, overlaps)
    else f
  }

  // ---------------------------------------------------------------- locomotion label

  /** The locomotion label for this update: sliding wins, then the lowered
      postures, then upright speed bands on the local forward speed. The bands
      are tested in order (idle, walk, run, sprint), so with unordered speed tiers
      that order decides the label; UprightSpeedBands describes ordered tiers. */
  function Classify(cfg: Config, s: GroundingStatus, p: Posture, forwardSpeed: real): (t: LocomotionType)
    ensures Sliding(s) ==> t == SlideUnstable
    ensures !Sliding(s) && p == Crouched ==> t == CrouchWalk
    ensures !Sliding(s) && p == Prone ==> t == ProneCrawl
    ensures (t in {Idle, Walk, Run, Sprint}) <==> !Sliding(s) && p == Upright
  {
    if s.foundAnyGround && !s.isStableOnGround then SlideUnstable
    else match p
      case Crouched => CrouchWalk
      case Prone => ProneCrawl
      case Upright =>
        if forwardSpeed <= 0.1 then Idle
        else if forwardSpeed <= cfg.walkSpeed then Walk
        else if forwardSpeed <= cfg.runSpeed then Run
        else if forwardSpeed <= cfg.sprintSpeed + 1.0 then Sprint
        else Idle
  }

  /** Upright on non-sliding ground, with ordered tiers above the idle threshold,
      each label owns exactly one band of forward speed; anything faster than one
      unit above sprint speed falls back to Idle. */
  lemma UprightSpeedBands(cfg: Config, s: GroundingStatus, z: real)
    requires !Sliding(s) && SpeedTiersOrdered(cfg) && 0.1 < cfg.walkSpeed
    ensures Classify(cfg, s, Upright, z) == Walk <==> 0.1 < z <= cfg.walkSpeed
    ensures Classify(cfg, s, Upright, z) == Run <==> cfg.walkSpeed < z <= cfg.runSpeed
    ensures Classify(cfg, s, Upright, z) == Sprint <==> cfg.runSpeed < z <= cfg.sprintSpeed + 1.0
    ensures Classify(cfg, s, Upright, z) == Idle <==> z <= 0.1 || cfg.sprintSpeed + 1.0 < z
  {
  }

  /** The shipped configuration's bands: upright forward speed is idle up to 0.1,
      walk up to 2.5, run up to 6 and sprint up to 11, and idle again beyond; the
      move types cap stable speed at 2.5, 6 and 10. */
  lemma DefaultConfigBands(s: GroundingStatus, z: real)
    requires !Sliding(s)
    ensures Classify(DefaultConfig, s, Upright, z) == Walk <==> 0.1 < z <= 2.5
    ensures Classify(DefaultConfig, s, Upright, z) == Run <==> 2.5 < z <= 6.0
    ensures Classify(DefaultConfig, s, Upright, z) == Sprint <==> 6.0 < z <= 11.0
    ensures Classify(DefaultConfig, s, Upright, z) == Idle <==> z <= 0.1 || 11.0 < z
    ensures MaxStableMoveSpeed(DefaultConfig, Walking) == 2.5
    ensures MaxStableMoveSpeed(DefaultConfig, Default) == 6.0
    ensures MaxStableMoveSpeed(DefaultConfig, Sprinting) == 10.0
  {
    DefaultSpeedTiersOrdered();
    UprightSpeedBands(DefaultConfig, s, z);
    MoveTypeSpeedsOrdered(DefaultConfig);
  }

  /** Stores the new label and announces it only when it differs from the stored one. */
  function ProcessLocomotionState(f: Frame, cfg: Config, forwardSpeed: real): (r: Frame)
    ensures r.g.locomotion == Classify(cfg, f.motor.grounding, f.g.posture, forwardSpeed)
    ensures r.g.locomotion == f.g.locomotion ==> r == f
    ensures r.g.locomotion != f.g.locomotion ==>
      r.events == f.events + [LocomotionChanged(f.g.locomotion, r.g.locomotion)]
    ensures r == f.(g := f.g.(locomotion := r.g.locomotion), events := r.events)
  {
    var t := Classify(cfg, f.motor.grounding, f.g.posture, forwardSpeed);
    if t != f.g.locomotion then
      f.(g := f.g.(locomotion := t), events := f.events + [LocomotionChanged(f.g.locomotion, t)])
    else f
  }

  /** Classifying again under the same conditions changes nothing and announces nothing. */
  lemma LocomotionSettles(f: Frame, cfg: Config, z: real)
    ensures var r := ProcessLocomotionState(f, cfg, z);
      ProcessLocomotionState(r, cfg, z) == r
  {
  }

  // ---------------------------------------------------------------- velocity

  /** Steep ground: air-control acceleration is allowed only when it does not
      oppose the resulting velocity, and its part pushing into the slope is removed;
      sliding jumps are attempted only if the configuration allows them. */
  function UpdateGroundUnstable(f: Frame, cfg: Config, move: Vec3, dt: real): (r: Frame)
    ensures var added := Scale(move, cfg.airAccelerationSpeed * dt);
      Dot(Add(f.velocity, added), added) <= 0.0 ==> r == f
    ensures !cfg.allowJumpingWhenSliding ==>
      r == f.(velocity := r.velocity)
      && var n := ObstructionNormal(CharacterUp(f.motor), f.motor.grounding.groundNormal);
         Dot(n, n) != 0.0 ==> Dot(Sub(r.velocity, f.velocity), n) == 0.0
    ensures r.g == f.g.(jumpRequested := r.g.jumpRequested, jumpConsumed := r.g.jumpConsumed,
                        jumpedThisFrame := r.g.jumpedThisFrame,
                        timeSinceJumpRequested := r.g.timeSinceJumpRequested)
    ensures r.motor.capsule == f.motor.capsule && r.maxStableMoveSpeed == f.maxStableMoveSpeed
  {
    var added := Scale(move, cfg.airAccelerationSpeed * dt);
    if Dot(Add(f.velocity, added), added) > 0.0 then
      var n := ObstructionNormal(CharacterUp(f.motor), f.motor.grounding.groundNormal);
      var a := ProjectOnPlane(added, n);
      var f1 := f.(velocity := Add(f.velocity, a));
      assert Sub(Add(f.velocity, a), f.velocity) == a;
      if cfg.allowJumpingWhenSliding then TryJump(f1, cfg, move, dt) else f1
    else f
  }

  /** Stable ground: the motor-supplied `steer` turns the velocity towards the
      input at the move type's speed cap (which is also published to the
      controller), then jump, sprint, walk and crouch requests are served in turn. */
  function UpdateGroundStable(f: Frame, cfg: Config, move: Vec3, dt: real,
                              steer: (Vec3, Vec3, real) -> Vec3, overlaps: Capsule -> bool): (r: Frame)
    ensures r.maxStableMoveSpeed == MaxStableMoveSpeed(cfg, f.g.moveType)
    ensures !r.g.sprintRequested && !r.g.walkRequested
    ensures !r.g.crouchRequested && !r.g.crouchMultiTapRequested
    ensures r.g.jumpedThisFrame <==> CanJump(f.g, cfg)
    ensures r.g.moveType == RequestedMoveType(f.g)
    ensures r.g.posture == RequestedPosture(f.g, cfg, RequestedMoveType(f.g), overlaps)
    ensures JumpApplied(f, cfg, move, steer(f.velocity, move, MaxStableMoveSpeed(cfg, f.g.moveType)), r)
  {
    var speed := MaxStableMoveSpeed(cfg, f.g.moveType);
    var f1 := f.(velocity := steer(f.velocity, move, speed), maxStableMoveSpeed := speed);
    var f2 := TryJump(f1, cfg, move, dt);
    JumpKeepsRequests(f1, cfg, move, dt, RequestedMoveType(f.g), overlaps);
    RequestsServedInOrder(f2, cfg, overlaps);
    ServingKeepsJump(f2, cfg, overlaps);
    JumpAttemptApplied(f, cfg, move, dt, f1.velocity, speed);
    var r := TryCrouch(TryWalk(TrySprint(f2)), cfg, overlaps);
    ExtendsWithoutJumpKeepsJump(f, cfg, move, f1.velocity, f2, r);
    r
  }

  /** What the jump attempt on stable ground leaves in the frame, given the steered
      velocity `v`. Without a jump the velocity is `v` and the motor at most
      resized. With one, the velocity is the jump's result on `v` and the motor is
      forced off the ground. Either way the earlier announcements stay in front and
      exactly the jump's own JumpFired is added. */
  predicate JumpApplied(f: Frame, cfg: Config, move: Vec3, v: Vec3, r: Frame) {
    |r.events| >= |f.events| && r.events[..|f.events|] == f.events
    && CountEvent(r.events, JumpFired) == CountEvent(f.events, JumpFired) + (if CanJump(f.g, cfg) then 1 else 0)
    && (!CanJump(f.g, cfg) ==> r.velocity == v && r.motor == f.motor.(capsule := r.motor.capsule))
    && (CanJump(f.g, cfg) ==>
          r.velocity == DoJump(f.(velocity := v), cfg, move).velocity
          && r.motor == f.motor.(mustUnground := true, capsule := r.motor.capsule)
          && |r.events| > |f.events| && r.events[|f.events|] == JumpFired)
  }

  /** `b` is `a` followed by announcements none of which is a jump. */
  predicate ExtendsWithoutJump(a: seq<Event>, b: seq<Event>) {
    |b| >= |a| && b[..|a|] == a && CountEvent(b, JumpFired) == CountEvent(a, JumpFired)
  }

  lemma ExtendsWithoutJumpByOne(a: seq<Event>, x: Event)
    requires x != JumpFired
    ensures ExtendsWithoutJump(a, a + [x])
  {
    CountEventSnoc(a, x, JumpFired);
    assert (a + [x])[..|a|] == a;
  }

  lemma ExtendsWithoutJumpTrans(a: seq<Event>, b: seq<Event>, c: seq<Event>)
    requires ExtendsWithoutJump(a, b) && ExtendsWithoutJump(b, c)
    ensures ExtendsWithoutJump(a, c)
  {
    assert c[..|a|] == c[..|b|][..|a|];
  }

  /** The jump attempt on the steered frame does what JumpApplied says. */
  lemma JumpAttemptApplied(f: Frame, cfg: Config, move: Vec3, dt: real, v: Vec3, speed: real)
    ensures JumpApplied(f, cfg, move, v, TryJump(f.(velocity := v, maxStableMoveSpeed := speed), cfg, move, dt))
  {
    var f1 := f.(velocity := v, maxStableMoveSpeed := speed);
    var f2 := TryJump(f1, cfg, move, dt);
    assert f1.g == f.g && f1.motor == f.motor && f1.events == f.events;
    if CanJump(f.g, cfg) {
      var f1' := f1.(g := f1.g.(jumpedThisFrame := false,
                                timeSinceJumpRequested := Advance(f1.g.timeSinceJumpRequested, dt)));
      assert f2 == DoJump(f1', cfg, move);
      assert f2.velocity == DoJump(f.(velocity := v), cfg, move).velocity;
      CountEventSnoc(f.events, JumpFired, JumpFired);
      assert f2.events[..|f.events|] == f.events;
    } else {
      assert f2.events == f.events;
    }
  }

  /** Serving the requests after the jump attempt keeps what JumpApplied says. */
  lemma ExtendsWithoutJumpKeepsJump(f: Frame, cfg: Config, move: Vec3, v: Vec3, f2: Frame, r: Frame)
    requires JumpApplied(f, cfg, move, v, f2)
    requires ExtendsWithoutJump(f2.events, r.events)
    requires r.velocity == f2.velocity && r.motor == f2.motor.(capsule := r.motor.capsule)
    ensures JumpApplied(f, cfg, move, v, r)
  {
    assert r.events[..|f.events|] == r.events[..|f2.events|][..|f.events|];
  }

  /** A jump attempt leaves the sprint, walk and crouch requests and what they
      would produce as they were. */
  lemma JumpKeepsRequests(f: Frame, cfg: Config, move: Vec3, dt: real, m: MoveType, overlaps: Capsule -> bool)
    ensures var g := TryJump(f, cfg, move, dt).g;
      RequestedMoveType(g) == RequestedMoveType(f.g)
      && RequestedPosture(g, cfg, m, overlaps) == RequestedPosture(f.g, cfg, m, overlaps)
  {
    var g := TryJump(f, cfg, move, dt).g;
    assert g.moveType == f.g.moveType && g.posture == f.g.posture;
    assert g.sprintRequested == f.g.sprintRequested && g.walkRequested == f.g.walkRequested;
    assert g.crouchRequested == f.g.crouchRequested && g.crouchMultiTapRequested == f.g.crouchMultiTapRequested;
    assert TierCapsule(cfg, g, ToggleTarget(g.posture, g.crouchMultiTapRequested))
        == TierCapsule(cfg, f.g, ToggleTarget(f.g.posture, f.g.crouchMultiTapRequested));
  }

  /** Serving the sprint, walk and crouch requests clears their latches and leaves
      the jump outcome and the speed cap alone. */
  lemma ServingKeepsJump(f: Frame, cfg: Config, overlaps: Capsule -> bool)
    ensures var r := TryCrouch(TryWalk(TrySprint(f)), cfg, overlaps);
      r.g.jumpedThisFrame == f.g.jumpedThisFrame && r.maxStableMoveSpeed == f.maxStableMoveSpeed
      && !r.g.sprintRequested && !r.g.walkRequested && !r.g.crouchRequested && !r.g.crouchMultiTapRequested
      && r.velocity == f.velocity && r.motor == f.motor.(capsule := r.motor.capsule)
      && ExtendsWithoutJump(f.events, r.events)
  {
    var f3 := TrySprint(f);
    var f4 := TryWalk(f3);
    var r := TryCrouch(f4, cfg, overlaps);
    assert f3.g.jumpedThisFrame == f.g.jumpedThisFrame && f3.maxStableMoveSpeed == f.maxStableMoveSpeed;
    assert f4.g.jumpedThisFrame == f.g.jumpedThisFrame && f4.maxStableMoveSpeed == f.maxStableMoveSpeed;
    assert !f4.g.sprintRequested;
    RunStateWithoutJump(f, Sprinting);
    RunStateWithoutJump(f3, Walking);
    ExtendsWithoutJumpTrans(f.events, f3.events, f4.events);
    if r.g.posture != f4.g.posture {
      ExtendsWithoutJumpByOne(f4.events, PostureChanged(f4.g.posture, r.g.posture));
    } else {
      assert r.events[..|f4.events|] == f4.events;
    }
    ExtendsWithoutJumpTrans(f.events, f4.events, r.events);
  }

  /** A run-state toggle, served or not, announces no jump. */
  lemma RunStateWithoutJump(f: Frame, state: MoveType)
    ensures var r := SetRunState(f, state);
      ExtendsWithoutJump(f.events, r.events)
      && ExtendsWithoutJump(f.events, (if state == Sprinting then TrySprint(f) else TryWalk(f)).events)
  {
    var r := SetRunState(f, state);
    if r.events == f.events {
      assert f.events[..|f.events|] == f.events;
    } else if f.g.moveType == state {
      ExtendsWithoutJumpByOne(f.events, MoveTypeChanged(state, Default));
    } else {
      ExtendsWithoutJumpByOne(f.events, MoveTypeChanged(f.g.moveType, state));
    }
    assert f.events[..|f.events|] == f.events;
  }

  /** Serving sprint, then walk, then crouch gives the reference outcomes: the
      crouch is judged against the move type the first two requests produced. */
  lemma RequestsServedInOrder(f: Frame, cfg: Config, overlaps: Capsule -> bool)
    ensures var r := TryCrouch(TryWalk(TrySprint(f)), cfg, overlaps);
      r.g.moveType == RequestedMoveType(f.g)
      && r.g.posture == RequestedPosture(f.g, cfg, RequestedMoveType(f.g), overlaps)
  {
    var f4 := TryWalk(TrySprint(f));
    SprintThenWalk(f);
    assert RequestedPosture(f4.g, cfg, f4.g.moveType, overlaps)
        == RequestedPosture(f.g, cfg, RequestedMoveType(f.g), overlaps);
  }

  /** Serving sprint then walk changes only the move type, to the reference one,
      and clears both latches. */
  lemma SprintThenWalk(f: Frame)
    ensures TryWalk(TrySprint(f)).g
      == f.g.(moveType := RequestedMoveType(f.g), sprintRequested := false, walkRequested := false)
  {
    var f3 := TrySprint(f);
    var m3 := if f.g.sprintRequested then RunToggle(f.g.moveType, Sprinting, f.g.posture) else f.g.moveType;
    if f.g.sprintRequested {
      assert f3.g == f.g.(moveType := m3, sprintRequested := false);
    } else {
      assert f3 == f;
    }
    if f.g.walkRequested {
      assert TryWalk(f3).g == f3.g.(moveType := RunToggle(m3, Walking, f.g.posture), walkRequested := false);
    } else {
      assert TryWalk(f3) == f3;
    }
  }

  /** Dispatch on the motor's grounding: stable, sliding, or (no ground) nothing. */
  function UpdateVelocity(f: Frame, cfg: Config, move: Vec3, dt: real,
                          steer: (Vec3, Vec3, real) -> Vec3, overlaps: Capsule -> bool): (r: Frame)
    ensures !f.motor.grounding.foundAnyGround && !f.motor.grounding.isStableOnGround ==> r == f
    ensures f.motor.grounding.isStableOnGround ==>
      r.maxStableMoveSpeed == MaxStableMoveSpeed(cfg, f.g.moveType)
      && !r.g.sprintRequested && !r.g.walkRequested && !r.g.crouchRequested
      && r.g.moveType == RequestedMoveType(f.g)
      && r.g.posture == RequestedPosture(f.g, cfg, RequestedMoveType(f.g), overlaps)
      && (r.g.jumpedThisFrame <==> CanJump(f.g, cfg))
      && JumpApplied(f, cfg, move, steer(f.velocity, move, MaxStableMoveSpeed(cfg, f.g.moveType)), r)
    ensures Sliding(f.motor.grounding) ==>
      r.maxStableMoveSpeed == f.maxStableMoveSpeed && r.motor.capsule == f.motor.capsule
      && r.g.moveType == f.g.moveType && r.g.posture == f.g.posture
      && r.g.sprintRequested == f.g.sprintRequested && r.g.walkRequested == f.g.walkRequested
      && r.g.crouchRequested == f.g.crouchRequested
    ensures Sliding(f.motor.grounding) && !cfg.allowJumpingWhenSliding ==> r.g == f.g && r.events == f.events
  {
    if f.motor.grounding.isStableOnGround then UpdateGroundStable(f, cfg, move, dt, steer, overlaps)
    else if f.motor.grounding.foundAnyGround then UpdateGroundUnstable(f, cfg, move, dt)
    else f
  }

  /** Sliding without sliding jumps never adds velocity into the slope. */
  lemma SlidingNeverClimbs(f: Frame, cfg: Config, move: Vec3, dt: real,
                           steer: (Vec3, Vec3, real) -> Vec3, overlaps: Capsule -> bool)
    requires Sliding(f.motor.grounding) && !cfg.allowJumpingWhenSliding
    ensures var n := ObstructionNormal(CharacterUp(f.motor), f.motor.grounding.groundNormal);
      var r := UpdateVelocity(f, cfg, move, dt, steer, overlaps);
      Dot(n, n) != 0.0 ==> Dot(Sub(r.velocity, f.velocity), n) == 0.0
  {
    assert UpdateVelocity(f, cfg, move, dt, steer, overlaps) == UpdateGroundUnstable(f, cfg, move, dt);
  }

  /** Base behaviour (label update) followed by the jump bookkeeping. */
  function AfterCharacterUpdate(f: Frame, cfg: Config, forwardSpeed: real, dt: real): (r: Frame)
    ensures r.g.locomotion == Classify(cfg, f.motor.grounding, f.g.posture, forwardSpeed)
    ensures r.g.(locomotion := f.g.locomotion) == ProcessJump(f, cfg, dt).g
    ensures r.g.locomotion != f.g.locomotion ==>
      r.events == f.events + [LocomotionChanged(f.g.locomotion, r.g.locomotion)]
    ensures r.g.locomotion == f.g.locomotion ==> r.events == f.events
    ensures r.g.moveType == f.g.moveType && r.g.posture == f.g.posture
    ensures r.motor == f.motor && r.velocity == f.velocity
  {
    ProcessJump(ProcessLocomotionState(f, cfg, forwardSpeed), cfg, dt)
  }

  // ---------------------------------------------------------------- transitions and hits

  /** Entering: ground solving back on, landing announced. */
  function TransitionToState(f: Frame): (r: Frame)
    ensures r.motor.groundSolving
    ensures r.events == f.events + [LandFired]
    ensures r == f.(motor := f.motor.(groundSolving := true), events := r.events)
  {
    f.(motor := f.motor.(groundSolving := true), events := f.events + [LandFired])
  }

  /** The tag handed to the airborne state on leaving the ground: a jump if the
      last TryJump fired, a fall otherwise. */
  function UngroundPayload(g: GroundedData): (tag: string)
    ensures tag == ToUngroundedFromJump <==> g.jumpedThisFrame
    ensures tag == ToUngroundedFromFall <==> !g.jumpedThisFrame
  {
    PayloadTagsDistinct();
    if g.jumpedThisFrame then ToUngroundedFromJump else ToUngroundedFromFall
  }

  /** A movement hit is in front when the horizontal offset from the character to
      the hit point (taken at the character's own height) points along its forward. */
  function OnMovementHit(position: Vec3, forward: Vec3, hitPoint: Vec3): (c: MovementCollision)
    ensures c != NoCollision
    ensures c == Front <==> Dot(Sub(Vec3(hitPoint.x, position.y, hitPoint.z), position), forward) > 0.0
  {
    var heading := Sub(Vec3(hitPoint.x, position.y, hitPoint.z), position);
    if Dot(heading, forward) > 0.0 then Front else Back
  }

  /** The classification ignores the hit's height. */
  lemma MovementHitIgnoresHeight(position: Vec3, forward: Vec3, hitPoint: Vec3, y: real)
    ensures OnMovementHit(position, forward, hitPoint) == OnMovementHit(position, forward, hitPoint.(y := y))
  {
  }
}

=== FILE: grounded_runs.dfy ===
/** Sequences of grounded callbacks: input delivery, velocity updates and
    end-of-update bookkeeping in any order. Over any such run the state keeps its
    invariant, and no more jumps fire than jump presses arrived. */
module GroundedRuns {
  import opened Vectors
  import opened KccTypes
  import opened MotorBody
  import opened StateBase
  import opened StateGrounded

  /** One callback the grounded state receives. The motor's grounding for that
      update arrives with the velocity and after-update callbacks; the motor's
      steering and its overlap query at the pose of that update arrive with the
      velocity callback, so each update may see a different world. */
  datatype Op =
    | Receive(input: Input)
    | Velocity(grounding: GroundingStatus, move: Vec3, dt: real,
               steer: (Vec3, Vec3, real) -> Vec3, overlaps: Capsule -> bool)
    | After(grounding: GroundingStatus, forwardSpeed: real, dt: real)

  function Step(f: Frame, cfg: Config, op: Op): Frame
  {
    match op
    case Receive(input) => f.(g := ForwardInputValues(f.g, input))
    case Velocity(s, move, dt, steer, overlaps) =>
      UpdateVelocity(f.(motor := f.motor.(grounding := s)), cfg, move, dt, steer, overlaps)
    case After(s, z, dt) =>
      AfterCharacterUpdate(f.(motor := f.motor.(grounding := s)), cfg, z, dt)
  }

  function Run(f: Frame, cfg: Config, ops: seq<Op>): Frame
    decreases |ops|
  {
    if |ops| == 0 then f
    else Run(Step(f, cfg, ops[0]), cfg, ops[1..])
  }

  /** Number of jump notifications in an event log. */
  function CountJumps(evs: seq<Event>): nat {
    CountEvent(evs, JumpFired)
  }

  lemma CountJumpsSnoc(evs: seq<Event>, e: Event)
    ensures CountJumps(evs + [e]) == CountJumps(evs) + (if e == JumpFired then 1 else 0)
  {
    CountEventSnoc(evs, e, JumpFired);
  }

  /** Number of inputs carrying a jump press. */
  function CountJumpPresses(ops: seq<Op>): nat {
    if |ops| == 0 then 0
    else (if ops[0].Receive? && ops[0].input.jumpStarted then 1 else 0) + CountJumpPresses(ops[1..])
  }

  /** Jumps fired so far plus the one still pending. */
  function Potential(f: Frame): nat {
    CountJumps(f.events) + B2N(f.g.jumpRequested)
  }

  lemma TryJumpKeepsPotential(f: Frame, cfg: Config, move: Vec3, dt: real)
    ensures Potential(TryJump(f, cfg, move, dt)) == Potential(f)
  {
    if CanJump(f.g, cfg) {
      CountJumpsSnoc(f.events, JumpFired);
    }
  }

  lemma SetRunStateKeepsPotential(f: Frame, t: MoveType)
    ensures Potential(SetRunState(f, t)) == Potential(f)
    ensures Inv(f.g) ==> Inv(SetRunState(f, t).g)
  {
    var r := SetRunState(f, t);
    if r.events != f.events {
      CountJumpsSnoc(f.events, r.events[|r.events| - 1]);
      assert r.events == f.events + [r.events[|r.events| - 1]];
    }
  }

  lemma TrySetCrouchKeepsPotential(f: Frame, cfg: Config, t: Posture, overlaps: Capsule -> bool)
    ensures Potential(TrySetCrouchState(f, cfg, t, overlaps)) == Potential(f)
    ensures Inv(f.g) ==> Inv(TrySetCrouchState(f, cfg, t, overlaps).g)
  {
    if CrouchAllowed(f, cfg, t, overlaps) {
      CountJumpsSnoc(f.events, PostureChanged(f.g.posture, t));
    }
  }

  lemma TryCrouchKeepsPotential(f: Frame, cfg: Config, overlaps: Capsule -> bool)
    ensures Potential(TryCrouch(f, cfg, overlaps)) == Potential(f)
    ensures Inv(f.g) ==> Inv(TryCrouch(f, cfg, overlaps).g)
  {
    if f.g.crouchMultiTapRequested || f.g.crouchRequested {
      var multi := f.g.crouchMultiTapRequested;
      TrySetCrouchKeepsPotential(f, cfg, ToggleTarget(f.g.posture, multi), overlaps);
      assert TryCrouch(f, cfg, overlaps) == DoCrouch(f, cfg, multi, overlaps);
    }
  }

  lemma LocomotionKeepsPotential(f: Frame, cfg: Config, z: real)
    ensures Potential(ProcessLocomotionState(f, cfg, z)) == Potential(f)
  {
    var r := ProcessLocomotionState(f, cfg, z);
    if r.g.locomotion != f.g.locomotion {
      CountJumpsSnoc(f.events, LocomotionChanged(f.g.locomotion, r.g.locomotion));
    }
  }

  /** One callback raises the potential by at most the jump press it carries, and
      keeps the invariant. */
  lemma StepBound(f: Frame, cfg: Config, op: Op)
    ensures Potential(Step(f, cfg, op))
      <= Potential(f) + (if op.Receive? && op.input.jumpStarted then 1 else 0)
    ensures Inv(f.g) ==> Inv(Step(f, cfg, op).g)
  {
    match op
    case Receive(input) =>
    case Velocity(s, move, dt, steer, overlaps) =>
      var f0 := f.(motor := f.motor.(grounding := s));
      if s.isStableOnGround {
        var speed := MaxStableMoveSpeed(cfg, f0.g.moveType);
        var f1 := f0.(velocity := steer(f0.velocity, move, speed), maxStableMoveSpeed := speed);
        var f2 := TryJump(f1, cfg, move, dt);
        TryJumpKeepsPotential(f1, cfg, move, dt);
        var f3 := TrySprint(f2);
        if f2.g.sprintRequested {
          SetRunStateKeepsPotential(f2, Sprinting);
        }
        var f4 := TryWalk(f3);
        if f3.g.walkRequested {
          SetRunStateKeepsPotential(f3, Walking);
        }
        TryCrouchKeepsPotential(f4, cfg, overlaps);
        assert Step(f, cfg, op) == TryCrouch(f4, cfg, overlaps);
      } else if s.foundAnyGround {
        var added := Scale(move, cfg.airAccelerationSpeed * dt);
        if Dot(Add(f0.velocity, added), added) > 0.0 && cfg.allowJumpingWhenSliding {
          var n := ObstructionNormal(CharacterUp(f0.motor), f0.motor.grounding.groundNormal);
          TryJumpKeepsPotential(f0.(velocity := Add(f0.velocity, ProjectOnPlane(added, n))), cfg, move, dt);
        }
      }
    case After(s, z, dt) =>
      var f0 := f.(motor := f.motor.(grounding := s));
      LocomotionKeepsPotential(f0, cfg, z);
  }

  /** Over any run, jumps fired plus the request still pending never exceed the
      pending request at the start plus the jump presses received. */
  lemma {:induction false} JumpsBoundedByPresses(f: Frame, cfg: Config, ops: seq<Op>)
    ensures Potential(Run(f, cfg, ops)) <= Potential(f) + CountJumpPresses(ops)
    decreases |ops|
  {
    if |ops| > 0 {
      StepBound(f, cfg, ops[0]);
      JumpsBoundedByPresses(Step(f, cfg, ops[0]), cfg, ops[1..]);
    }
  }

  /** Starting from a freshly created state with an empty log, a run fires at most
      as many jumps as it received jump presses. */
  lemma FreshStateJumpsAtMostPresses(f: Frame, cfg: Config, ops: seq<Op>)
    requires f.g == Create(cfg) && f.events == []
    ensures CountJumps(Run(f, cfg, ops).events) <= CountJumpPresses(ops)
  {
    JumpsBoundedByPresses(f, cfg, ops);
  }

  /** Every run keeps the invariant: sprinting only upright, multi-tap latch clear. */
  lemma {:induction false} RunPreservesInv(f: Frame, cfg: Config, ops: seq<Op>)
    requires Inv(f.g)
    ensures Inv(Run(f, cfg, ops).g)
    decreases |ops|
  {
    if |ops| > 0 {
      StepBound(f, cfg, ops[0]);
      RunPreservesInv(Step(f, cfg, ops[0]), cfg, ops[1..]);
    }
  }

  /** Sliding without sliding jumps leaves the this-frame jump flag as the last
      stable update set it, so a fall off the slope right after a jump on stable
      ground is still reported as leaving by a jump. */
  lemma SlidingKeepsStaleJumpFlag(f: Frame, cfg: Config, move: Vec3, dt: real,
                                  steer: (Vec3, Vec3, real) -> Vec3, overlaps: Capsule -> bool)
    requires Sliding(f.motor.grounding) && !cfg.allowJumpingWhenSliding
    requires f.g.jumpedThisFrame
    ensures UpdateVelocity(f, cfg, move, dt, steer, overlaps).g.jumpedThisFrame
    ensures UngroundPayload(UpdateVelocity(f, cfg, move, dt, steer, overlaps).g) == "UNG_JUMP"
  {
  }
}

=== FILE: kcc_types.dfy ===
/** The enumerations, the per-character configuration record, the input record and
    the event vocabulary shared by every locomotion state. */
module KccTypes {
  import opened Vectors

  datatype Option<T> = None | Some(value: T)

  /** The key of each high-level locomotion state. */
  datatype StateKey = Grounded | Ungrounded | Climbing | Swimming

  /** Movement intent chosen by the player while grounded. */
  datatype MoveType = Walking | Default | Sprinting

  /** Crouch tier. The C# enum declares them in this order, so the underlying
      values order them Upright < Crouched < Prone. */
  datatype Posture = Upright | Crouched | Prone

  function PostureRank(p: Posture): nat {
    match p
    case Upright => 0
    case Crouched => 1
    case Prone => 2
  }

  /** Animation-facing classification of grounded movement. */
  datatype LocomotionType = Idle | Walk | Run | Sprint | SlideUnstable | CrouchWalk | ProneCrawl

  /** Which side of the body the last movement hit came from. */
  datatype MovementCollision = NoCollision | Front | Back

  /** Whether the camera operating this character is first or third person. */
  datatype ViewState = FirstPerson | ThirdPerson

  /** One frame of intent: a move vector, a look direction and the edge-triggered
      "started" signal of each discrete action. */
  datatype Input = Input(
    move: Vec3,
    look: Vec3,
    jumpStarted: bool,
    sprintStarted: bool,
    walkStarted: bool,
    crouchStarted: bool)

  /** The value of the input struct before any input has arrived. */
  const NoInput: Input := Input(Zero, Zero, false, false, false, false)

  /** Notifications the core sends to its animation provider, in the order sent. */
  datatype Event =
    | JumpFired
    | FallBeginFired
    | LandFired
    | LocomotionChanged(prevLocomotion: LocomotionType, nextLocomotion: LocomotionType)
    | MoveTypeChanged(prevMoveType: MoveType, nextMoveType: MoveType)
    | PostureChanged(prevPosture: Posture, nextPosture: Posture)

  /** How many times `e` occurs in an event log. */
  function CountEvent(evs: seq<Event>, e: Event): nat {
    if |evs| == 0 then 0
    else CountEvent(evs[..|evs| - 1], e) + (if evs[|evs| - 1] == e then 1 else 0)
  }

  lemma CountEventSnoc(evs: seq<Event>, x: Event, e: Event)
    ensures CountEvent(evs + [x], e) == CountEvent(evs, e) + (if x == e then 1 else 0)
  {
    assert (evs + [x])[..|evs|] == evs;
  }

  /** The per-character parameter set. It is read by the core and never written. */
  datatype Config = Config(
    walkSpeed: real,
    runSpeed: real,
    sprintSpeed: real,
    stableMovementSharpness: real,
    orientationSharpness: real,
    maxAirMoveSpeed: real,
    airAccelerationSpeed: real,
    drag: real,
    allowJumpingWhenSliding: bool,
    jumpUpSpeed: real,
    jumpScalableForwardSpeed: real,
    jumpPreGroundingGraceTime: real,
    jumpPostGroundingGraceTime: real,
    standingCapsuleHeight: real,
    crouchedCapsuleHeightMultiplier: real,
    proneCapsuleHeightMultiplier: real,
    surfaceOffset: real,
    surfaceOrientationRate: real,
    climbSpeedVertical: real,
    climbSpeedHorizontal: real,
    bonusOrientationSharpness: real,
    gravity: Vec3)

  /** The configuration asset's field defaults. */
  const DefaultConfig: Config := Config(
    2.5, 6.0, 10.0, 15.0, 10.0,
    15.0, 15.0, 0.1,
    false, 10.0, 10.0, 0.0, 0.0,
    1.0, 0.5, 0.25,
    0.5, 20.0, 5.0, 2.0,
    10.0, Vec3(0.0, -30.0, 0.0))

  /** Walk, run and sprint speeds rise strictly. */
  predicate SpeedTiersOrdered(cfg: Config) {
    cfg.walkSpeed < cfg.runSpeed < cfg.sprintSpeed
  }

  lemma DefaultSpeedTiersOrdered()
    ensures SpeedTiersOrdered(DefaultConfig)
    ensures DefaultConfig.walkSpeed == 2.5 && DefaultConfig.runSpeed == 6.0 && DefaultConfig.sprintSpeed == 10.0
  {
  }
}

=== FILE: motor_body.dfy ===
/** The parts of the external kinematic motor that the core reads and writes:
    grounding status, capsule dimensions, pose, velocity and two switches. The
    motor's own sweeps and probes are not modelled; their results arrive as values. */
module MotorBody {
  import opened Vectors

  /** What the motor's ground probe reported for one update. */
  datatype GroundingStatus = GroundingStatus(
    foundAnyGround: bool,
    isStableOnGround: bool,
    groundNormal: Vec3)

  const NoGround: GroundingStatus := GroundingStatus(false, false, Zero)

  /** Found ground that is too steep to stand on. */
  predicate Sliding(s: GroundingStatus) {
    s.foundAnyGround && !s.isStableOnGround
  }

  datatype Capsule = Capsule(radius: real, height: real, yOffset: real)

  /** Every capsule resize in the controller passes this radius. */
  const CapsuleRadius: real := 0.5

  datatype Motor = Motor(
    grounding: GroundingStatus,
    lastGrounding: GroundingStatus,
    groundSolving: bool,
    mustUnground: bool,
    capsule: Capsule,
    position: Vec3,
    rotation: Quat,
    velocity: Vec3)

  function CharacterUp(m: Motor): Vec3 {
    Up(m.rotation)
  }

  function CharacterForward(m: Motor): Vec3 {
    Forward(m.rotation)
  }

  /** The result of a guarded resize: the capsule afterwards and whether the new
      dimensions were kept. */
  datatype Resize = Resize(capsule: Capsule, applied: bool)

  /** Sets the capsule to `height`/`yOffset`, asks whether anything overlaps it there,
      and on an overlap sets the cached height and offset back. `overlaps` stands for
      the motor's overlap query at the current pose. */
  function TryApplyNewMotorCapsuleDimensions(
    current: Capsule, height: real, yOffset: real, overlaps: Capsule -> bool): (r: Resize)
    ensures r.applied <==> !overlaps(Capsule(CapsuleRadius, height, yOffset))
    ensures r.applied ==> r.capsule == Capsule(CapsuleRadius, height, yOffset)
    ensures !r.applied ==> r.capsule.height == current.height && r.capsule.yOffset == current.yOffset
    ensures r.capsule.radius == CapsuleRadius
  {
    var cachedHeight := current.height;
    var cachedOffset := current.yOffset;
    var resized := Capsule(CapsuleRadius, height, yOffset);
    if overlaps(resized) then
      Resize(Capsule(CapsuleRadius, cachedHeight, cachedOffset), false)
    else
      Resize(resized, true)
  }

  /** A rollback restores every dimension exactly when the capsule already had the
      radius every resize uses. */
  lemma RollbackRestoresCapsule(current: Capsule, height: real, yOffset: real, overlaps: Capsule -> bool)
    requires current.radius == CapsuleRadius
    requires overlaps(Capsule(CapsuleRadius, height, yOffset))
    ensures TryApplyNewMotorCapsuleDimensions(current, height, yOffset, overlaps) == Resize(current, false)
  {
  }
}

=== FILE: state_base.dfy ===
/** What every locomotion state shares: the transition payload tags, gravity and
    drag integration, and the base answers of the hooks no state overrides. */
module StateBase {
  import opened Vectors
  import opened KccTypes

  /** The optional tag a transition hands to the entering state (null in C#). */
  type Payload = Option<string>

  const ToUngroundedFromJump: string := "UNG_JUMP"
  const ToUngroundedFromFall: string := "UNG_FALL"

  lemma PayloadTagsDistinct()
    ensures ToUngroundedFromJump != ToUngroundedFromFall
    ensures Some(ToUngroundedFromJump) != Some(ToUngroundedFromFall)
  {
    assert ToUngroundedFromJump[4] != ToUngroundedFromFall[4];
  }

  /** Adds `gravity * dt` to the velocity. */
  function ApplyGravity(v: Vec3, gravity: Vec3, dt: real): (r: Vec3)
    ensures Sub(r, v) == Scale(gravity, dt)
    ensures dt == 0.0 ==> r == v
  {
    Add(v, Scale(gravity, dt))
  }

  /** The drag divisor `1 + drag * dt` is non-zero, so the factor exists. */
  predicate DragDefined(drag: real, dt: real) {
    1.0 + drag * dt != 0.0
  }

  function DragFactor(drag: real, dt: real): real
    requires DragDefined(drag, dt)
  {
    1.0 / (1.0 + drag * dt)
  }

  /** Multiplies the velocity by `1 / (1 + drag * dt)`; multiplying the result by
      the divisor gives the original velocity back. */
  function ApplyDrag(v: Vec3, drag: real, dt: real): (r: Vec3)
    requires DragDefined(drag, dt)
    ensures Scale(r, 1.0 + drag * dt) == v
  {
    var k := DragFactor(drag, dt);
    var d := 1.0 + drag * dt;
    assert k * d == 1.0;
    ScaleBack(v.x, k, d);
    ScaleBack(v.y, k, d);
    ScaleBack(v.z, k, d);
    Scale(v, k)
  }

  lemma ScaleBack(a: real, k: real, d: real)
    requires k * d == 1.0
    ensures a * k * d == a
  {
    assert a * k * d == a * (k * d);
  }

  /** With non-negative drag and step the factor lies in (0, 1]: drag keeps every
      component's sign and never increases speed. */
  lemma DragNeverSpeedsUp(v: Vec3, drag: real, dt: real)
    requires drag >= 0.0 && dt >= 0.0
    ensures DragDefined(drag, dt)
    ensures 0.0 < DragFactor(drag, dt) <= 1.0
    ensures ApplyDrag(v, drag, dt) == Scale(v, DragFactor(drag, dt))
    ensures SqrMagnitude(ApplyDrag(v, drag, dt)) <= SqrMagnitude(v)
    ensures (ApplyDrag(v, drag, dt).y < 0.0) == (v.y < 0.0)
  {
    var d := 1.0 + drag * dt;
    assert drag * dt >= 0.0;
    var k := DragFactor(drag, dt);
    assert k * d == 1.0;
    assert 0.0 < k <= 1.0;
    var r := ApplyDrag(v, drag, dt);
    assert r == Scale(v, k) by {
      assert Scale(r, d) == v;
      InverseScale(v.x, r.x, k, d);
      InverseScale(v.y, r.y, k, d);
      InverseScale(v.z, r.z, k, d);
    }
    SqrMagnitudeScale(v, k);
    SquareAtMostOne(k, SqrMagnitude(v));
    SignKept(v.y, k);
  }

  lemma InverseScale(a: real, b: real, k: real, d: real)
    requires k * d == 1.0 && b * d == a
    ensures b == a * k
  {
    assert a * k == b * (d * k);
  }

  lemma SquareAtMostOne(k: real, m: real)
    requires 0.0 < k <= 1.0 && m >= 0.0
    ensures k * k * m <= m
  {
    ScaleDown(k, k);
    assert k * k <= 1.0;
    assert m - k * k * m == (1.0 - k * k) * m;
  }

  lemma SignKept(a: real, k: real)
    requires k > 0.0
    ensures (a * k < 0.0) == (a < 0.0)
  {
    if a < 0.0 {
      assert a * k < 0.0;
    } else {
      assert a * k >= 0.0;
    }
  }

  /** The direction, perpendicular to up, pointing into the slope whose normal is
      `groundNormal`: `(up x n) x up`. Both airborne control and sliding remove the
      part of added velocity along it, which keeps characters from climbing walls. */
  function ObstructionNormal(up: Vec3, groundNormal: Vec3): (n: Vec3)
    ensures Dot(n, up) == 0.0
  {
    var side := Cross(up, groundNormal);
    CrossPerpendicularRight(side, up);
    Cross(side, up)
  }

  lemma CrossPerpendicularRight(a: Vec3, b: Vec3)
    ensures Dot(Cross(a, b), b) == 0.0
  {
  }

  /** The base state's collision filter: it rejects every collider. The controller
      answers the motor itself and never consults it. */
  function IsColliderValidForCollisions<C>(coll: C): (valid: bool)
    ensures !valid
  {
    false
  }
}

=== FILE: swimming.dfy ===
/** The swimming locomotion state: it only switches the motor's ground solving off
    on entry. Every other hook is the base state's, so velocity is left alone and
    the state never starts a transition by itself. */
module StateSwimming {
  import opened MotorBody

  /** Entering: ground solving off, unlike the grounded and airborne entries. */
  function TransitionToState(m: Motor): (r: Motor)
    ensures !r.groundSolving
    ensures r == m.(groundSolving := false)
    ensures !m.groundSolving ==> r == m
  {
    m.(groundSolving := false)
  }
}

=== FILE: ungrounded.dfy ===
/** The airborne locomotion state: air control capped at the last stable move
    speed, wall-climb prevention, gravity and drag, and the fall-begin notification
    for airborne phases that began with a jump. */
module StateUngrounded {
  import opened Vectors
  import opened KccTypes
  import opened MotorBody
  import opened StateBase

  datatype UngroundedData = UngroundedData(isFalling: bool, enteredFromJump: bool)

  /** At construction the falling flag reads the motor's vertical velocity. */
  function Create(motorVelocity: Vec3): (u: UngroundedData)
    ensures u.isFalling <==> motorVelocity.y < 0.0
    ensures !u.enteredFromJump
  {
    UngroundedData(motorVelocity.y < 0.0, false)
  }

  /** Everything an airborne callback may touch. */
  datatype AirFrame = AirFrame(u: UngroundedData, motor: Motor, velocity: Vec3, events: seq<Event>)

  /** Entering: a jump tag marks the phase as jump-born and announces the jump, a
      fall tag marks it fall-born and announces the fall, any other tag (including
      none) leaves the flag; ground solving is switched on in every case. */
  function TransitionToState(f: AirFrame, payload: Payload): (r: AirFrame)
    ensures r.motor == f.motor.(groundSolving := true) && r.velocity == f.velocity
    ensures payload == Some(ToUngroundedFromJump) ==>
      r.u == f.u.(enteredFromJump := true) && r.events == f.events + [JumpFired]
    ensures payload == Some(ToUngroundedFromFall) ==>
      r.u == f.u.(enteredFromJump := false) && r.events == f.events + [FallBeginFired]
    ensures payload != Some(ToUngroundedFromJump) && payload != Some(ToUngroundedFromFall) ==>
      r.u == f.u && r.events == f.events
  {
    PayloadTagsDistinct();
    var f1 :=
      match payload
      case Some(tag) =>
        if tag == ToUngroundedFromJump then
          f.(u := f.u.(enteredFromJump := true), events := f.events + [JumpFired])
        else if tag == ToUngroundedFromFall then
          f.(u := f.u.(enteredFromJump := false), events := f.events + [FallBeginFired])
        else f
      case None => f;
    f1.(motor := f1.motor.(groundSolving := true))
  }

  // ---------------------------------------------------------------- air control

  /** The engine's ClampMagnitude: a vector longer than `maxLength` is divided by
      its length and scaled to `maxLength`. `sqrt` is the engine's square root; a
      zero root for a positive square (which an exact root never gives) yields the
      zero vector, as normalising a vanishing vector does. */
  function ClampMagnitude(v: Vec3, maxLength: real, sqrt: real -> real): (r: Vec3)
    ensures SqrMagnitude(v) <= maxLength * maxLength ==> r == v
  {
    var sq := SqrMagnitude(v);
    if sq > maxLength * maxLength then
      var m := sqrt(sq);
      if m != 0.0 then Scale(Div(v, m), maxLength) else Zero
    else v
  }

  /** `sqrt` is exact at `x`. */
  predicate ExactRoot(sqrt: real -> real, x: real) {
    sqrt(x) >= 0.0 && sqrt(x) * sqrt(x) == x
  }

  /** With an exact root the clamped vector is never longer than the limit. */
  lemma ClampWithinLimit(v: Vec3, maxLength: real, sqrt: real -> real)
    requires maxLength >= 0.0 && ExactRoot(sqrt, SqrMagnitude(v))
    ensures SqrMagnitude(ClampMagnitude(v, maxLength, sqrt)) <= maxLength * maxLength
  {
    var sq := SqrMagnitude(v);
    if sq > maxLength * maxLength {
      var m := sqrt(sq);
      assert m * m == sq;
      assert m > 0.0 by {
        SqrMagnitudeNonNegative(v);
        assert maxLength * maxLength >= 0.0;
      }
      var k := 1.0 / m;
      assert Div(v, m) == Scale(v, k);
      SqrMagnitudeScale(v, k);
      assert k * k * sq == 1.0 by {
        assert k * m == 1.0;
        assert k * k * (m * m) == (k * m) * (k * m);
      }
      SqrMagnitudeScale(Div(v, m), maxLength);
    }
  }

  lemma ClampWithinLimitWhenExact(v: Vec3, maxLength: real, sqrt: real -> real)
    ensures maxLength >= 0.0 && ExactRoot(sqrt, SqrMagnitude(v)) ==>
      SqrMagnitude(ClampMagnitude(v, maxLength, sqrt)) <= maxLength * maxLength
  {
    if maxLength >= 0.0 && ExactRoot(sqrt, SqrMagnitude(v)) {
      ClampWithinLimit(v, maxLength, sqrt);
    }
  }

  /** `magnitude(p) < limit`, decided without a square root. */
  predicate ShorterThan(p: Vec3, limit: real) {
    limit > 0.0 && SqrMagnitude(p) < limit * limit
  }

  /** Limits air acceleration against the planar velocity: under the cap the sum
      is clamped to the cap; at or over it, acceleration along the planar velocity
      is removed so input can only turn, not speed up. */
  function LimitAirInput(planar: Vec3, added: Vec3, cap: real, sqrt: real -> real): (r: Vec3)
    ensures ShorterThan(planar, cap) && ExactRoot(sqrt, SqrMagnitude(Add(planar, added))) ==>
      SqrMagnitude(Add(planar, r)) <= cap * cap
    ensures !ShorterThan(planar, cap) && Dot(planar, added) > 0.0 ==> Dot(r, planar) == 0.0
    ensures !ShorterThan(planar, cap) && Dot(planar, added) <= 0.0 ==> r == added
  {
    if ShorterThan(planar, cap) then ClampAirInput(planar, added, cap, sqrt)
    else TurnOnlyAirInput(planar, added)
  }

  /** Under the cap: replace the acceleration by what takes the planar velocity to
      the clamped sum. */
  function ClampAirInput(planar: Vec3, added: Vec3, cap: real, sqrt: real -> real): (r: Vec3)
    requires cap > 0.0
    ensures ExactRoot(sqrt, SqrMagnitude(Add(planar, added))) ==> SqrMagnitude(Add(planar, r)) <= cap * cap
  {
    var total := ClampMagnitude(Add(planar, added), cap, sqrt);
    ClampWithinLimitWhenExact(Add(planar, added), cap, sqrt);
    assert Add(planar, Sub(total, planar)) == total;
    Sub(total, planar)
  }

  /** At or over the cap: acceleration that would add to the planar velocity loses
      its component along it. */
  function TurnOnlyAirInput(planar: Vec3, added: Vec3): (r: Vec3)
    ensures Dot(planar, added) > 0.0 ==> Dot(r, planar) == 0.0
    ensures Dot(planar, added) <= 0.0 ==> r == added
  {
    if Dot(planar, added) > 0.0 then
      assert planar != Zero;
      NonZeroHasLength(planar);
      ProjectOnPlane(added, planar)
    else added
  }

  /** Near found ground, acceleration that does not oppose the resulting velocity
      loses its component into the slope. */
  function ObstructAirInput(v: Vec3, added: Vec3, up: Vec3, s: GroundingStatus): (r: Vec3)
    ensures !s.foundAnyGround ==> r == added
    ensures var n := ObstructionNormal(up, s.groundNormal);
      s.foundAnyGround && Dot(Add(v, added), added) > 0.0 && Dot(n, n) != 0.0 ==> Dot(r, n) == 0.0
    ensures Dot(Add(v, added), added) <= 0.0 ==> r == added
  {
    if s.foundAnyGround && Dot(Add(v, added), added) > 0.0 then
      ProjectOnPlane(added, ObstructionNormal(up, s.groundNormal))
    else added
  }

  /** The velocity change that air control contributes this update. */
  function AirAcceleration(v: Vec3, move: Vec3, up: Vec3, s: GroundingStatus,
                           cfg: Config, cap: real, dt: real, sqrt: real -> real): (r: Vec3)
    ensures (!s.foundAnyGround && ShorterThan(ProjectOnPlane(v, up), cap)
             && ExactRoot(sqrt, SqrMagnitude(Add(ProjectOnPlane(v, up), Scale(move, cfg.airAccelerationSpeed * dt)))))
      ==> SqrMagnitude(Add(ProjectOnPlane(v, up), r)) <= cap * cap
  {
    var added := Scale(move, cfg.airAccelerationSpeed * dt);
    var planar := ProjectOnPlane(v, up);
    ObstructAirInput(v, LimitAirInput(planar, added, cap, sqrt), up, s)
  }

  /** The falling edge: a new descent is announced once, and the flag follows the
      sign of the vertical velocity. */
  function TrackFalling(f: AirFrame): (r: AirFrame)
    ensures r.u.isFalling <==> f.velocity.y < 0.0
    ensures f.velocity.y < 0.0 && !f.u.isFalling ==> r.events == f.events + [FallBeginFired]
    ensures !(f.velocity.y < 0.0 && !f.u.isFalling) ==> r.events == f.events
    ensures r == f.(u := f.u.(isFalling := r.u.isFalling), events := r.events)
  {
    var falling := f.velocity.y < 0.0;
    if falling && !f.u.isFalling then
      f.(u := f.u.(isFalling := true), events := f.events + [FallBeginFired])
    else if !falling && f.u.isFalling then
      f.(u := f.u.(isFalling := false))
    else f
  }

  /** Air control when there is move input, then gravity, then drag; a jump-born
      phase then tracks the falling edge. `cap` is the controller's current
      stable move speed. */
  function UpdateVelocity(f: AirFrame, cfg: Config, cap: real, move: Vec3, dt: real,
                          sqrt: real -> real): (r: AirFrame)
    requires DragDefined(cfg.drag, dt)
    ensures var a := if SqrMagnitude(move) > 0.0
                     then AirAcceleration(f.velocity, move, CharacterUp(f.motor), f.motor.grounding, cfg, cap, dt, sqrt)
                     else Zero;
      Scale(r.velocity, 1.0 + cfg.drag * dt) == Add(Add(f.velocity, a), Scale(cfg.gravity, dt))
    ensures SqrMagnitude(move) == 0.0 ==>
      Scale(r.velocity, 1.0 + cfg.drag * dt) == Add(f.velocity, Scale(cfg.gravity, dt))
    ensures !f.u.enteredFromJump ==> r.u == f.u && r.events == f.events
    ensures f.u.enteredFromJump ==>
      (r.u.isFalling <==> r.velocity.y < 0.0)
      && (r.events == if r.velocity.y < 0.0 && !f.u.isFalling then f.events + [FallBeginFired] else f.events)
    ensures r.motor == f.motor && r.u.enteredFromJump == f.u.enteredFromJump
  {
    var v1 :=
      if SqrMagnitude(move) > 0.0 then
        Add(f.velocity, AirAcceleration(f.velocity, move, CharacterUp(f.motor), f.motor.grounding,
                                        cfg, cap, dt, sqrt))
      else f.velocity;
    SqrMagnitudeNonNegative(move);
    var v2 := ApplyGravity(v1, cfg.gravity, dt);
    var v3 := ApplyDrag(v2, cfg.drag, dt);
    var f1 := f.(velocity := v3);
    if !f.u.enteredFromJump then f1 else TrackFalling(f1)
  }

  // ---------------------------------------------------------------- falling edges over time

  /** The falling edge applied to a sequence of vertical velocities. */
  function TrackFallingRun(f: AirFrame, ys: seq<real>): AirFrame
    decreases |ys|
  {
    if |ys| == 0 then f
    else TrackFallingRun(TrackFalling(f.(velocity := f.velocity.(y := ys[0]))), ys[1..])
  }

  /** Reference count of descents: positions where the vertical velocity is negative
      and the one before it (or the initial flag, at the first position) was not. */
  function Descents(wasFalling: bool, ys: seq<real>): nat {
    if |ys| == 0 then 0
    else
      var n := |ys|;
      var before := if n == 1 then wasFalling else ys[n - 2] < 0.0;
      Descents(wasFalling, ys[..n - 1]) + (if ys[n - 1] < 0.0 && !before then 1 else 0)
  }

  lemma {:induction false} DescentsCons(wasFalling: bool, y: real, ys: seq<real>)
    ensures Descents(wasFalling, [y] + ys)
      == (if y < 0.0 && !wasFalling then 1 else 0) + Descents(y < 0.0, ys)
    decreases |ys|
  {
    var s := [y] + ys;
    var n := |ys|;
    if n == 0 {
      assert s[..0] == [];
    } else {
      assert s[..n] == [y] + ys[..n - 1];
      DescentsCons(wasFalling, y, ys[..n - 1]);
    }
  }

  /** Over any sequence of updates of a jump-born phase, one fall-begin
      notification is sent per descent, and the flag ends equal to the sign of the
      last vertical velocity. */
  lemma {:induction false} FallBeginOncePerDescent(f: AirFrame, ys: seq<real>)
    ensures CountEvent(TrackFallingRun(f, ys).events, FallBeginFired)
      == CountEvent(f.events, FallBeginFired) + Descents(f.u.isFalling, ys)
    ensures |ys| > 0 ==> (TrackFallingRun(f, ys).u.isFalling <==> ys[|ys| - 1] < 0.0)
    ensures |ys| == 0 ==> TrackFallingRun(f, ys).u == f.u
    decreases |ys|
  {
    if |ys| > 0 {
      var f1 := TrackFalling(f.(velocity := f.velocity.(y := ys[0])));
      if ys[0] < 0.0 && !f.u.isFalling {
        CountEventSnoc(f.events, FallBeginFired, FallBeginFired);
      }
      FallBeginOncePerDescent(f1, ys[1..]);
      DescentsCons(f.u.isFalling, ys[0], ys[1..]);
      assert [ys[0]] + ys[1..] == ys;
      if |ys| > 1 {
        assert ys[1..][|ys[1..]| - 1] == ys[|ys| - 1];
      }
    }
  }
}

=== FILE: vectors.dfy ===
/** Three-component vectors and rotations over exact reals: the small part of the
    engine's vector library the controller depends on. Single-precision floats are
    modelled as reals, so rounding is not represented. */
module Vectors {

  datatype Vec3 = Vec3(x: real, y: real, z: real)

  const Zero: Vec3 := Vec3(0.0, 0.0, 0.0)
  const WorldUp: Vec3 := Vec3(0.0, 1.0, 0.0)
  const WorldForward: Vec3 := Vec3(0.0, 0.0, 1.0)
  const WorldRight: Vec3 := Vec3(1.0, 0.0, 0.0)

  function Add(a: Vec3, b: Vec3): Vec3 {
    Vec3(a.x + b.x, a.y + b.y, a.z + b.z)
  }

  function Sub(a: Vec3, b: Vec3): Vec3 {
    Vec3(a.x - b.x, a.y - b.y, a.z - b.z)
  }

  function Scale(a: Vec3, k: real): Vec3 {
    Vec3(a.x * k, a.y * k, a.z * k)
  }

  /** Component-wise division, the engine's `vector / d`. */
  function Div(a: Vec3, d: real): Vec3
    requires d != 0.0
  {
    Vec3(a.x / d, a.y / d, a.z / d)
  }

  function Dot(a: Vec3, b: Vec3): real {
    a.x * b.x + a.y * b.y + a.z * b.z
  }

  function Cross(a: Vec3, b: Vec3): Vec3 {
    Vec3(a.y * b.z - a.z * b.y, a.z * b.x - a.x * b.z, a.x * b.y - a.y * b.x)
  }

  function SqrMagnitude(a: Vec3): real {
    Dot(a, a)
  }

  lemma SqrMagnitudeNonNegative(a: Vec3)
    ensures SqrMagnitude(a) >= 0.0
  {
  }

  /** A non-zero vector has positive squared length. */
  lemma NonZeroHasLength(a: Vec3)
    ensures a != Zero ==> SqrMagnitude(a) > 0.0
  {
    SquareNonNegative(a.x);
    SquareNonNegative(a.y);
    SquareNonNegative(a.z);
    if SqrMagnitude(a) == 0.0 {
      ZeroLengthIsZero(a);
    }
  }

  /** Only the zero vector has zero squared length. */
  lemma ZeroLengthIsZero(a: Vec3)
    requires SqrMagnitude(a) == 0.0
    ensures a == Zero
  {
    SquareNonNegative(a.x);
    SquareNonNegative(a.y);
    SquareNonNegative(a.z);
    ZeroSquare(a.x);
    ZeroSquare(a.y);
    ZeroSquare(a.z);
  }

  lemma SquareNonNegative(x: real)
    ensures x * x >= 0.0
  {
    if x < 0.0 {
      assert x * x == (-x) * (-x);
    }
  }

  lemma ZeroSquare(x: real)
    requires x * x == 0.0
    ensures x == 0.0
  {
    if x != 0.0 {
      DivideBack(x);
    }
  }

  lemma DivideBack(x: real)
    requires x != 0.0
    ensures (x * x) / x == x
  {
  }

  lemma DotScaleLeft(a: Vec3, k: real, b: Vec3)
    ensures Dot(Scale(a, k), b) == k * Dot(a, b)
  {
  }

  lemma DotAddLeft(a: Vec3, b: Vec3, c: Vec3)
    ensures Dot(Add(a, b), c) == Dot(a, c) + Dot(b, c)
  {
  }

  lemma DotSubLeft(a: Vec3, b: Vec3, c: Vec3)
    ensures Dot(Sub(a, b), c) == Dot(a, c) - Dot(b, c)
  {
  }

  lemma SqrMagnitudeScale(a: Vec3, k: real)
    ensures SqrMagnitude(Scale(a, k)) == k * k * SqrMagnitude(a)
  {
    assert a.x * k * (a.x * k) == k * k * (a.x * a.x);
    assert a.y * k * (a.y * k) == k * k * (a.y * a.y);
    assert a.z * k * (a.z * k) == k * k * (a.z * a.z);
  }

  /** Projection of `v` onto the line spanned by `n`; the zero vector when `n` is zero. */
  function Project(v: Vec3, n: Vec3): (r: Vec3)
    ensures Dot(n, n) != 0.0 ==> Dot(Sub(v, r), n) == 0.0
    ensures Dot(n, n) == 0.0 ==> r == Zero
  {
    var s := Dot(n, n);
    if s == 0.0 then Zero
    else
      var k := Dot(v, n) / s;
      DotScaleLeft(n, k, n);
      assert Dot(Scale(n, k), n) == Dot(v, n);
      Scale(n, k)
  }

  /** `v` with its component along `n` removed; `v` itself when `n` is zero. Since the
      result depends only on the direction of `n`, normalising `n` first changes nothing. */
  function ProjectOnPlane(v: Vec3, n: Vec3): (r: Vec3)
    ensures Dot(n, n) != 0.0 ==> Dot(r, n) == 0.0
    ensures Dot(n, n) == 0.0 ==> r == v
  {
    var s := Dot(n, n);
    if s == 0.0 then v
    else
      var k := Dot(v, n) / s;
      DotScaleLeft(n, k, n);
      Sub(v, Scale(n, k))
  }

  /** Removing a multiple of `n` first leaves the projection onto the plane of `n`
      as it was. */
  lemma ProjectOnPlaneShift(w: Vec3, n: Vec3, t: real)
    ensures ProjectOnPlane(Sub(w, Scale(n, t)), n) == ProjectOnPlane(w, n)
  {
    if Dot(n, n) == 0.0 {
      ZeroLengthIsZero(n);
      ShiftAlongZero(w, t);
    } else {
      ShiftAlongNormal(w, n, t);
    }
  }

  lemma ShiftAlongZero(w: Vec3, t: real)
    ensures ProjectOnPlane(Sub(w, Scale(Zero, t)), Zero) == ProjectOnPlane(w, Zero)
  {
    assert Sub(w, Scale(Zero, t)) == w;
  }

  lemma ShiftAlongNormal(w: Vec3, n: Vec3, t: real)
    requires Dot(n, n) != 0.0
    ensures ProjectOnPlane(Sub(w, Scale(n, t)), n) == ProjectOnPlane(w, n)
  {
    var s := Dot(n, n);
    var a := Dot(w, n);
    var u := Sub(w, Scale(n, t));
    assert Dot(u, n) / s == a / s - t by {
      DotSubLeft(w, Scale(n, t), n);
      DotScaleLeft(n, t, n);
      QuotientShift(a, s, t);
    }
    ProjectOnPlaneUnfold(u, n);
    ProjectOnPlaneUnfold(w, n);
    SubTwoMultiples(w, n, t, a / s);
  }

  lemma ProjectOnPlaneUnfold(v: Vec3, n: Vec3)
    requires Dot(n, n) != 0.0
    ensures ProjectOnPlane(v, n) == Sub(v, Scale(n, Dot(v, n) / Dot(n, n)))
  {
  }

  lemma QuotientShift(a: real, s: real, t: real)
    requires s != 0.0
    ensures (a - t * s) / s == a / s - t
  {
    assert (a / s - t) * s == a - t * s;
  }

  lemma SubTwoMultiples(w: Vec3, n: Vec3, t: real, k: real)
    ensures Sub(Sub(w, Scale(n, t)), Scale(n, k - t)) == Sub(w, Scale(n, k))
  {
    assert n.x * t + n.x * (k - t) == n.x * k;
    assert n.y * t + n.y * (k - t) == n.y * k;
    assert n.z * t + n.z * (k - t) == n.z * k;
  }

  /** The arithmetic mean of four vectors, as `(a + b + c + d) / 4`. */
  function Mean4(a: Vec3, b: Vec3, c: Vec3, d: Vec3): (r: Vec3)
    ensures Scale(r, 4.0) == Add(Add(Add(a, b), c), d)
    ensures a == b == c == d ==> r == a
  {
    Div(Add(Add(Add(a, b), c), d), 4.0)
  }

  function Clamp01(t: real): (r: real)
    ensures 0.0 <= r <= 1.0
    ensures 0.0 <= t <= 1.0 ==> r == t
  {
    if t < 0.0 then 0.0 else if t > 1.0 then 1.0 else t
  }

  /** The engine's clamped linear interpolation `a + (b - a) * clamp01(t)`. */
  function Lerp(a: real, b: real, t: real): (r: real)
    ensures a <= b ==> a <= r
    ensures a <= b ==> r <= b
    ensures b <= a ==> b <= r
    ensures b <= a ==> r <= a
  {
    var s := Clamp01(t);
    if a <= b then
      LerpRising(a, b, s);
      Mix(a, b, s)
    else
      LerpFalling(a, b, s);
      Mix(a, b, s)
  }

  function Mix(a: real, b: real, s: real): real {
    a + (b - a) * s
  }

  lemma ScaleDown(d: real, s: real)
    requires d >= 0.0 && 0.0 <= s <= 1.0
    ensures 0.0 <= d * s
    ensures d * s <= d
  {
    assert d - d * s == d * (1.0 - s);
  }

  lemma LerpRising(a: real, b: real, s: real)
    requires 0.0 <= s <= 1.0 && a <= b
    ensures a <= Mix(a, b, s)
    ensures Mix(a, b, s) <= b
  {
    var d := b - a;
    ScaleDown(d, s);
    var m := d * s;
    assert 0.0 <= m <= d;
  }

  lemma LerpFalling(a: real, b: real, s: real)
    requires 0.0 <= s <= 1.0 && b <= a
    ensures b <= Mix(a, b, s)
    ensures Mix(a, b, s) <= a
  {
    var d := a - b;
    ScaleDown(d, s);
    var m := d * s;
    assert 0.0 <= m <= d;
    assert (b - a) * s == -m;
  }

  function LerpVec(a: Vec3, b: Vec3, t: real): Vec3 {
    Vec3(Lerp(a.x, b.x, t), Lerp(a.y, b.y, t), Lerp(a.z, b.z, t))
  }

  function Abs(r: real): real {
    if r < 0.0 then -r else r
  }

  /** A rotation quaternion. Engine transforms always hold unit quaternions; the
      model does not need that fact except where a lemma says so. */
  datatype Quat = Quat(x: real, y: real, z: real, w: real)

  const Identity: Quat := Quat(0.0, 0.0, 0.0, 1.0)

  function Conjugate(q: Quat): Quat {
    Quat(-q.x, -q.y, -q.z, q.w)
  }

  /** `q * v`: the engine's polynomial formula for rotating a vector by a quaternion. */
  function Rotate(q: Quat, v: Vec3): Vec3 {
    var x2 := q.x * 2.0;
    var y2 := q.y * 2.0;
    var z2 := q.z * 2.0;
    var xx := q.x * x2;
    var yy := q.y * y2;
    var zz := q.z * z2;
    var xy := q.x * y2;
    var xz := q.x * z2;
    var yz := q.y * z2;
    var wx := q.w * x2;
    var wy := q.w * y2;
    var wz := q.w * z2;
    Vec3(
      (1.0 - (yy + zz)) * v.x + (xy - wz) * v.y + (xz + wy) * v.z,
      (xy + wz) * v.x + (1.0 - (xx + zz)) * v.y + (yz - wx) * v.z,
      (xz - wy) * v.x + (yz + wx) * v.y + (1.0 - (xx + yy)) * v.z)
  }

  /** `inverse(q) * v` for a unit `q`: the transposed rotation matrix, which is what
      rotating by the conjugate gives. */
  function InverseRotate(q: Quat, v: Vec3): Vec3 {
    var x2 := q.x * 2.0;
    var y2 := q.y * 2.0;
    var z2 := q.z * 2.0;
    var xx := q.x * x2;
    var yy := q.y * y2;
    var zz := q.z * z2;
    var xy := q.x * y2;
    var xz := q.x * z2;
    var yz := q.y * z2;
    var wx := q.w * x2;
    var wy := q.w * y2;
    var wz := q.w * z2;
    Vec3(
      (1.0 - (yy + zz)) * v.x + (xy + wz) * v.y + (xz - wy) * v.z,
      (xy - wz) * v.x + (1.0 - (xx + zz)) * v.y + (yz + wx) * v.z,
      (xz + wy) * v.x + (yz - wx) * v.y + (1.0 - (xx + yy)) * v.z)
  }

  lemma InverseRotateIdentity(v: Vec3)
    ensures InverseRotate(Identity, v) == v
  {
  }

  lemma RotateIdentity(v: Vec3)
    ensures Rotate(Identity, v) == v
  {
  }

  /** Rotating a vector in the local right-up plane is the same mix of the rotated
      right and up axes. */
  lemma RotateRightUpPlane(q: Quat, a: real, b: real)
    ensures Rotate(q, Vec3(a, b, 0.0)) == Add(Scale(Up(q), b), Scale(Right(q), a))
  {
    var r := Right(q);
    var u := Up(q);
    var v := Rotate(q, Vec3(a, b, 0.0));
    assert v.x == r.x * a + u.x * b;
    assert v.y == r.y * a + u.y * b;
    assert v.z == r.z * a + u.z * b;
  }

  lemma IdentityAxes()
    ensures Up(Identity) == WorldUp && Right(Identity) == WorldRight && Forward(Identity) == WorldForward
    ensures Conjugate(Identity) == Identity
  {
    IdentityUp();
    IdentityRight();
    IdentityForward();
  }

  lemma IdentityUp()
    ensures Up(Identity) == WorldUp
  {
    RotateIdentity(WorldUp);
  }

  lemma IdentityRight()
    ensures Right(Identity) == WorldRight
  {
    RotateIdentity(WorldRight);
  }

  lemma IdentityForward()
    ensures Forward(Identity) == WorldForward
  {
    RotateIdentity(WorldForward);
  }

  function Up(q: Quat): Vec3 {
    Rotate(q, WorldUp)
  }

  function Forward(q: Quat): Vec3 {
    Rotate(q, WorldForward)
  }

  function Right(q: Quat): Vec3 {
    Rotate(q, WorldRight)
  }
}
